=== FILE: README.md ===
# A Dafny model of the diva bootcamp API core

diva is an Express/Mongoose REST API for coding bootcamps. Each bootcamp has
courses and reviews, and users sign up as `user` or `publisher`. This project
models the decision logic of that API as pure Dafny functions over an
immutable store, and proves what the logic guarantees:

- the list-query builder `advancedResults`: reserved-key removal, the operator
  rewrite of the serialised filter, `select`/`sort` field lists,
  `parseInt(...) || default` paging, the skip/limit window and the
  `next`/`prev` links;
- the guards `protect` (bearer token to user) and `authorize(...roles)`;
- the bootcamp, course and account handlers, with every error branch and
  status code, including the owner-or-admin rule;
- the user, course and review schemas as validators, together with the
  `averageCost` / `averageRating` aggregates their save and remove hooks
  recompute;
- the route tables of the bootcamp, course, user and auth routers and the
  `/api/v1` mount points. This covers which handler a request line reaches,
  behind which middleware chain and with which route parameters.

Module layout, one file each:

| module | file | models |
|---|---|---|
| `Common` | common.dfy | `Option`, the handler `Reply`, `findOne`, `startsWith`, `split`, `join` |
| `Records` | records.dfy | the documents (`User`, `Bootcamp`, `Course`, `Review`), the `Store`, `findById`, the owner-or-admin rule |
| `QueryBuilder` | query_builder.dfy | middleware/advancedResults.js |
| `AuthMiddleware` | auth_middleware.dfy | middleware/auth.js |
| `UserModel` | user_model.dfy | models/user.js |
| `Averages` | averages.dfy | `Math.ceil` of a `$avg` |
| `CourseModel` | course_model.dfy | models/course.js |
| `ReviewModel` | review_model.dfy | models/review.js |
| `BootcampsController` | bootcamps.dfy | controllers/bootcamps.js |
| `CoursesController` | courses.dfy | controllers/course.js |
| `AuthController` | auth_controller.dfy | controllers/auth.js |
| `Routes` | routes.dfy | routes/bootcamps.js, routes/courses.js, routes/users.js, routes/auth.js and the mounts in app.js |

Conventions:

- A handler returns `Handled(reply, store)`. The reply is one of:
  - `Ok(status, value)`: a JSON success response.
  - `Fail(status, message)`: an `ErrorResponse` that carries its own status.
  - `Thrown(reason)`: any other exception raised in a handler wrapped in
    `asyncHandler`. The central error handler decides its status;
    middleware/error.js is not part of this model.
  - `Unhandled(reason)`: a rejected promise nothing awaits or catches.
    Express never sees it and no response is sent. The `unhandledRejection`
    listener in app.js closes the server and exits, so such a request stops
    the API. `advancedResults` is a bare `async` function, so all of its
    failures are of this kind. The un-awaited `sendEmail` in
    `forgotPassword` and `user.save()` in `resetPassword` reject this way
    after their reply went out (the `escaped` field of `Forgot`, and
    `ResetSaveRejection`).
- Collections are sequences in natural order, so `findOne` means "the first
  match". Bootcamps form a map from id to record.
- These become function parameters:
  - the clock (`now`);
  - randomness (the raw reset token, new ids);
  - SHA-256 (`hash`);
  - JWT signing and verification (`sign`, `verify`);
  - the e-mail pattern (`emailOk`);
  - the bootcamp schema validators (`schemaOk`);
  - how the e-mail dispatch ends (`Dispatch`);
  - `MAX_FILE_LIMIT` (`limit`).
- A stored password stands for its bcrypt hash. `comparePassword(p)` holds
  exactly when `p` is the credential the hash was computed from.

### Where the code decides

The code's behaviour is modelled as written, even where the design intent
reads differently:

- `total` in `advancedResults` is `countDocuments()` with no filter. `next`
  is therefore decided against the whole collection, not against the
  filtered result.
- An ownership failure answers 404 in the bootcamp handlers and 400 in the
  course handlers, never 403.
- `getBootcamp` answers 400, not 404, for an unknown id. `deleteBootcamp`
  answers a bare 404 with no message.
- `updateBootcamp` and `updateCourse` write every body path. A body `user`
  key therefore re-assigns the owner, so ownership is not immutable after
  creation. `createBootcamp` and `updateBootcamp` also accept the body's
  `averageCost` and `averageRating`, so those aggregates hold whatever the
  caller sent until a course or review hook recomputes them.
- A validated `save()` checks every loaded path, the role among them, and
  the role enum lists only `user` and `publisher` (models/user.js:34-38). An
  `admin` record, which can only be made outside the API, therefore fails
  every validated save: `updatePassword` answers with a ValidationError, and
  `resetPassword` answers 200 while its un-awaited save rejects and stops
  the server. Only `forgotPassword` saves with `validateBeforeSave: false`.
- `updateCourse` goes through `findByIdAndUpdate`, which fires no save hook.
  The parent's `averageCost` keeps its old value.
- A radius search whose zipcode is `courses` or `reviews` is captured by the
  nested course or review mount, which is registered first.

## Model

| member | source | states |
|---|---|---|
| Records.FindUser | middleware/auth.js:27 | `User.findById`: the result is a user of the collection with that id, and it is absent exactly when no user has that id |
| Records.UserIndex | controllers/auth.js:82 | the index of the first record with the id, agreeing with `FindUser`, and none iff no record has it |
| Records.FindCourse | controllers/course.js:71 | `Course.findById`: the result is a course of the collection with that id, and it is absent exactly when none has it |
| Common.FirstWhere | controllers/auth.js:100 | `findOne` in natural order: the index of the first match, no earlier element matches, and none is found exactly when nothing matches |
| Common.SplitJoinReplaces | middleware/advancedResults.js:23 | `split(a).join(b)` replaces every `a` by `b` and leaves every other character in place |
| Common.SplitJoin | middleware/advancedResults.js:23 | joining separator-free pieces and splitting again gives the same pieces back |
| QueryBuilder.Get | middleware/advancedResults.js:22 | `req.query[key]` is a value stored under that key, and it is undefined exactly when no entry has that key |
| QueryBuilder.RemoveReserved | middleware/advancedResults.js:5-12 | after deleting `select`, `sort`, `page` and `limit`, exactly the non-reserved entries remain; a query with no reserved key is unchanged |
| QueryBuilder.RemoveReservedAppend | middleware/advancedResults.js:5-12 | the deletion distributes over concatenation, so the kept entries stay in their original order |
| QueryBuilder.RemoveReservedOne | middleware/advancedResults.js:5-12 | a single entry is kept iff its key is not one of the four reserved ones |
| QueryBuilder.RewriteRoundTrip | middleware/advancedResults.js:15-17 | removing the `$` in front of each operator word undoes the rewrite, so no other character of the serialised filter changes |
| QueryBuilder.RewriteLeavesNoBareOperator | middleware/advancedResults.js:17 | after the rewrite, no whole-word `gt`, `gte`, `lt`, `lte` or `in` is left without a `$` in front |
| QueryBuilder.RewriteConcat | middleware/advancedResults.js:17 | the global replace over a concatenation at a word boundary is the concatenation of the separate replaces |
| QueryBuilder.RewriteActsPerLiteral | middleware/advancedResults.js:15-17 | the rewrite of `JSON.stringify(reqQuery)` acts on each string literal separately, on keys and values alike |
| QueryBuilder.FieldList | middleware/advancedResults.js:22-33 | `select`/`sort`: a non-string value throws; absent or empty means no list; otherwise the commas become spaces |
| QueryBuilder.FieldListKeepsOrder | middleware/advancedResults.js:23 | the space list splits back into the comma list's fields, in their order, when no field contains a space |
| QueryBuilder.ParseDecimal | middleware/advancedResults.js:36-37 | `parseInt(String(n), 10)` is `n` for every integer, negatives included |
| QueryBuilder.OrDefault | middleware/advancedResults.js:36-37 | `parsed \|\| d` is never zero; `NaN` and `0` fall back to the default and any other value is kept |
| QueryBuilder.PageParameter | middleware/advancedResults.js:36 | a decimal page number is used as written, and `0` or an absent key gives page 1 |
| QueryBuilder.Matching | middleware/advancedResults.js:19 | the documents the filter accepts: every accepted document and nothing else |
| QueryBuilder.Window | middleware/advancedResults.js:42 | `skip(s).limit(n)` yields the documents at positions `s`, `s+1`, ..., at most `n` of them and as many as remain |
| QueryBuilder.PagingOf | middleware/advancedResults.js:36-38 | page and limit are never zero, and `startIndex = (page - 1) * limit` |
| QueryBuilder.Paginate | middleware/advancedResults.js:40-65 | the page holds the accepted documents from `skip` on, in order, and has exactly `min(limit, accepted - skip)` of them (none past the end); `next` is present iff `page * limit < total`, pointing at page+1; `prev` is present iff `startIndex > 0`, pointing at page-1 |
| QueryBuilder.AdvancedResults | middleware/advancedResults.js:1-75 | a non-string `select`/`sort` and a negative skip are unhandled rejections that stop the server, and nothing else fails; otherwise the criteria are the query with the reserved keys removed, `select` and `sort` are the comma lists split, the filter is the rewritten serialisation, the page and links are `Paginate`'s, and `count` is the page length |
| QueryBuilder.UnfilteredPagination | middleware/advancedResults.js:53-65 | with no filter and a positive limit, `next` appears iff the following page is non-empty and `prev` iff the page is at least 2 |
| QueryBuilder.NegativeLimitNext | middleware/advancedResults.js:37-65 | a negative limit on page 1 advertises a `next` link over any non-empty collection, and following it stops the server on the negative skip |
| QueryBuilder.ObjectSelectStopsServer | middleware/advancedResults.js:22-23 | a bracketed `select[a]=1` makes `select` an object, and the failed `split` stops the server |
| QueryBuilder.HandledAdvancedResults | middleware/advancedResults.js:1-75 | wrapped in `asyncHandler`, the same failures reach the error handler, no request stops the server, and every other request gets the unwrapped listing |
| AuthMiddleware.BearerToken | middleware/auth.js:9-14 | the token is the second space-separated piece of a header that starts with `Bearer`, and empty otherwise |
| AuthMiddleware.Protect | middleware/auth.js:6-33 | 401 `Access Denied... ` iff there is no token or it does not verify; otherwise the request is admitted with `findById` of the verified id, which may be null |
| AuthMiddleware.Authorize | middleware/auth.js:37-46 | a null user throws; a listed role is admitted unchanged; any other role gets 403 naming the role |
| AuthMiddleware.BearerRoundTrip | middleware/auth.js:9-14 | `Bearer <token>` yields exactly `<token>` |
| AuthMiddleware.BearerPiece | middleware/auth.js:9-14 | any first word that starts with `Bearer` (`BearerX` too, since the test is on characters only) followed by a space and a token yields exactly the token |
| AuthMiddleware.BareSchemeRefused | middleware/auth.js:9-22 | a bare `Bearer` header is refused exactly like a missing header |
| AuthMiddleware.InvalidLikeMissing | middleware/auth.js:20-30 | a token that fails verification gets the same answer as no token |
| AuthMiddleware.GuardedAdmits | middleware/auth.js:6-46 | `protect` then `authorize(roles)` admits exactly an existing user with the verified id and a listed role |
| UserModel.RoleFromBody | models/user.js:34-38 | the role enum: absent gives `user`; `user` and `publisher` are accepted; anything else fails validation; `admin` is never produced |
| UserModel.AdminSaveRefused | models/user.js:34-38 | a validated save of a user accepts iff the password is present and strong and the role is not `admin`, which the schema enum lacks |
| UserModel.CheckPassword | models/user.js:24-32 | one pass over the password decides the strength pattern exactly |
| UserModel.PasswordExamples | models/user.js:29 | concrete accept and reject decisions of the strength pattern |
| UserModel.IssueResetToken | models/user.js:74-89 | returns the raw token, stores its digest with an expiry ten minutes after `now`, and changes no other field |
| Averages.CeilMean | models/course.js:70 | `Math.ceil` of the mean: the least integer whose multiple of the count reaches the sum |
| Averages.CeilMeanBounds | models/review.js:58 | the rounded mean stays within any bounds every value keeps |
| Averages.SumAppend | models/course.js:54-75 | the sum of a concatenation is the sum of the sums |
| CourseModel.Tuitions | models/course.js:54-66 | the tuitions `$avg` reads are at most one per course |
| CourseModel.TuitionsAppend | models/course.js:54-66 | the tuitions of a concatenation are those of its two parts, in order |
| CourseModel.AverageCost | models/course.js:54-75 | none when the bootcamp has no course; 0 when no course has a tuition; otherwise the ceiling of the mean tuition |
| CourseModel.OtherCoursesIgnored | models/course.js:57 | courses of other bootcamps never move a bootcamp's average |
| CourseModel.AverageCostBounds | models/course.js:54-75 | the stored average stays within any bounds the tuitions keep |
| CourseModel.RecomputeAverageCost | models/course.js:69-74 | only that bootcamp's `averageCost` changes, and nothing changes when it has no course |
| CourseModel.SaveCourse | models/course.js:3-52 | a course is created iff it passes the validators and its id is new; it is appended, and the post-save hook sets its bootcamp's average over the new collection; every other bootcamp, and every other field of the parent, is unchanged |
| CourseModel.RemoveCourse | models/course.js:83-85 | the course is removed; its bootcamp's `averageCost` becomes the average of the remaining courses, or stays as it was when none remain; every other bootcamp and every other field of the parent is unchanged |
| CourseModel.LastCourseLeavesCost | models/course.js:68-74 | removing a bootcamp's last course leaves its stored average stale, because the error is swallowed |
| ReviewModel.Ratings | models/review.js:42-54 | the ratings are empty exactly when no review belongs to the bootcamp |
| ReviewModel.RatingsInRange | models/review.js:15-20 | ratings of valid reviews lie in [1, 10] |
| ReviewModel.AverageRating | models/review.js:42-63 | none when the bootcamp has no review, otherwise the ceiling of the mean rating |
| ReviewModel.AverageRatingInRange | models/review.js:15-20 | the average rating of valid reviews lies in [1, 10] |
| ReviewModel.RecomputeAverageRating | models/review.js:56-62 | only that bootcamp's `averageRating` changes, and nothing changes when it has no review |
| ReviewModel.SaveReview | models/review.js:3-40 | a review is created iff it is valid, the (bootcamp, user) pair is new and its id is new; the hook then sets the bootcamp's average; every other bootcamp, and every other field of the parent, is unchanged |
| ReviewModel.RemoveReview | models/review.js:71-73 | the review is removed; its bootcamp's `averageRating` becomes the average of the remaining reviews, or stays as it was when none remain; every other bootcamp and every other field of the parent is unchanged |
| ReviewModel.SaveKeepsUnique | models/review.js:40 | the unique (bootcamp, user) index holds after every accepted save |
| ReviewModel.SecondReviewRefused | models/review.js:40 | a second review of the same bootcamp by the same user is refused |
| ReviewModel.RemoveKeepsUnique | models/review.js:40 | removal keeps the unique index |
| ReviewModel.SavedRatingInRange | models/review.js:15-20 | after a save over valid reviews, the stored average rating lies in [1, 10] |
| BootcampsController.GetBootcamp | controllers/bootcamps.js:19-27 | 200 with the record iff the id exists, otherwise 400 |
| BootcampsController.CastNumber | controllers/bootcamps.js:43-69 | the body string for a `Number` path: empty casts to null, a cast value is the number the string writes, anything else fails |
| BootcampsController.CastDecimal | controllers/bootcamps.js:43-69 | what `String(n)` writes casts back to `n` |
| BootcampsController.Aggregate | controllers/bootcamps.js:43-69 | an aggregate path keeps its value unless the body sets it; a set value is null exactly for the empty string, else the number written |
| BootcampsController.Written | controllers/bootcamps.js:33-43 | the string fields a body writes are exactly its keys other than `user` and the two aggregates, with their values |
| BootcampsController.CreateBootcamp | controllers/bootcamps.js:32-46 | the owner is the caller whatever the body says; a non-admin who already owns a bootcamp gets 400 and nothing is written; a body aggregate that fails the cast is refused; otherwise 201 and the bootcamp is stored with the body's fields and aggregates |
| BootcampsController.CreateThenGet | controllers/bootcamps.js:19-46 | a created bootcamp is then served by `getBootcamp` under its new id, and every other id reads as before |
| BootcampsController.CreateBootcampKeepingAggregates | controllers/bootcamps.js:32-46 | with the aggregate keys dropped, a new bootcamp has no averages, and bodies without them are handled exactly as by `createBootcamp` |
| BootcampsController.SecondBootcampRefused | controllers/bootcamps.js:35-41 | a publisher's second bootcamp is refused with 400 |
| BootcampsController.AdminNeverLimited | controllers/bootcamps.js:37 | an admin is never refused by the one-bootcamp rule |
| BootcampsController.UpdateBootcamp | controllers/bootcamps.js:51-72 | 404 for an unknown id; 404 for a caller who is neither owner nor admin; a body aggregate that fails the cast throws; otherwise the body is merged, a body `user` key included, and a body `averageCost`/`averageRating` overwrites the stored aggregate |
| BootcampsController.OwnerForgesRating | controllers/bootcamps.js:66-69 | an owner's body `{"averageRating": "10"}` stores a rating of 10 whatever the reviews say |
| BootcampsController.UpdateBootcampKeepingAggregates | controllers/bootcamps.js:51-72 | with the aggregate keys dropped, a successful update keeps both stored averages, and bodies without them are handled exactly as by `updateBootcamp` |
| BootcampsController.DeleteBootcamp | controllers/bootcamps.js:77-94 | a bare 404 for an unknown id; 404 for a stranger; otherwise the bootcamp is removed and the store changes in nothing else |
| BootcampsController.DeleteBootcampThenGone | controllers/bootcamps.js:19-94 | after a delete, `getBootcamp` answers the id with 400 like an id that never existed, and every other id reads as before |
| BootcampsController.StrangerCannotMutate | controllers/bootcamps.js:60-64 | a non-admin non-owner can neither update nor delete, and the store is unchanged |
| BootcampsController.Ext | controllers/bootcamps.js:160 | `path.parse(name).ext` is empty or a dot followed by neither `/` nor another dot |
| BootcampsController.ExtOfPlainName | controllers/bootcamps.js:160 | `stem.ext` keeps `.ext` |
| BootcampsController.PhotoProblem | controllers/bootcamps.js:144-157 | a file is refused iff it is not an image or exceeds a set limit |
| BootcampsController.PhotoName | controllers/bootcamps.js:160 | the stored name is `photo_` + bootcamp id + the original extension |
| BootcampsController.PhotoGate | controllers/bootcamps.js:123-142 | the shared checks pass iff the bootcamp exists, the caller owns it or is an admin, and a file was uploaded; an unknown id gets 400, a non-owner 404 `User not authorize to update this route`, a request without files 404 `Please upload an image`, and a missing `file` field throws |
| BootcampsController.PhotoUploadAsWritten | controllers/bootcamps.js:146-157 | as written, a refused file raises an error without a status |
| BootcampsController.PhotoUpload | controllers/bootcamps.js:122-175 | 200 with the new name stored as the bootcamp's `photo` iff every check passes, and nothing else in the store changes; a refused file gets 400 and changes nothing |
| BootcampsController.NonImageLosesStatus | controllers/bootcamps.js:146-148 | an owner's text upload: no status as written, 400 once corrected |
| BootcampsController.PhotoVersionsAgree | controllers/bootcamps.js:122-175 | both versions agree on every request the content checks do not refuse |
| CoursesController.CoursesOf | controllers/course.js:13-14 | the courses of a bootcamp: each one belongs to it, and every course of it is included |
| CoursesController.CoursesOfAppend | controllers/course.js:13-14 | the selection distributes over concatenation, so the courses keep their collection order and multiplicity |
| CoursesController.CoursesOfOne | controllers/course.js:13-14 | a single course is selected iff it belongs to the bootcamp |
| CoursesController.GetCourses | controllers/course.js:10-25 | filtered by `bootcampId` when the route carries one, all courses otherwise |
| CoursesController.GetCourse | controllers/course.js:30-41 | 200 with the course iff the id exists, else 404 `Course not found` |
| CoursesController.AddCourse | controllers/course.js:46-64 | 404 when the parent is missing, then 400 for a non-owner; otherwise the course is stamped with the route's bootcamp and the caller, validated and stored |
| CoursesController.ListingAfterAppend | controllers/course.js:10-25 | appending a course appends it to every listing that selects it and leaves the other listings unchanged |
| CoursesController.AddCourseThenListed | controllers/course.js:10-64 | after an add, the bootcamp's listing is the old listing with the new course at its end, and every other non-empty bootcamp id lists as before |
| CoursesController.AddCourseRefreshesCost | controllers/course.js:61 | a successful add appends the course and refreshes the parent's `averageCost` to count it |
| CoursesController.Updated | controllers/course.js:103-106 | the update writes every body path, `bootcamp` and `user` included, and keeps the id |
| CoursesController.UpdateCourse | controllers/course.js:91-109 | 404 for an unknown id; 400 when the caller owns neither the course nor the admin role; otherwise exactly that course is replaced and nothing else changes |
| CoursesController.UpdateLeavesCostStale | controllers/course.js:103-106 | an update leaves every stored `averageCost` as it was |
| CoursesController.DeleteCourse | controllers/course.js:70-85 | 404, then 400 for a non-owner; otherwise exactly one copy of the course `findById` found is removed and every other course stays (with distinct ids, none with that id is left); users and reviews are unchanged; its bootcamp keeps every field but `averageCost`, which is recomputed, or kept as it was when no course of it remains; every other bootcamp is unchanged |
| CoursesController.RemovedAt | controllers/course.js:82 | removing the course at an index keeps every other course and drops one copy of it, and with distinct ids leaves none with its id |
| CoursesController.DeleteThenGone | controllers/course.js:30-85 | after an owner's or admin's delete the id answers 404, and every other course is found as before, given distinct ids |
| CoursesController.FindOnly | controllers/course.js:31 | a course whose id no other course carries is what `findById` finds |
| CourseModel.SaveKeepsDistinctIds | models/course.js:3-52 | creating a course keeps course ids distinct |
| CoursesController.MissingCourseUntouched | controllers/course.js:73-75 | a missing course is never updated or deleted, whoever asks |
| AuthController.UserByEmail | controllers/auth.js:25 | `findOne({ email })`: the first user with that address, and none exactly when no user has it |
| AuthController.Register | controllers/auth.js:10-17 | created iff the schema validates and the address and id are new; the new user is appended with the validated role and a token is returned |
| AuthController.RegisterNeverAdmin | controllers/auth.js:14 | registration never creates an admin |
| AuthController.Login | controllers/auth.js:22-40 | a token iff the address exists and the password matches; every refusal is 401 `Invalid Credentials` |
| AuthController.LoginFailuresAlike | controllers/auth.js:28-37 | an unknown address and a wrong password get the same answer |
| AuthController.UpdateDetails | controllers/auth.js:64-77 | the caller's record, at its index, is replaced by the answered user, whose name and e-mail are the body's; every other record is unchanged; an unknown caller gets 401 |
| AuthController.DetailsKeepCredentials | controllers/auth.js:65 | a details update keeps every id, password, role and reset field |
| AuthController.UpdatePassword | controllers/auth.js:82-94 | a wrong current password gets 401 and changes nothing; otherwise the caller's password, and nothing else, is set iff the save validates: the new password is strong and the stored role is one the schema enum accepts |
| AuthController.PasswordChangeThenLogin | controllers/auth.js:82-94 | after a password change, logging in with the new password succeeds and with the previous one answers 401 |
| AuthController.AdminCannotChangePassword | controllers/auth.js:89-91 | an admin's password change is refused by validation and changes nothing |
| AuthController.Cleared | controllers/auth.js:131-132 | both reset fields are cleared and nothing else changes |
| AuthController.ForgotPasswordAsWritten | controllers/auth.js:99-137 | as written: the link points at `/api/v1/forgotpassword/<token>`, only a throw at the call itself rolls the token back (which the async `sendEmail` never does), and a rejected dispatch escapes after `Email Sent`, stopping the server |
| AuthController.ForgotPassword | controllers/auth.js:99-137 | 404 for an unknown address; otherwise the reset link is mailed and either the dispatch succeeds and the token is stored, or both reset fields are cleared and the answer is 500; no rejection escapes |
| AuthController.RejectedMailKeepsToken | controllers/auth.js:117-127 | a rejected mail still answers `Email Sent` with a live token and an escaped rejection as written, and 500 with no token and nothing escaped once awaited |
| AuthController.ResetPassword | controllers/auth.js:142-166 | 404 unless some user holds the digest of the parameter and its expiry is later than now; otherwise the first such user's token is answered with 200, and that user gets the new password and cleared reset fields iff the save validates, the store being unchanged otherwise |
| AuthController.Redeemer | controllers/auth.js:150-153 | the index of the first user holding the digest with an unexpired deadline, and none iff no user does |
| AuthController.ResetSaveRejection | controllers/auth.js:150-164 | the un-awaited save rejects exactly when a user was found and the save does not validate: the password is missing or weak, or the user is an admin |
| AuthController.WeakResetStopsServer | controllers/auth.js:159-165 | a live link redeemed with a weak password answers 200 with a token, changes nothing, and its save rejection stops the server |
| AuthController.AdminResetStopsServer | controllers/auth.js:159-165 | an admin redeeming a live link with a strong password gets 200 with a token, the password is not changed, and the save rejection stops the server |
| AuthController.ResetPasswordAwaited | controllers/auth.js:142-166 | with the save awaited: nothing escapes; 404 without a live link; success iff the save validates, writing the password; a failed save changes nothing; when the save would have validated the reply and store are those of the handler as written |
| AuthController.IssueThenRedeem | controllers/auth.js:99-166 | a token issued and redeemed within ten minutes resets exactly the requesting user, when that user is not an admin |
| AuthController.RedeemOnce | controllers/auth.js:162-163 | a redeemed token answers 404 the second time, when its holder is not an admin |
| AuthController.ExpiredTokenRefused | controllers/auth.js:152 | a token is refused once its ten minutes are up |
| AuthController.RolledBackTokenRefused | controllers/auth.js:128-136 | after a failed dispatch the link cannot be redeemed |
| Routes.MatchPatternFits | routes/bootcamps.js:25-40 | a route pattern matches iff literals are equal and every parameter segment is non-empty |
| Routes.ResolveIn | routes/courses.js:13-22 | a router serves the first route that matches, or falls through having run only its own router-level middleware |
| Routes.ResolveInDeclared | routes/courses.js:13-22 | the route a router serves is one of its entries, for the request's method, behind the router-level prefix |
| Routes.ResolveDeclared | app.js:56-60 | every handler a request reaches is declared in a table with exactly the chain it was declared with; an unmatched request has run no guard, or only the users router's |
| Routes.RunChain | middleware/auth.js:6-46 | a chain with no guard admits the request unchanged |
| Routes.NoHeaderRefused | middleware/auth.js:20-22 | a chain that opens with `protect` refuses a request without a header with 401 |
| Routes.GuardAdmitsListedRoles | routes/bootcamps.js:30 | `protect, authorize(roles)` admits only an existing user with a listed role |
| Routes.MutationsGuarded | routes/courses.js:16-22 | every bootcamp and course mutation is declared behind `protect, authorize('publisher', 'admin')` |
| Routes.BootcampMutationsGuarded | routes/bootcamps.js:30-40 | the four bootcamp mutations sit behind the publisher-or-admin guard |
| Routes.CourseMutationsGuarded | routes/courses.js:16-22 | the three course mutations sit behind the publisher-or-admin guard |
| Routes.OtherTablesDoNotMutate | routes/users.js:18-20 | the users and auth routers declare no bootcamp or course mutation |
| Routes.MutationsNeedPublisherOrAdmin | routes/bootcamps.js:27-40 | end to end, whatever the request line and token, a bootcamp or course mutation runs only for an existing publisher or admin |
| Routes.UsersRouterGuarded | routes/users.js:15-16 | every request under `/api/v1/users` meets `protect` then `authorize('admin')` first, matched or not |
| Routes.UsersRouterAdminsOnly | routes/users.js:15-16 | a request the users router admits runs with the user `protect` found, who exists and is an admin |
| Routes.AdmittedUserKept | middleware/auth.js:6-46 | after `protect` has admitted a user, any further steps admit only that same user |
| Routes.AuthRoutesGuards | routes/auth.js:16-23 | the auth router never gates on role, and `protect` guards exactly `me`, `updatedetails` and `updatepassword` |
| Routes.SegmentsOf | app.js:56-60 | the segments of a path built from non-empty, slash-free pieces are those pieces |
| Routes.SkipRoutes | routes/bootcamps.js:25-40 | routes that differ in method or segment count are passed over |
| Routes.TakeRoute | routes/bootcamps.js:25-40 | a route whose method and pattern fit serves the request, with the inherited and matched parameters |
| Routes.BootcampListQueried | routes/bootcamps.js:27-29 | `GET /api/v1/bootcamps` runs `advancedResults(Bootcamp, 'courses')` then `getBootcamps`, with no guard |
| Routes.BootcampPublic | routes/bootcamps.js:32-34 | `GET /api/v1/bootcamps/:id` is public and binds `id` |
| Routes.RadiusPublic | routes/bootcamps.js:22-25 | the radius search is public and binds both parameters, unless the zipcode is taken by a nested mount |
| Routes.NestedCourses | routes/bootcamps.js:22 | the nested course list is public and sees `bootcampId`; adding a course there is guarded |
| Routes.ResetLinkMissesRoute | controllers/auth.js:111-113 | the e-mailed reset link as written reaches no route |
| Routes.ResetLinkReachesRoute | routes/auth.js:23 | the corrected link reaches `resetPassword` with the raw token as `resettoken` |

## Left out

- app.js middleware (morgan, cookie parser, static files, file upload parser, mongo-sanitize, helmet, xss-clean, hpp, cors, rate limit) and the central error handler: libraries outside the core. `Thrown` stands for whatever reaches the error handler, and `Unhandled` for what bypasses it.
- `getBootcampsByRadius` (controllers/bootcamps.js:99-117): it only calls the geocoder and a geospatial query. Only its route is modelled.
- `file.mv` and the callback that stores the photo name: file system I/O. `PhotoUpload` stores the name directly; the move error, which is returned and never sent, is not modelled.
- bcrypt, JWT, SHA-256 and random bytes: treated as uninterpreted parameters.
- MongoDB evaluation of the filter text (`keep` is a parameter), sorting, projection and `populate`.
- Floating-point tuition and rating: values are integers, so `$avg` is exact before `Math.ceil`.
- The race between `findOne` and `create` in `createBootcamp`: handlers run one at a time.
- The e-mail regular expression of the user schema: a parameter `emailOk`.
- Mongoose `trim` on the course title, and body fields sent as non-strings.
- The pre-save password hook (models/user.js:49-58). It attempts to rehash on every save because `next()` is not followed by `return`; since a stored password stands for its hash, this is not observable here.
- The post-save and post-remove hooks run before the response in the model. In the source they are not awaited.
- Cascade deletes of a bootcamp's courses and reviews: the bootcamp schema is not part of this model.
- The users controller and the reviews router and controller: not part of this model. Their routes are modelled up to the handler name, and the reviews mount up to `ReviewsRouter`.
- Logout and the profile handler: they only set a cookie or echo `req.user`. The cookie options of the token response are left out too.
- The shutdown itself: an `Unhandled` reply marks the request that stops the server; the requests in flight while it closes are not modelled.
- `bootcamp.remove()` in `deleteBootcamp` is not awaited either; the model takes the removal to succeed.
- Malformed route ids: every `:id` and `:bootcampId` is taken to be a well-formed ObjectId. With any other string, `findById` fails with a `CastError`, which reaches the error handler, instead of returning null. So `GET /api/v1/bootcamps/abc` does not get the 400 that `GetBootcamp` states for an unknown id.
- Express's case-insensitive matching and URL decoding of path segments: paths are compared as given.
- Strings are sequences of Unicode scalar values, while JavaScript counts UTF-16 code units. The lengths of text outside the Basic Multilingual Plane therefore differ: the 8-character password minimum and the 100-character review title limit count each such character once where JavaScript counts it twice. `parseInt` precision beyond 2^53 is not modelled.
- BootcampsController.CastNumber: only the empty string and decimal integers written as `String(n)` writes them are cast. Other numerals Mongoose's `Number` cast accepts (fractions, exponents, leading zeros or `+`, surrounding blanks) are modelled as cast failures, because averages are integers here.
- Routes.RunChain: treats the `advancedResults` step as a pass-through; its failures are stated by `QueryBuilder.AdvancedResults` instead.
- QueryBuilder.AdvancedResults: sorting is left to the store, so the page is stated over the accepted documents in natural order.
- CourseModel.CourseValid and the bootcamp `schemaOk` parameter: only presence, non-emptiness and the `minimumSkill` enum are checked; Mongoose's type casting is not modelled.
- QueryBuilder.Value: a query value is a string, a flat list of strings, or one level of bracketed keys holding strings. The query parser also builds a list inside brackets (`careers[in]=A&careers[in]=B`) and deeper nesting (`a[b][c]=1`); neither is representable, so the serialisation and `$`-rewrite of such queries are not modelled.
- QueryBuilder.Serialize: keys are written in the order the query gives them. `JSON.stringify` writes integer-like keys (`"0"`, `"12"`) first, in ascending order, ahead of the others; the model does not reorder them.
- AuthController.IssueThenRedeem and AuthController.RedeemOnce: hold only for a user whose role is not `admin`. An admin's validated save is refused by the role enum, so the password is not written and the token stays live (AuthController.AdminResetStopsServer).
- Routes.ResolveIn: its ensures says only served-or-fallen-through; which route is taken is stated by Routes.TakeRoute, Routes.SkipRoutes and the concrete route lemmas.

## Findings

| source | as written | input that shows it | evidently intended | confidence | as-written member | corrected member |
|---|---|---|---|---|---|---|
| controllers/bootcamps.js:146-157 | `next(new ErrorResponse('File must be an image'), 400)` passes 400 to `next`, not to `ErrorResponse` (the size check does the same) | the owner uploads `notes.txt` with type `text/plain` | the refusal answers 400 | not executed | BootcampsController.PhotoUploadAsWritten, BootcampsController.NonImageLosesStatus | BootcampsController.PhotoUpload |
| controllers/auth.js:111-113 | the e-mailed link is `/api/v1/forgotpassword/<token>` | any registered address; `PUT` on the link resolves to no route | the link is `/api/v1/auth/resetpassword/<token>`, the route in routes/auth.js:23 | not executed | AuthController.ForgotPasswordAsWritten, Routes.ResetLinkMissesRoute | AuthController.ForgotPassword, Routes.ResetLinkReachesRoute |
| controllers/auth.js:117-136 | the async `sendEmail` is called without `await`, so a rejected dispatch skips the `catch`; the rejection then reaches the `unhandledRejection` listener (app.js:75-81), which shuts the server down | a registered address whose mail the transport rejects: answer `Email Sent`, token kept, server stopped | the rejection clears the token and answers 500 | not executed | AuthController.ForgotPasswordAsWritten, AuthController.RejectedMailKeepsToken | AuthController.ForgotPassword |
| middleware/advancedResults.js:1-75 | the middleware is a bare `async` function, not wrapped in `asyncHandler`; a non-string `select` or `sort`, or a negative skip, rejects its promise, and the `unhandledRejection` listener (app.js:75-81) closes the server | anyone, signed in or not: `GET /api/v1/bootcamps?select[a]=1` | the failure reaches the error handler and the server keeps running | not executed | QueryBuilder.AdvancedResults, QueryBuilder.ObjectSelectStopsServer | QueryBuilder.HandledAdvancedResults |
| controllers/auth.js:159-165 | `user.save()` is called without `await` before the token is sent, so a save the validators refuse rejects after the 200 went out, and the rejection reaches the `unhandledRejection` listener (app.js:75-81), which closes the server | a live reset link redeemed with a weak password, or any live link whose holder is an `admin` | the save is awaited: a refused save reaches the error handler, nothing is answered with a token, and the server keeps running | not executed | AuthController.ResetPassword, AuthController.WeakResetStopsServer, AuthController.AdminResetStopsServer | AuthController.ResetPasswordAwaited |
| controllers/bootcamps.js:43-69 | `Bootcamp.create(req.body)` and `findByIdAndUpdate(id, req.body)` write the body's `averageCost` and `averageRating`, the aggregates the course and review hooks maintain | the owner sends `PUT /api/v1/bootcamps/:id` with `{"averageRating": "10"}` for a bootcamp nobody reviewed | only the hooks set the aggregates | not executed | BootcampsController.UpdateBootcamp, BootcampsController.OwnerForgesRating | BootcampsController.UpdateBootcampKeepingAggregates, BootcampsController.CreateBootcampKeepingAggregates |

=== FILE: auth_controller.dfy ===
/** The account handlers: registration, login, the two self-service updates
    and the password-reset pair. `sign(id)` stands for the JWT issued for
    user `id`, `hash` for SHA-256 to hex, `now` for `Date.now()` and
    `emailOk` for the e-mail pattern of the user schema. A stored password
    stands for its bcrypt hash: `comparePassword(p)` holds exactly when `p`
    is the credential it was computed from. */
module AuthController {
  import opened Common
  import opened Records
  import opened UserModel

  const InvalidCredentials: string := "Invalid Credentials"

  /** `User.findOne({ email })` */
  function UserByEmail(users: seq<User>, email: string): (r: Option<nat>)
    ensures r.Some? ==> r.value < |users| && users[r.value].email == email
    ensures r.Some? ==> forall j :: 0 <= j < r.value ==> users[j].email != email
    ensures r.None? <==> forall j :: 0 <= j < |users| ==> users[j].email != email
  {
    FirstWhere(users, (u: User) => u.email == email)
  }

  // ---------------------------------------------------------------------
  // register, login

  datatype RegisterBody = RegisterBody(name: Option<string>, email: Option<string>, password: Option<string>, role: Option<string>)

  /** The user schema's validators on a new account. */
  predicate RegisterValid(b: RegisterBody, emailOk: string -> bool)
  {
    && b.name.Some? && b.name.value != ""
    && b.email.Some? && b.email.value != "" && emailOk(b.email.value)
    && b.password.Some? && StrongPassword(b.password.value)
    && RoleFromBody(b.role).Some?
  }

  /** `register`: `User.create` with the four body fields; a rejected
      validation or an e-mail already in use throws. */
  function Register(body: RegisterBody, newId: Id, emailOk: string -> bool, sign: Id -> string, store: Store): (h: Handled<string>)
    ensures h.reply.Ok? <==>
              RegisterValid(body, emailOk) && UserByEmail(store.users, body.email.value).None? &&
              FindUser(store.users, newId).None?
    ensures !h.reply.Ok? ==> h.reply.Thrown? && h.store == store
    ensures h.reply.Ok? ==>
              && h.reply == Ok(200, sign(newId))
              && h.store.users == store.users + [User(newId, body.name.value, body.email.value, body.password.value,
                                                      RoleFromBody(body.role).value, None, None)]
              && h.store.bootcamps == store.bootcamps && h.store.courses == store.courses && h.store.reviews == store.reviews
  {
    if !RegisterValid(body, emailOk) then Handled(Thrown("ValidationError"), store)
    else if UserByEmail(store.users, body.email.value).Some? || FindUser(store.users, newId).Some? then
      Handled(Thrown("E11000 duplicate key error"), store)
    else
      var u := User(newId, body.name.value, body.email.value, body.password.value, RoleFromBody(body.role).value, None, None);
      Handled(Ok(200, sign(newId)), store.(users := store.users + [u]))
  }

  /** Registration never creates an administrator, whatever role the body
      asks for. */
  lemma RegisterNeverAdmin(body: RegisterBody, newId: Id, emailOk: string -> bool, sign: Id -> string, store: Store)
    requires Register(body, newId, emailOk, sign, store).reply.Ok?
    ensures var us := Register(body, newId, emailOk, sign, store).store.users;
      us[|us| - 1].role != AdminRole && us[|us| - 1].id == newId
  {
  }

  /** `login`: an unknown e-mail and a wrong password both answer the same
      401; a missing password makes `bcrypt.compare` throw. */
  function Login(email: string, password: Option<string>, sign: Id -> string, store: Store): (r: Reply<string>)
    ensures UserByEmail(store.users, email).None? ==> r == Fail(401, InvalidCredentials)
    ensures r.Ok? <==>
              UserByEmail(store.users, email).Some? && password.Some? &&
              store.users[UserByEmail(store.users, email).value].password == password.value
    ensures r.Ok? ==> r == Ok(200, sign(store.users[UserByEmail(store.users, email).value].id))
    ensures r.Fail? ==> r == Fail(401, InvalidCredentials)
  {
    match UserByEmail(store.users, email)
    case None => Fail(401, InvalidCredentials)
    case Some(i) =>
      if password.None? then Thrown("Illegal arguments: undefined, string")
      else if store.users[i].password != password.value then Fail(401, InvalidCredentials)
      else Ok(200, sign(store.users[i].id))
  }

  /** A caller cannot tell an unknown address from a wrong password. */
  lemma LoginFailuresAlike(known: string, unknown: string, wrong: string, sign: Id -> string, store: Store)
    requires UserByEmail(store.users, unknown).None?
    requires UserByEmail(store.users, known).Some?
    requires store.users[UserByEmail(store.users, known).value].password != wrong
    ensures Login(unknown, Some(wrong), sign, store) == Login(known, Some(wrong), sign, store)
  {
  }

  // ---------------------------------------------------------------------
  // updatedetails, updatepassword

  /** `updateDetails`: writes `name` and `email` of the caller's record and
      nothing else; the update validators and the unique e-mail index still
      apply. */
  function UpdateDetails(caller: Option<User>, name: string, email: string, emailOk: string -> bool, store: Store): (h: Handled<User>)
    ensures caller.None? ==> h.reply.Thrown?
    ensures caller.Some? && FindUser(store.users, caller.value.id).None? ==> h.reply == Fail(401, InvalidCredentials)
    ensures !h.reply.Ok? ==> h.store == store
    ensures h.reply.Ok? ==>
              && caller.Some? && FindUser(store.users, caller.value.id).Some?
              && h.reply.status == 200
              && h.reply.value == FindUser(store.users, caller.value.id).value.(name := name, email := email)
              && h.store.bootcamps == store.bootcamps && h.store.courses == store.courses && h.store.reviews == store.reviews
              && h.store.users == store.users[UserIndex(store.users, caller.value.id).value := h.reply.value]
              && (forall j :: 0 <= j < |store.users| && store.users[j].id != caller.value.id ==> h.store.users[j] == store.users[j])
  {
    if caller.None? then Handled(Thrown("Cannot read properties of null (reading 'id')"), store)
    else
      match UserIndex(store.users, caller.value.id)
      case None => Handled(Fail(401, InvalidCredentials), store)
      case Some(i) =>
        var u := store.users[i];
        if name == "" || email == "" || !emailOk(email) then Handled(Thrown("ValidationError"), store)
        else if exists j :: 0 <= j < |store.users| && j != i && store.users[j].email == email then
          Handled(Thrown("E11000 duplicate key error"), store)
        else
          var u' := u.(name := name, email := email);
          Handled(Ok(200, u'), store.(users := store.users[i := u']))
  }

  /** Details updates keep the password, the role and the reset fields. */
  lemma DetailsKeepCredentials(caller: Option<User>, name: string, email: string, emailOk: string -> bool, store: Store)
    requires UpdateDetails(caller, name, email, emailOk, store).reply.Ok?
    ensures var us := UpdateDetails(caller, name, email, emailOk, store).store.users;
      forall j :: 0 <= j < |us| ==>
        && us[j].id == store.users[j].id
        && us[j].password == store.users[j].password
        && us[j].role == store.users[j].role
        && us[j].resetToken == store.users[j].resetToken
        && us[j].resetExpire == store.users[j].resetExpire
  {
  }

  /** `updatePassword`: the current password must match (else 401); then
      the record is saved with validation, so a new password the pattern
      refuses, or a caller whose stored role is `admin`, makes the save
      throw and nothing is written. */
  function UpdatePassword(caller: Option<User>, current: Option<string>, newPassword: Option<string>,
                          sign: Id -> string, store: Store): (h: Handled<string>)
    ensures caller.Some? && FindUser(store.users, caller.value.id).Some? && current.Some? &&
            current.value != FindUser(store.users, caller.value.id).value.password ==>
              h == Handled(Fail(401, "Incorrect Credentials"), store)
    ensures h.reply.Fail? ==> h.reply == Fail(401, "Incorrect Credentials")
    ensures h.reply.Ok? <==>
              && caller.Some? && FindUser(store.users, caller.value.id).Some? && current.Some?
              && current.value == FindUser(store.users, caller.value.id).value.password
              && SaveAccepts(FindUser(store.users, caller.value.id).value, newPassword)
    ensures !h.reply.Ok? ==> h.store == store
    ensures h.reply.Ok? ==>
              var i := UserIndex(store.users, caller.value.id).value;
              && h.reply == Ok(200, sign(caller.value.id))
              && h.store == store.(users := store.users[i := store.users[i].(password := newPassword.value)])
  {
    if caller.None? then Handled(Thrown("Cannot read properties of null (reading 'id')"), store)
    else
      match UserIndex(store.users, caller.value.id)
      case None => Handled(Thrown("Cannot read properties of null (reading 'comparePassword')"), store)
      case Some(i) =>
        var u := store.users[i];
        if current.None? then Handled(Thrown("Illegal arguments: undefined, string"), store)
        else if current.value != u.password then Handled(Fail(401, "Incorrect Credentials"), store)
        else if !SaveAccepts(u, newPassword) then Handled(Thrown("ValidationError"), store)
        else Handled(Ok(200, sign(u.id)), store.(users := store.users[i := u.(password := newPassword.value)]))
  }

  /** Change then log in: after a successful change the new password logs
      the caller in and the old one is refused, provided the caller is the
      account their address finds. */
  lemma PasswordChangeThenLogin(caller: User, previous: string, p: string, sign: Id -> string, store: Store)
    requires UpdatePassword(Some(caller), Some(previous), Some(p), sign, store).reply.Ok?
    requires UserByEmail(store.users, caller.email) == UserIndex(store.users, caller.id)
    requires p != previous
    ensures var s := UpdatePassword(Some(caller), Some(previous), Some(p), sign, store).store;
      && Login(caller.email, Some(p), sign, s) == Ok(200, sign(caller.id))
      && Login(caller.email, Some(previous), sign, s) == Fail(401, InvalidCredentials)
  {
    var i := UserIndex(store.users, caller.id).value;
    var s := UpdatePassword(Some(caller), Some(previous), Some(p), sign, store).store;
    assert s.users[i].email == store.users[i].email;
    assert caller.email == store.users[i].email;
    forall j | 0 <= j < i ensures s.users[j].email != caller.email {
      assert s.users[j] == store.users[j];
    }
    assert UserByEmail(s.users, caller.email) == Some(i);
  }

  /** An administrator can never change their password: the save fails the
      role enum, and the record is left as it was. */
  lemma AdminCannotChangePassword(caller: User, current: Option<string>, p: Option<string>, sign: Id -> string, store: Store)
    requires FindUser(store.users, caller.id).Some? && FindUser(store.users, caller.id).value.role == AdminRole
    ensures !UpdatePassword(Some(caller), current, p, sign, store).reply.Ok?
    ensures UpdatePassword(Some(caller), current, p, sign, store).store == store
  {
  }

  // ---------------------------------------------------------------------
  // forgotpassword, resetpassword

  /** How the call to `sendEmail` ends: delivered, rejected later (the
      returned promise fails) or throwing at the call itself. `sendEmail`
      is declared `async` (utils/sendEmail.js:3), so everything its body
      throws becomes a rejection: `ThrowsAtCall` cannot arise from it and
      stands for a synchronous throw by another dispatcher in its place. */
  datatype Dispatch = Delivered | Rejected | ThrowsAtCall

  datatype Mail = Mail(to: string, url: string)

  /** A `forgotPassword` outcome: the reply, the store, the mail handed to
      `sendEmail`, and the rejection that escapes after the reply was sent,
      if any (an unhandled rejection, which stops the server). */
  datatype Forgot = Forgot(reply: Reply<string>, store: Store, mail: Option<Mail>, escaped: Option<string>)

  /** The path the emailed link points to, as written. */
  function LinkPathAsWritten(raw: string): string
  {
    "/api/v1/forgotpassword/" + raw
  }

  /** The path of the route that redeems a reset token. */
  function ResetPath(raw: string): string
  {
    "/api/v1/auth/resetpassword/" + raw
  }

  /** The reset fields cleared, as the rollback and the redemption do. */
  function Cleared(u: User): (c: User)
    ensures c.resetToken.None? && c.resetExpire.None?
    ensures c.(resetToken := u.resetToken, resetExpire := u.resetExpire) == u
  {
    u.(resetToken := None, resetExpire := None)
  }

  /** `forgotPassword` as written. `origin` is `protocol://host`. The token
      is issued and saved first; the link uses a path no router serves; and
      since `sendEmail` is an async function called without `await`, only a
      throw at the call itself reaches the rollback, and an async function
      never throws at the call, so the rollback is dead code: a rejected
      dispatch escapes the `try` and stops the server after "Email Sent"
      went out. */
  function ForgotPasswordAsWritten(email: string, raw: string, now: int, hash: string -> string, origin: string,
                                   dispatch: Dispatch, store: Store): (f: Forgot)
    ensures UserByEmail(store.users, email).None? ==> f == Forgot(Fail(404, "No User found with that email"), store, None, None)
    ensures UserByEmail(store.users, email).Some? ==>
              f.mail == Some(Mail(email, origin + LinkPathAsWritten(raw)))
    ensures f.escaped.Some? <==> UserByEmail(store.users, email).Some? && dispatch == Rejected
    ensures UserByEmail(store.users, email).Some? && dispatch != ThrowsAtCall ==>
              var i := UserByEmail(store.users, email).value;
              f.reply == Ok(200, "Email Sent") &&
              f.store == store.(users := store.users[i := IssueResetToken(store.users[i], raw, now, hash).0])
  {
    match UserByEmail(store.users, email)
    case None => Forgot(Fail(404, "No User found with that email"), store, None, None)
    case Some(i) =>
      var u := IssueResetToken(store.users[i], raw, now, hash).0;
      var mail := Mail(u.email, origin + LinkPathAsWritten(raw));
      if dispatch == ThrowsAtCall then
        Forgot(Fail(500, "Email Could not be sent"), store.(users := store.users[i := Cleared(u)]), Some(mail), None)
      else
        var escaped := if dispatch == Rejected then Some("sendEmail rejected") else None;
        Forgot(Ok(200, "Email Sent"), store.(users := store.users[i := u]), Some(mail), escaped)
  }

  /** `forgotPassword` with the link pointing at the reset route and the
      dispatch awaited: any failed dispatch clears both reset fields and
      answers 500. */
  function ForgotPassword(email: string, raw: string, now: int, hash: string -> string, origin: string,
                          dispatch: Dispatch, store: Store): (f: Forgot)
    ensures UserByEmail(store.users, email).None? ==> f == Forgot(Fail(404, "No User found with that email"), store, None, None)
    ensures f.escaped.None?
    ensures f.reply.Ok? <==> UserByEmail(store.users, email).Some? && dispatch == Delivered
    ensures f.reply.Ok? ==> f.reply.value == "Email Sent" && f.reply.status == 200
    ensures f.reply.Fail? && UserByEmail(store.users, email).Some? ==> f.reply == Fail(500, "Email Could not be sent")
    ensures UserByEmail(store.users, email).Some? ==>
              var i := UserByEmail(store.users, email).value;
              && f.mail == Some(Mail(email, origin + ResetPath(raw)))
              && |f.store.users| == |store.users|
              && (forall j :: 0 <= j < |store.users| && j != i ==> f.store.users[j] == store.users[j])
              && f.store.users[i].(resetToken := store.users[i].resetToken, resetExpire := store.users[i].resetExpire) == store.users[i]
              && (dispatch == Delivered ==>
                    f.store.users[i].resetToken == Some(hash(raw)) && f.store.users[i].resetExpire == Some(now + ResetWindow))
              && (dispatch != Delivered ==> f.store.users[i].resetToken.None? && f.store.users[i].resetExpire.None?)
    ensures f.store.bootcamps == store.bootcamps && f.store.courses == store.courses && f.store.reviews == store.reviews
  {
    match UserByEmail(store.users, email)
    case None => Forgot(Fail(404, "No User found with that email"), store, None, None)
    case Some(i) =>
      var u := IssueResetToken(store.users[i], raw, now, hash).0;
      var mail := Mail(u.email, origin + ResetPath(raw));
      if dispatch == Delivered then Forgot(Ok(200, "Email Sent"), store.(users := store.users[i := u]), Some(mail), None)
      else Forgot(Fail(500, "Email Could not be sent"), store.(users := store.users[i := Cleared(u)]), Some(mail), None)
  }

  /** The discrepancy of the missing `await`: a mail the transport rejects
      still answers "Email Sent", leaves the token live and lets the
      rejection escape, which stops the server; the awaited dispatch answers
      500, clears the token and lets nothing escape. */
  lemma RejectedMailKeepsToken(email: string, raw: string, now: int, hash: string -> string, origin: string, store: Store)
    requires UserByEmail(store.users, email).Some?
    ensures var i := UserByEmail(store.users, email).value;
      && ForgotPasswordAsWritten(email, raw, now, hash, origin, Rejected, store).reply == Ok(200, "Email Sent")
      && ForgotPasswordAsWritten(email, raw, now, hash, origin, Rejected, store).store.users[i].resetToken == Some(hash(raw))
      && ForgotPasswordAsWritten(email, raw, now, hash, origin, Rejected, store).escaped.Some?
      && ForgotPassword(email, raw, now, hash, origin, Rejected, store).reply == Fail(500, "Email Could not be sent")
      && ForgotPassword(email, raw, now, hash, origin, Rejected, store).store.users[i].resetToken.None?
      && ForgotPassword(email, raw, now, hash, origin, Rejected, store).escaped.None?
  {
  }

  /** Whether user `u` holds a live reset token that `param` redeems. */
  predicate Redeems(u: User, param: string, now: int, hash: string -> string)
  {
    u.resetToken == Some(hash(param)) && u.resetExpire.Some? && u.resetExpire.value > now
  }

  /** The position of the user `resetPassword`'s `findOne` finds: the first
      holding a live token that `param` redeems. */
  function Redeemer(users: seq<User>, param: string, now: int, hash: string -> string): (r: Option<nat>)
    ensures r.Some? ==> r.value < |users| && Redeems(users[r.value], param, now, hash)
    ensures r.Some? ==> forall j :: 0 <= j < r.value ==> !Redeems(users[j], param, now, hash)
    ensures r.None? <==> forall j :: 0 <= j < |users| ==> !Redeems(users[j], param, now, hash)
  {
    FirstWhere(users, (u: User) => Redeems(u, param, now, hash))
  }

  /** `resetPassword`: the first user whose stored digest equals the
      digest of the route parameter and whose expiry lies after `now` gets
      the new password with both reset fields cleared; no such user answers
      404. The `save` is not awaited, so when it is refused (a weak or
      missing password, or an `admin` record, whose role fails the enum) the
      record is left untouched while the reply still succeeds; the refused
      save is stated by `ResetSaveRejection`. */
  function ResetPassword(param: string, newPassword: Option<string>, now: int, hash: string -> string,
                         sign: Id -> string, store: Store): (h: Handled<string>)
    ensures h.reply.Ok? <==> exists j :: 0 <= j < |store.users| && Redeems(store.users[j], param, now, hash)
    ensures !h.reply.Ok? ==> h == Handled(Fail(404, "Invalid Token"), store)
    ensures h.store.bootcamps == store.bootcamps && h.store.courses == store.courses && h.store.reviews == store.reviews
    ensures |h.store.users| == |store.users|
    ensures h.reply.Ok? ==>
              var i := Redeemer(store.users, param, now, hash).value;
              && h.reply == Ok(200, sign(store.users[i].id))
              && (!SaveAccepts(store.users[i], newPassword) ==> h.store == store)
              && (SaveAccepts(store.users[i], newPassword) ==>
                    h.store.users == store.users[i := Cleared(store.users[i]).(password := newPassword.value)])
  {
    match Redeemer(store.users, param, now, hash)
    case None => Handled(Fail(404, "Invalid Token"), store)
    case Some(i) =>
      var u := store.users[i];
      if SaveAccepts(u, newPassword) then
        Handled(Ok(200, sign(u.id)), store.(users := store.users[i := Cleared(u).(password := newPassword.value)]))
      else Handled(Ok(200, sign(u.id)), store)
  }

  /** The rejection of the unawaited `user.save()` in `resetPassword`: the
      save is refused once a user was found whose record, with the new
      password, fails validation. Nothing catches it, so the server stops
      after the 200 went out. */
  function ResetSaveRejection(param: string, newPassword: Option<string>, now: int, hash: string -> string,
                              store: Store): (e: Option<string>)
    ensures e.Some? <==>
              Redeemer(store.users, param, now, hash).Some? &&
              !SaveAccepts(store.users[Redeemer(store.users, param, now, hash).value], newPassword)
  {
    match Redeemer(store.users, param, now, hash)
    case None => None
    case Some(i) =>
      if SaveAccepts(store.users[i], newPassword) then None else Some("ValidationError")
  }

  /** A live reset link redeemed with a weak password answers 200 with a
      signed token, changes nothing, and stops the server. */
  lemma WeakResetStopsServer(param: string, p: string, now: int, hash: string -> string, sign: Id -> string, store: Store)
    requires exists j :: 0 <= j < |store.users| && Redeems(store.users[j], param, now, hash)
    requires !StrongPassword(p)
    ensures var h := ResetPassword(param, Some(p), now, hash, sign, store);
      h.reply.Ok? && h.reply.status == 200 && h.store == store &&
      ResetSaveRejection(param, Some(p), now, hash, store).Some?
  {
  }

  /** An administrator's live reset link, redeemed with a strong password,
      answers 200 with a signed token, yet the save fails the role enum:
      the password stays as it was and the server stops. */
  lemma AdminResetStopsServer(param: string, p: string, now: int, hash: string -> string, sign: Id -> string, store: Store)
    requires Redeemer(store.users, param, now, hash).Some?
    requires store.users[Redeemer(store.users, param, now, hash).value].role == AdminRole
    requires StrongPassword(p)
    ensures var h := ResetPassword(param, Some(p), now, hash, sign, store);
      h.reply.Ok? && h.store == store && ResetSaveRejection(param, Some(p), now, hash, store).Some?
  {
  }

  /** `resetPassword` with the save awaited before the token is sent: a
      refused save reaches the error handler, nothing escapes, and a 200
      means the password was stored. */
  function ResetPasswordAwaited(param: string, newPassword: Option<string>, now: int, hash: string -> string,
                                sign: Id -> string, store: Store): (h: Handled<string>)
    ensures !h.reply.Unhandled?
    ensures Redeemer(store.users, param, now, hash).None? ==> h == Handled(Fail(404, "Invalid Token"), store)
    ensures h.reply.Ok? <==>
              Redeemer(store.users, param, now, hash).Some? &&
              SaveAccepts(store.users[Redeemer(store.users, param, now, hash).value], newPassword)
    ensures h.reply.Ok? ==>
              var i := Redeemer(store.users, param, now, hash).value;
              h.store.users == store.users[i := Cleared(store.users[i]).(password := newPassword.value)]
    ensures !h.reply.Ok? ==> h.store == store
    ensures ResetSaveRejection(param, newPassword, now, hash, store).None? ==>
              h == ResetPassword(param, newPassword, now, hash, sign, store)
  {
    match Redeemer(store.users, param, now, hash)
    case None => Handled(Fail(404, "Invalid Token"), store)
    case Some(i) =>
      if SaveAccepts(store.users[i], newPassword) then ResetPassword(param, newPassword, now, hash, sign, store)
      else Handled(Thrown("ValidationError"), store)
  }

  /** No user holds the digest `d`. */
  predicate Unclaimed(users: seq<User>, d: string)
  {
    forall j :: 0 <= j < |users| ==> users[j].resetToken != Some(d)
  }

  /** Issue then redeem: a freshly issued token, redeemed before its expiry
      with a strong password, resets exactly the requesting user. An admin
      is excluded: the role enum refuses the save, so nothing is written. */
  lemma IssueThenRedeem(email: string, raw: string, now: int, later: int, hash: string -> string, origin: string,
                        p: string, sign: Id -> string, store: Store)
    requires UserByEmail(store.users, email).Some?
    requires Unclaimed(store.users, hash(raw))
    requires later < now + ResetWindow
    requires StrongPassword(p)
    requires store.users[UserByEmail(store.users, email).value].role != AdminRole
    ensures var i := UserByEmail(store.users, email).value;
      var s := ForgotPassword(email, raw, now, hash, origin, Delivered, store).store;
      var h := ResetPassword(raw, Some(p), later, hash, sign, s);
      && h.reply == Ok(200, sign(store.users[i].id))
      && h.store.users[i] == Cleared(store.users[i]).(password := p)
      && (forall j :: 0 <= j < |store.users| && j != i ==> h.store.users[j] == store.users[j])
  {
    var i := UserByEmail(store.users, email).value;
    var s := ForgotPassword(email, raw, now, hash, origin, Delivered, store).store;
    assert Redeems(s.users[i], raw, later, hash);
    forall j | 0 <= j < |s.users| && j != i ensures !Redeems(s.users[j], raw, later, hash) {
      assert s.users[j] == store.users[j];
    }
  }

  /** A token is good for one reset: once redeemed, the same link answers
      404, provided no other user held the same digest and the holder is
      not an admin (whose save fails, so the token is never cleared). */
  lemma RedeemOnce(param: string, p: string, now: int, later: int, hash: string -> string, sign: Id -> string, store: Store)
    requires StrongPassword(p)
    requires ResetPassword(param, Some(p), now, hash, sign, store).reply.Ok?
    requires store.users[Redeemer(store.users, param, now, hash).value].role != AdminRole
    requires forall a, b :: 0 <= a < b < |store.users| ==>
               !(store.users[a].resetToken == Some(hash(param)) && store.users[b].resetToken == Some(hash(param)))
    ensures var s := ResetPassword(param, Some(p), now, hash, sign, store).store;
      ResetPassword(param, Some(p), later, hash, sign, s) == Handled(Fail(404, "Invalid Token"), s)
  {
    var s := ResetPassword(param, Some(p), now, hash, sign, store).store;
    var i := Redeemer(store.users, param, now, hash).value;
    assert s.users == store.users[i := Cleared(store.users[i]).(password := p)];
    forall j | 0 <= j < |s.users| ensures !Redeems(s.users[j], param, later, hash) {
      if j != i {
        assert s.users[j] == store.users[j];
      }
    }
  }

  /** An issued token is refused from the moment its ten minutes are up. */
  lemma ExpiredTokenRefused(email: string, raw: string, now: int, later: int, hash: string -> string, origin: string,
                            p: Option<string>, sign: Id -> string, store: Store)
    requires UserByEmail(store.users, email).Some?
    requires Unclaimed(store.users, hash(raw))
    requires later >= now + ResetWindow
    ensures var s := ForgotPassword(email, raw, now, hash, origin, Delivered, store).store;
      ResetPassword(raw, p, later, hash, sign, s) == Handled(Fail(404, "Invalid Token"), s)
  {
    var i := UserByEmail(store.users, email).value;
    var s := ForgotPassword(email, raw, now, hash, origin, Delivered, store).store;
    forall j | 0 <= j < |s.users| ensures !Redeems(s.users[j], raw, later, hash) {
      if j != i {
        assert s.users[j] == store.users[j];
      }
    }
  }

  /** After a failed dispatch the link cannot be redeemed: the rollback
      removed the digest. */
  lemma RolledBackTokenRefused(email: string, raw: string, now: int, later: int, hash: string -> string, origin: string,
                               p: Option<string>, sign: Id -> string, store: Store)
    requires UserByEmail(store.users, email).Some?
    requires Unclaimed(store.users, hash(raw))
    ensures var s := ForgotPassword(email, raw, now, hash, origin, Rejected, store).store;
      ResetPassword(raw, p, later, hash, sign, s) == Handled(Fail(404, "Invalid Token"), s)
  {
    var i := UserByEmail(store.users, email).value;
    var s := ForgotPassword(email, raw, now, hash, origin, Rejected, store).store;
    forall j | 0 <= j < |s.users| ensures !Redeems(s.users[j], raw, later, hash) {
      if j != i {
        assert s.users[j] == store.users[j];
      }
    }
  }
}

=== FILE: auth_middleware.dfy ===
/** `protect` and `authorize`: the two guards that stand in front of every
    mutating route. JWT verification is a parameter: `verify(token)` is the
    id claim of a token signed with the server secret, or `None` when the
    signature, expiry or format is rejected. */
module AuthMiddleware {
  import opened Common
  import opened Records

  /** What a guard does with the request. */
  datatype Verdict =
    | Admit(user: Option<User>)          // `next()`, with `req.user` set to `user`
    | Reject(status: int, message: string) // `next(new ErrorResponse(message, status))`
    | Crash(reason: string)              // a `TypeError` thrown by the guard itself

  const AccessDenied: string := "Access Denied... "

  /** The token `protect` reads from the `Authorization` header: a header
      that starts with `Bearer` contributes its second space-separated piece,
      if there is one. The empty string stands for a falsy token. */
  function BearerToken(header: Option<string>): (token: string)
    ensures header.None? || header.value == [] || !StartsWith(header.value, "Bearer") ==> token == []
    ensures token != [] ==> ' ' !in token
    ensures header.Some? && StartsWith(header.value, "Bearer") && |Split(header.value, ' ')| >= 2 ==>
              token == Split(header.value, ' ')[1]
  {
    if header.None? || header.value == [] || !StartsWith(header.value, "Bearer") then []
    else
      var pieces := Split(header.value, ' ');
      if |pieces| < 2 then [] else pieces[1]
  }

  /** `protect`: admits the request with the user the token names (which is
      `null` when that user no longer exists); refuses with 401 when there
      is no usable token or it does not verify. */
  function Protect(header: Option<string>, verify: string -> Option<Id>, users: seq<User>): (v: Verdict)
    ensures v.Crash? == false
    ensures v.Reject? <==> BearerToken(header) == [] || verify(BearerToken(header)).None?
    ensures v.Reject? ==> v.status == 401 && v.message == AccessDenied
    ensures v.Admit? ==> v.user == FindUser(users, verify(BearerToken(header)).value)
    ensures v.Admit? && v.user.Some? ==> v.user.value in users && v.user.value.id == verify(BearerToken(header)).value
  {
    var token := BearerToken(header);
    if token == [] then Reject(401, AccessDenied)
    else match verify(token)
      case None => Reject(401, AccessDenied)
      case Some(id) => Admit(FindUser(users, id))
  }

  /** `authorize(...roles)`: lets the request through unchanged when the
      caller's role is listed, refuses with 403 naming the role otherwise. A
      `null` caller makes `req.user.role` throw. */
  function Authorize(user: Option<User>, roles: seq<Role>): (v: Verdict)
    ensures v.Crash? <==> user.None?
    ensures v.Admit? <==> user.Some? && user.value.role in roles
    ensures v.Admit? ==> v.user == user
    ensures v.Reject? ==> v.status == 403 && v.message == " Access denied for " + user.value.role.Name() + "s"
  {
    if user.None? then Crash("Cannot read properties of null (reading 'role')")
    else if user.value.role in roles then Admit(user)
    else Reject(403, " Access denied for " + user.value.role.Name() + "s")
  }

  /** A header whose first word starts with `Bearer` yields exactly the
      token after the space. The prefix test is on the characters only, so
      `BearerX <token>` is read like `Bearer <token>`. */
  lemma BearerPiece(scheme: string, token: string)
    requires StartsWith(scheme, "Bearer") && ' ' !in scheme
    requires token != [] && ' ' !in token
    ensures BearerToken(Some(scheme + " " + token)) == token
  {
    var h := scheme + " " + token;
    assert h[..6] == scheme[..6];
    assert h == scheme + [' '] + token;
    SplitAfter(scheme, token, ' ');
    SplitWithout(token, ' ');
    assert Split(h, ' ') == [scheme, token];
  }

  /** The standard header form yields exactly the token after the space. */
  lemma BearerRoundTrip(token: string)
    requires token != [] && ' ' !in token
    ensures BearerToken(Some("Bearer " + token)) == token
  {
    assert "Bearer " + token == "Bearer" + " " + token;
    BearerPiece("Bearer", token);
  }

  /** A scheme name without a following token is refused like a missing
      header, with the same message. */
  lemma BareSchemeRefused(verify: string -> Option<Id>, users: seq<User>)
    ensures Protect(Some("Bearer"), verify, users) == Protect(None, verify, users)
    ensures Protect(None, verify, users) == Reject(401, AccessDenied)
  {
    SplitWithout("Bearer", ' ');
  }

  /** A token that does not verify and no token at all are indistinguishable
      to the caller. */
  lemma InvalidLikeMissing(token: string, verify: string -> Option<Id>, users: seq<User>)
    requires token != [] && ' ' !in token && verify(token).None?
    ensures Protect(Some("Bearer " + token), verify, users) == Protect(None, verify, users)
  {
    BearerRoundTrip(token);
  }

  /** `protect` then `authorize(roles)`: admits exactly the callers whose
      token verifies, whose account exists and whose role is listed. */
  lemma GuardedAdmits(header: Option<string>, verify: string -> Option<Id>, users: seq<User>, roles: seq<Role>)
    requires Protect(header, verify, users).Admit?
    ensures var u := Protect(header, verify, users).user;
      Authorize(u, roles).Admit? <==>
        exists x :: x in users && x.id == verify(BearerToken(header)).value && x == u.value && x.role in roles
  {
    var u := Protect(header, verify, users).user;
    if u.Some? {
      assert u.value in users;
    }
  }
}

=== FILE: averages.dfy ===
/** The arithmetic behind the denormalised bootcamp aggregates:
    `Math.ceil` of a MongoDB `$avg` over integer values. */
module Averages {

  function Sum(s: seq<int>): int
    decreases |s|
  {
    if |s| == 0 then 0 else s[0] + Sum(s[1..])
  }

  lemma {:induction false} SumAppend(a: seq<int>, b: seq<int>)
    ensures Sum(a + b) == Sum(a) + Sum(b)
    decreases |a|
  {
    if |a| == 0 {
      assert a + b == b;
    } else {
      assert (a + b)[1..] == a[1..] + b;
      SumAppend(a[1..], b);
    }
  }

  /** Values that all lie in `[lo, hi]` sum to between `lo` and `hi` times
      their count. */
  lemma {:induction false} SumBounds(s: seq<int>, lo: int, hi: int)
    requires forall i :: 0 <= i < |s| ==> lo <= s[i] <= hi
    ensures lo * |s| <= Sum(s) <= hi * |s|
    decreases |s|
  {
    if |s| > 0 {
      SumBounds(s[1..], lo, hi);
      assert lo * |s| == lo + lo * |s[1..]|;
      assert hi * |s| == hi + hi * |s[1..]|;
    }
  }

  /** `Math.ceil(a / n)` for a positive count: the least integer whose
      multiple of `n` reaches `a`. */
  function CeilDiv(a: int, n: int): (c: int)
    requires n > 0
    ensures (c - 1) * n < a <= c * n
  {
    var q := a / n;
    if a % n == 0 then q else q + 1
  }

  /** `Math.ceil($avg)` over a non-empty list. */
  function CeilMean(s: seq<int>): (c: int)
    requires |s| > 0
    ensures (c - 1) * |s| < Sum(s) <= c * |s|
  {
    CeilDiv(Sum(s), |s|)
  }

  /** The ceiling of the mean stays within any bounds the values keep. */
  lemma CeilMeanBounds(s: seq<int>, lo: int, hi: int)
    requires |s| > 0
    requires forall i :: 0 <= i < |s| ==> lo <= s[i] <= hi
    ensures lo <= CeilMean(s) <= hi
  {
    SumBounds(s, lo, hi);
    var c, n := CeilMean(s), |s|;
    MulLeCancel(lo, c, n);
    MulLtCancel(c - 1, hi, n);
  }

  lemma MulLeCancel(a: int, b: int, n: int)
    requires n > 0 && a * n <= b * n
    ensures a <= b
  {
  }

  lemma MulLtCancel(a: int, b: int, n: int)
    requires n > 0 && a * n < b * n
    ensures a < b
  {
  }
}

=== FILE: bootcamps.dfy ===
/** The bootcamp handlers: single read, create with the one-bootcamp-per-
    publisher rule, update and delete behind the owner-or-admin rule, and the
    photo upload checks with its file-name rule. The list handler only
    returns the envelope `QueryBuilder.AdvancedResults` builds. */
module BootcampsController {
  import opened Common
  import opened Records
  import opened QueryBuilder

  /** `getBootcamp`: a missing id answers 400, not 404. */
  function GetBootcamp(store: Store, id: Id): (r: Reply<Bootcamp>)
    ensures r.Ok? <==> id in store.bootcamps
    ensures r.Ok? ==> r.status == 200 && r.value == store.bootcamps[id]
    ensures !r.Ok? ==> r == Fail(400, "Resource not found with id " + id)
  {
    if id !in store.bootcamps then Fail(400, "Resource not found with id " + id)
    else Ok(200, store.bootcamps[id])
  }

  /** Whether `uid` already owns a bootcamp: `Bootcamp.findOne({ user })`. */
  predicate OwnsBootcamp(store: Store, uid: Id)
  {
    exists k :: k in store.bootcamps && store.bootcamps[k].owner == uid
  }

  // ---------------------------------------------------------------------
  // The request body

  /** The two numeric paths the course and review hooks maintain. The
      handlers hand the whole body to Mongoose, so a body may set them too. */
  const Aggregates: set<string> := {"averageCost", "averageRating"}

  /** Mongoose's cast of a body string to a `Number` path: the empty string
      casts to `null`, a decimal integer as `String(n)` writes it casts to
      `n`, and every other string fails the cast (outer `None`). */
  function CastNumber(v: string): (r: Option<Option<int>>)
    ensures r == Some(None) <==> v == ""
    ensures r.Some? && r.value.Some? ==> v == Decimal(r.value.value)
  {
    if v == "" then Some(None)
    else
      match ParseInt(v)
      case None => None
      case Some(n) => if Decimal(n) == v then Some(Some(n)) else None
  }

  /** What `String(n)` writes casts back to `n`. */
  lemma CastDecimal(n: int)
    ensures CastNumber(Decimal(n)) == Some(Some(n))
  {
    ParseDecimal(n);
    assert Decimal(n) != "" by {
      if n < 0 { assert |Decimal(n)| == 1 + |Digits(-n)|; }
    }
  }

  /** Every aggregate the body sets passes the cast. */
  predicate AggregatesCast(body: map<string, string>)
  {
    forall k :: k in Aggregates && k in body ==> CastNumber(body[k]).Some?
  }

  /** The value an aggregate path holds once `body` is written over
      `current`: the cast body value when the body sets the path, `current`
      otherwise. */
  function Aggregate(body: map<string, string>, key: string, current: Option<int>): (a: Option<int>)
    requires AggregatesCast(body) && key in Aggregates
    ensures key !in body ==> a == current
    ensures key in body ==> (a.None? <==> body[key] == "") && (a.Some? ==> body[key] == Decimal(a.value))
  {
    if key in body then CastNumber(body[key]).value else current
  }

  /** The string paths a body writes: everything but the owner and the two
      aggregates, which the record keeps apart. */
  function Written(body: map<string, string>): (w: map<string, string>)
    ensures w.Keys == body.Keys - {"user"} - Aggregates
    ensures forall k :: k in w ==> w[k] == body[k]
  {
    body - {"user"} - Aggregates
  }

  // ---------------------------------------------------------------------
  // Create, update and delete

  /** `createBootcamp`. The body's `user` key is overwritten with the
      caller's id; every other path is handed to `Bootcamp.create`, the two
      aggregates included. `schemaOk` stands for the bootcamp schema's
      validators (models/bootcamp.js is not part of this model) and `newId`
      for the generated `_id`. A caller who is not an admin and already owns
      a bootcamp is refused with 400 before anything is written. */
  function CreateBootcamp(caller: Option<User>, body: map<string, string>, newId: Id,
                          schemaOk: map<string, string> -> bool, store: Store): (h: Handled<Bootcamp>)
    ensures h.reply.Ok? <==>
              caller.Some? && (!OwnsBootcamp(store, caller.value.id) || caller.value.role == AdminRole) &&
              AggregatesCast(body) && schemaOk(body - {"user"}) && newId !in store.bootcamps
    ensures h.reply.Fail? <==> caller.Some? && OwnsBootcamp(store, caller.value.id) && caller.value.role != AdminRole
    ensures h.reply.Fail? ==> h.reply == Fail(400, "Sorry you can only publish one bootcamp")
    ensures !h.reply.Ok? ==> h.store == store
    ensures h.reply.Ok? ==>
              && h.reply.status == 201
              && h.reply.value.owner == caller.value.id
              && h.reply.value.fields == Written(body)
              && h.reply.value.averageCost == Aggregate(body, "averageCost", None)
              && h.reply.value.averageRating == Aggregate(body, "averageRating", None)
              && h.store == store.(bootcamps := store.bootcamps[newId := h.reply.value])
  {
    if caller.None? then Handled(Thrown("Cannot read properties of null (reading 'id')"), store)
    else
      var u := caller.value;
      if OwnsBootcamp(store, u.id) && u.role != AdminRole then
        Handled(Fail(400, "Sorry you can only publish one bootcamp"), store)
      else if !AggregatesCast(body) || !schemaOk(body - {"user"}) then Handled(Thrown("ValidationError"), store)
      else if newId in store.bootcamps then Handled(Thrown("E11000 duplicate key error"), store)
      else
        var b := Bootcamp(u.id, Written(body), Aggregate(body, "averageCost", None), Aggregate(body, "averageRating", None));
        Handled(Ok(201, b), store.(bootcamps := store.bootcamps[newId := b]))
  }

  /** Create then read: the created bootcamp is served under its new id,
      and every other id reads as before. */
  lemma CreateThenGet(caller: Option<User>, body: map<string, string>, newId: Id,
                      schemaOk: map<string, string> -> bool, store: Store, other: Id)
    requires CreateBootcamp(caller, body, newId, schemaOk, store).reply.Ok?
    ensures var h := CreateBootcamp(caller, body, newId, schemaOk, store);
      GetBootcamp(h.store, newId) == Ok(200, h.reply.value)
    ensures var h := CreateBootcamp(caller, body, newId, schemaOk, store);
      other != newId ==> GetBootcamp(h.store, other) == GetBootcamp(store, other)
  {
  }

  /** A publisher's second bootcamp is refused, whatever the body says. */
  lemma SecondBootcampRefused(caller: User, body: map<string, string>, body2: map<string, string>,
                              newId: Id, newId2: Id, schemaOk: map<string, string> -> bool, store: Store)
    requires caller.role != AdminRole
    requires CreateBootcamp(Some(caller), body, newId, schemaOk, store).reply.Ok?
    ensures var s := CreateBootcamp(Some(caller), body, newId, schemaOk, store).store;
      CreateBootcamp(Some(caller), body2, newId2, schemaOk, s) == Handled(Fail(400, "Sorry you can only publish one bootcamp"), s)
  {
    var s := CreateBootcamp(Some(caller), body, newId, schemaOk, store).store;
    assert s.bootcamps[newId].owner == caller.id;
  }

  /** `createBootcamp` with the aggregate paths dropped from the body: a new
      bootcamp starts without averages until a course or review sets them. */
  function CreateBootcampKeepingAggregates(caller: Option<User>, body: map<string, string>, newId: Id,
                                           schemaOk: map<string, string> -> bool, store: Store): (h: Handled<Bootcamp>)
    ensures h.reply.Ok? <==>
              caller.Some? && (!OwnsBootcamp(store, caller.value.id) || caller.value.role == AdminRole) &&
              schemaOk(body - {"user"} - Aggregates) && newId !in store.bootcamps
    ensures h.reply.Ok? ==> h.reply.value.averageCost.None? && h.reply.value.averageRating.None?
    ensures "averageCost" !in body && "averageRating" !in body ==> h == CreateBootcamp(caller, body, newId, schemaOk, store)
  {
    var b := body - Aggregates;
    assert b - {"user"} == body - {"user"} - Aggregates;
    assert AggregatesCast(b);
    assert "averageCost" !in body && "averageRating" !in body ==> b == body;
    CreateBootcamp(caller, b, newId, schemaOk, store)
  }

  /** An admin is never held back by the one-bootcamp rule. */
  lemma AdminNeverLimited(caller: User, body: map<string, string>, newId: Id,
                          schemaOk: map<string, string> -> bool, store: Store)
    requires caller.role == AdminRole
    ensures !CreateBootcamp(Some(caller), body, newId, schemaOk, store).reply.Fail?
  {
  }

  /** `updateBootcamp` as written. Not-found (404) is decided before the
      caller is read; the ownership failure also answers 404. The body goes
      to `findByIdAndUpdate` whole: a `user` key hands the bootcamp over, and
      an `averageCost` or `averageRating` key overwrites the aggregate (a
      value that fails the cast throws before the validators run). */
  function UpdateBootcamp(caller: Option<User>, id: Id, body: map<string, string>,
                          schemaOk: map<string, string> -> bool, store: Store): (h: Handled<Bootcamp>)
    ensures id !in store.bootcamps ==> h == Handled(Fail(404, "Resource with id " + id + " not found"), store)
    ensures h.reply.Ok? <==>
              id in store.bootcamps && caller.Some? && OwnerOrAdmin(store.bootcamps[id].owner, caller.value) &&
              AggregatesCast(body) && schemaOk(body - {"user"})
    ensures id in store.bootcamps && caller.Some? && !OwnerOrAdmin(store.bootcamps[id].owner, caller.value) ==>
              h.reply == Fail(404, "User not authorize to update this route")
    ensures !h.reply.Ok? ==> h.store == store
    ensures h.reply.Ok? ==>
              && h.reply.status == 200
              && h.store == store.(bootcamps := store.bootcamps[id := h.reply.value])
              && h.reply.value.fields == store.bootcamps[id].fields + Written(body)
              && h.reply.value.owner == (if "user" in body then body["user"] else store.bootcamps[id].owner)
              && h.reply.value.averageCost == Aggregate(body, "averageCost", store.bootcamps[id].averageCost)
              && h.reply.value.averageRating == Aggregate(body, "averageRating", store.bootcamps[id].averageRating)
  {
    if id !in store.bootcamps then Handled(Fail(404, "Resource with id " + id + " not found"), store)
    else if caller.None? then Handled(Thrown("Cannot read properties of null (reading 'id')"), store)
    else
      var b := store.bootcamps[id];
      if !OwnerOrAdmin(b.owner, caller.value) then
        Handled(Fail(404, "User not authorize to update this route"), store)
      else if !AggregatesCast(body) then Handled(Thrown("CastError"), store)
      else if !schemaOk(body - {"user"}) then Handled(Thrown("ValidationError"), store)
      else
        var b' := b.(owner := if "user" in body then body["user"] else b.owner,
                     fields := b.fields + Written(body),
                     averageCost := Aggregate(body, "averageCost", b.averageCost),
                     averageRating := Aggregate(body, "averageRating", b.averageRating));
        Handled(Ok(200, b'), store.(bootcamps := store.bootcamps[id := b']))
  }

  /** The discrepancy: an owner's `PUT` with the body
      `{"averageRating": "10"}` stores a rating of 10, whatever the reviews
      say, even for a bootcamp nobody has reviewed. */
  lemma OwnerForgesRating(owner: User, id: Id, schemaOk: map<string, string> -> bool, store: Store)
    requires id in store.bootcamps && store.bootcamps[id].owner == owner.id
    requires schemaOk(map["averageRating" := "10"])
    ensures var h := UpdateBootcamp(Some(owner), id, map["averageRating" := "10"], schemaOk, store);
      h.reply.Ok? && h.store.bootcamps[id].averageRating == Some(10)
  {
    var body := map["averageRating" := "10"];
    CastDecimal(10);
    assert Decimal(10) == "10" by {
      assert Digits(10) == Digits(1) + [DigitChar(0)];
    }
    assert body - {"user"} == body;
  }

  /** `updateBootcamp` with the aggregate paths dropped from the body, so
      that only the course and review hooks write them. */
  function UpdateBootcampKeepingAggregates(caller: Option<User>, id: Id, body: map<string, string>,
                                           schemaOk: map<string, string> -> bool, store: Store): (h: Handled<Bootcamp>)
    ensures h.reply.Ok? <==>
              id in store.bootcamps && caller.Some? && OwnerOrAdmin(store.bootcamps[id].owner, caller.value) &&
              schemaOk(body - {"user"} - Aggregates)
    ensures h.reply.Ok? ==>
              && h.reply.value.averageCost == store.bootcamps[id].averageCost
              && h.reply.value.averageRating == store.bootcamps[id].averageRating
    ensures "averageCost" !in body && "averageRating" !in body ==> h == UpdateBootcamp(caller, id, body, schemaOk, store)
  {
    var b := body - Aggregates;
    assert b - {"user"} == body - {"user"} - Aggregates;
    assert AggregatesCast(b);
    assert "averageCost" !in body && "averageRating" !in body ==> b == body;
    UpdateBootcamp(caller, id, b, schemaOk, store)
  }

  /** `deleteBootcamp`. A missing id answers a bare 404 (`{ succes: false }`,
      no message); the ownership failure answers 404 with a message. */
  function DeleteBootcamp(caller: Option<User>, id: Id, store: Store): (h: Handled<()>)
    ensures id !in store.bootcamps ==> h == Handled(Fail(404, ""), store)
    ensures h.reply.Ok? <==>
              id in store.bootcamps && caller.Some? && OwnerOrAdmin(store.bootcamps[id].owner, caller.value)
    ensures id in store.bootcamps && caller.Some? && !OwnerOrAdmin(store.bootcamps[id].owner, caller.value) ==>
              h.reply == Fail(404, "User not authorize to update this route")
    ensures !h.reply.Ok? ==> h.store == store
    ensures h.reply.Ok? ==> h.reply.status == 200 && h.store == store.(bootcamps := store.bootcamps - {id})
  {
    if id !in store.bootcamps then Handled(Fail(404, ""), store)
    else if caller.None? then Handled(Thrown("Cannot read properties of null (reading 'id')"), store)
    else if !OwnerOrAdmin(store.bootcamps[id].owner, caller.value) then
      Handled(Fail(404, "User not authorize to update this route"), store)
    else Handled(Ok(200, ()), store.(bootcamps := store.bootcamps - {id}))
  }

  /** Delete then read: a deleted bootcamp answers 400 like one that never
      existed, and every other id reads as before. */
  lemma DeleteBootcampThenGone(caller: User, id: Id, store: Store, other: Id)
    requires id in store.bootcamps && OwnerOrAdmin(store.bootcamps[id].owner, caller)
    ensures var h := DeleteBootcamp(Some(caller), id, store);
      h.reply.Ok? && GetBootcamp(h.store, id) == Fail(400, "Resource not found with id " + id)
    ensures var h := DeleteBootcamp(Some(caller), id, store);
      other != id ==> GetBootcamp(h.store, other) == GetBootcamp(store, other)
  {
  }

  /** A `user`-role caller that does not own the bootcamp can neither update
      nor delete it, and the store is left as it was. */
  lemma StrangerCannotMutate(caller: User, id: Id, body: map<string, string>,
                             schemaOk: map<string, string> -> bool, store: Store)
    requires id in store.bootcamps && store.bootcamps[id].owner != caller.id && caller.role != AdminRole
    ensures UpdateBootcamp(Some(caller), id, body, schemaOk, store) ==
              Handled(Fail(404, "User not authorize to update this route"), store)
    ensures DeleteBootcamp(Some(caller), id, store) ==
              Handled(Fail(404, "User not authorize to update this route"), store)
  {
  }

  // ---------------------------------------------------------------------
  // Photo upload

  /** The uploaded file as `express-fileupload` describes it. */
  datatype Upload = Upload(name: string, mimetype: string, size: int)

  /** Index of the last `c` in `s`. */
  function LastIndex(s: string, c: char): (r: Option<nat>)
    ensures r.Some? ==> r.value < |s| && s[r.value] == c && forall j :: r.value < j < |s| ==> s[j] != c
    ensures r.None? <==> c !in s
    decreases |s|
  {
    if |s| == 0 then None
    else if s[|s| - 1] == c then Some(|s| - 1)
    else
      assert s == s[..|s| - 1] + [s[|s| - 1]];
      LastIndex(s[..|s| - 1], c)
  }

  function DropTrailingSlashes(s: string): (r: string)
    ensures |r| <= |s| && r == s[..|r|]
    ensures |r| == 0 || r[|r| - 1] != '/'
    decreases |s|
  {
    if |s| > 0 && s[|s| - 1] == '/' then DropTrailingSlashes(s[..|s| - 1]) else s
  }

  /** `path.parse(name).ext` on POSIX: from the last `.` of the last path
      segment, except when that dot opens the segment (`.bashrc`) or the
      segment is `..`. */
  function Ext(name: string): (e: string)
    ensures e == [] || (e[0] == '.' && '/' !in e && '.' !in e[1..])
  {
    var p := DropTrailingSlashes(name);
    var base := match LastIndex(p, '/') case None => p case Some(i) => p[i + 1..];
    match LastIndex(base, '.')
    case None => []
    case Some(d) =>
      if d == 0 || base == ".." then []
      else
        assert forall j :: 0 <= j < |base[d..]| - 1 ==> base[d..][1..][j] == base[d + 1 + j];
        base[d..]
  }

  /** A plain file name keeps its extension. */
  lemma ExtOfPlainName(stem: string, ext: string)
    requires stem != [] && ext != []
    requires '/' !in stem && '/' !in ext && '.' !in ext
    ensures Ext(stem + "." + ext) == "." + ext
  {
    var n := stem + "." + ext;
    assert n[|n| - 1] == ext[|ext| - 1];
    assert DropTrailingSlashes(n) == n;
    assert '/' !in n by {
      forall j | 0 <= j < |n| ensures n[j] != '/' {
        if j < |stem| { assert n[j] == stem[j]; }
        else if j > |stem| { assert n[j] == ext[j - |stem| - 1]; }
      }
    }
    var d := LastIndex(n, '.');
    assert n[|stem|] == '.';
    assert d.Some? && d.value == |stem| by {
      forall j | |stem| < j < |n| ensures n[j] != '.' {
        assert n[j] == ext[j - |stem| - 1];
      }
    }
    assert n[|stem|..] == "." + ext;
  }

  /** The reason the upload is refused after the bootcamp and caller checks,
      if any. `limit` is `process.env.MAX_FILE_LIMIT` read as a number; an
      unset or non-numeric limit (`NaN`) never refuses. */
  function PhotoProblem(u: Upload, limit: Option<int>): (m: Option<string>)
    ensures m.None? <==> StartsWith(u.mimetype, "image") && (limit.None? || u.size <= limit.value)
  {
    if !StartsWith(u.mimetype, "image") then Some("File must be an image")
    else if limit.Some? && u.size > limit.value then Some("File is too large. It must be 1Mb in size")
    else None
  }

  /** The stored file name: `photo_` + the bootcamp id + the original
      extension. */
  function PhotoName(id: Id, u: Upload): (n: string)
    ensures StartsWith(n, "photo_" + id)
    ensures n[|"photo_" + id|..] == Ext(u.name)
  {
    "photo_" + id + Ext(u.name)
  }

  /** The decisions every upload shares, in source order; `None` means all
      checks passed. `files` is `req.files` (`None` when nothing was
      uploaded) holding the `file` field, which may be missing. */
  function PhotoGate(caller: Option<User>, id: Id, files: Option<Option<Upload>>, store: Store): (r: Option<Reply<string>>)
    ensures r.None? <==>
              id in store.bootcamps && caller.Some? && OwnerOrAdmin(store.bootcamps[id].owner, caller.value) &&
              files.Some? && files.value.Some?
    ensures id !in store.bootcamps ==> r == Some(Fail(400, "Bootcamp not found with " + id))
    ensures id in store.bootcamps && caller.None? ==> r.Some? && r.value.Thrown?
    ensures id in store.bootcamps && caller.Some? && !OwnerOrAdmin(store.bootcamps[id].owner, caller.value) ==>
              r == Some(Fail(404, "User not authorize to update this route"))
    ensures id in store.bootcamps && caller.Some? && OwnerOrAdmin(store.bootcamps[id].owner, caller.value) && files.None? ==>
              r == Some(Fail(404, "Please upload an image"))
    ensures id in store.bootcamps && caller.Some? && OwnerOrAdmin(store.bootcamps[id].owner, caller.value) && files == Some(None) ==>
              r.Some? && r.value.Thrown?
    ensures r.Some? ==> !r.value.Ok?
  {
    if id !in store.bootcamps then Some(Fail(400, "Bootcamp not found with " + id))
    else if caller.None? then Some(Thrown("Cannot read properties of null (reading 'id')"))
    else if !OwnerOrAdmin(store.bootcamps[id].owner, caller.value) then
      Some(Fail(404, "User not authorize to update this route"))
    else if files.None? then Some(Fail(404, "Please upload an image"))
    else if files.value.None? then Some(Thrown("Cannot read properties of undefined (reading 'mimetype')"))
    else None
  }

  /** `bootcampPhotoUpload` as written: the content checks hand `400` to
      `next` as a second argument instead of to `ErrorResponse`, so the
      error they raise carries no status. */
  function PhotoUploadAsWritten(caller: Option<User>, id: Id, files: Option<Option<Upload>>,
                                limit: Option<int>, store: Store): (h: Handled<string>)
    ensures PhotoGate(caller, id, files, store).None? && PhotoProblem(files.value.value, limit).Some? ==>
              h.reply == Thrown(PhotoProblem(files.value.value, limit).value)
    ensures !h.reply.Ok? ==> h.store == store
  {
    match PhotoGate(caller, id, files, store)
    case Some(r) => Handled(r, store)
    case None =>
      var u := files.value.value;
      match PhotoProblem(u, limit)
      case Some(m) => Handled(Thrown(m), store)
      case None =>
        var n := PhotoName(id, u);
        Handled(Ok(200, n), store.(bootcamps := store.bootcamps[id := store.bootcamps[id].(fields := store.bootcamps[id].fields["photo" := n])]))
  }

  /** `bootcampPhotoUpload` with the status passed to `ErrorResponse`:
      a refused file answers 400, and nothing is renamed or stored. */
  function PhotoUpload(caller: Option<User>, id: Id, files: Option<Option<Upload>>,
                       limit: Option<int>, store: Store): (h: Handled<string>)
    ensures h.reply.Ok? <==> PhotoGate(caller, id, files, store).None? && PhotoProblem(files.value.value, limit).None?
    ensures PhotoGate(caller, id, files, store).Some? ==> h.reply == PhotoGate(caller, id, files, store).value
    ensures PhotoGate(caller, id, files, store).None? && PhotoProblem(files.value.value, limit).Some? ==>
              h.reply == Fail(400, PhotoProblem(files.value.value, limit).value)
    ensures !h.reply.Ok? ==> h.store == store
    ensures h.reply.Ok? ==>
              && h.reply.status == 200
              && h.reply.value == PhotoName(id, files.value.value)
              && h.store == store.(bootcamps := store.bootcamps[id := store.bootcamps[id].(fields := store.bootcamps[id].fields["photo" := h.reply.value])])
  {
    match PhotoGate(caller, id, files, store)
    case Some(r) => Handled(r, store)
    case None =>
      var u := files.value.value;
      match PhotoProblem(u, limit)
      case Some(m) => Handled(Fail(400, m), store)
      case None =>
        var n := PhotoName(id, u);
        Handled(Ok(200, n), store.(bootcamps := store.bootcamps[id := store.bootcamps[id].(fields := store.bootcamps[id].fields["photo" := n])]))
  }

  /** The discrepancy: an owner uploading a text file gets an error without
      a status from the code as written, and 400 once the status reaches
      `ErrorResponse`. */
  lemma NonImageLosesStatus(owner: User, id: Id, store: Store, limit: Option<int>)
    requires id in store.bootcamps && store.bootcamps[id].owner == owner.id
    ensures var files := Some(Some(Upload("notes.txt", "text/plain", 10)));
      && PhotoUploadAsWritten(Some(owner), id, files, limit, store).reply == Thrown("File must be an image")
      && PhotoUpload(Some(owner), id, files, limit, store).reply == Fail(400, "File must be an image")
  {
    assert "text/plain"[..5][0] != "image"[0];
  }

  /** The two versions agree everywhere except on the two content checks. */
  lemma PhotoVersionsAgree(caller: Option<User>, id: Id, files: Option<Option<Upload>>, limit: Option<int>, store: Store)
    requires PhotoGate(caller, id, files, store).Some? || PhotoProblem(files.value.value, limit).None?
    ensures PhotoUploadAsWritten(caller, id, files, limit, store) == PhotoUpload(caller, id, files, limit, store)
  {
  }
}

=== FILE: common.dfy ===
/** Shared vocabulary of the model: optional values, the reply a handler hands
    back to Express, and the JavaScript string operations the handlers lean on
    (`startsWith`, `split` on one character, `join`). */
module Common {

  datatype Option<+T> = None | Some(value: T)

  /** Document ids (Mongo ObjectIds) compared through their string form, as
      the handlers do with `bootcamp.user.toString() !== req.user.id`. Route
      ids are taken to be well-formed ObjectIds: `findById` on any other
      string fails with a `CastError` instead of finding nothing. */
  type Id = string

  /** What a handler produces.
      - `Ok`: a JSON success response with its status code.
      - `Fail`: an `ErrorResponse` that carries its own status code.
      - `Thrown`: any other exception raised inside a handler that
        `asyncHandler` wraps, which therefore reaches the central error
        handler (a failed schema validation, a duplicate key, a property read
        on `null`, an `ErrorResponse` built without a status); the status it
        gets is decided there.
      - `Unhandled`: a rejected promise nothing awaits or catches. Express 4
        never sees it and no response is sent; the process-level
        `unhandledRejection` listener (app.js:75-81) closes the server and
        exits. */
  datatype Reply<+T> =
    | Ok(status: int, value: T)
    | Fail(status: int, message: string)
    | Thrown(reason: string)
    | Unhandled(reason: string)

  /** Index of the first element satisfying `p`: MongoDB's `findOne` over a
      collection in natural order. */
  function FirstWhere<T>(s: seq<T>, p: T -> bool): (r: Option<nat>)
    ensures r.Some? ==> r.value < |s| && p(s[r.value])
    ensures r.Some? ==> forall j :: 0 <= j < r.value ==> !p(s[j])
    ensures r.None? <==> forall j :: 0 <= j < |s| ==> !p(s[j])
    decreases |s|
  {
    if |s| == 0 then None
    else if p(s[0]) then Some(0)
    else
      match FirstWhere(s[1..], p)
      case None => None
      case Some(k) => Some(k + 1)
  }

  /** `s.startsWith(prefix)` */
  predicate StartsWith(s: string, prefix: string)
  {
    |prefix| <= |s| && s[..|prefix|] == prefix
  }

  /** `s.split(sep)` for a one-character separator: the pieces between the
      separators, always at least one (`"".split(",")` is `[""]`). */
  function Split(s: string, sep: char): (parts: seq<string>)
    ensures |parts| >= 1
    ensures forall i :: 0 <= i < |parts| ==> sep !in parts[i]
    decreases |s|
  {
    if s == [] then [[]]
    else
      var rest := Split(s[1..], sep);
      if s[0] == sep then [[]] + rest
      else [[s[0]] + rest[0]] + rest[1..]
  }

  /** `parts.join(sep)` */
  function Join(parts: seq<string>, sep: char): string
    decreases |parts|
  {
    if |parts| == 0 then []
    else if |parts| == 1 then parts[0]
    else parts[0] + [sep] + Join(parts[1..], sep)
  }

  /** Every occurrence of `a` in `s` replaced by `b`, nothing else touched. */
  function ReplaceChar(s: string, a: char, b: char): (r: string)
    ensures |r| == |s|
    ensures forall i :: 0 <= i < |s| ==> r[i] == (if s[i] == a then b else s[i])
  {
    seq(|s|, i requires 0 <= i < |s| => if s[i] == a then b else s[i])
  }

  lemma JoinConsHead(x: char, p: string, rest: seq<string>, sep: char)
    ensures Join([[x] + p] + rest, sep) == [x] + Join([p] + rest, sep)
  {
    if |rest| > 0 {
      assert ([[x] + p] + rest)[1..] == rest;
      assert ([p] + rest)[1..] == rest;
    }
  }

  /** `s.split(a).join(b)` replaces every `a` by `b` and keeps everything else
      in place: the comma lists of `select` and `sort` keep their order. */
  lemma {:induction false} SplitJoinReplaces(s: string, a: char, b: char)
    ensures Join(Split(s, a), b) == ReplaceChar(s, a, b)
    decreases |s|
  {
    if s == [] {
    } else {
      var rest := Split(s[1..], a);
      SplitJoinReplaces(s[1..], a, b);
      if s[0] == a {
        assert Split(s, a) == [[]] + rest;
        assert ([[]] + rest)[1..] == rest;
        assert Join(Split(s, a), b) == [b] + Join(rest, b);
      } else {
        assert Split(s, a) == [[s[0]] + rest[0]] + rest[1..];
        JoinConsHead(s[0], rest[0], rest[1..], b);
        assert [rest[0]] + rest[1..] == rest;
      }
      assert ReplaceChar(s, a, b) == [if s[0] == a then b else s[0]] + ReplaceChar(s[1..], a, b);
    }
  }

  /** Splitting then joining on the same character gives the input back. */
  lemma JoinSplit(s: string, sep: char)
    ensures Join(Split(s, sep), sep) == s
  {
    SplitJoinReplaces(s, sep, sep);
    assert ReplaceChar(s, sep, sep) == s;
  }

  /** A string without the separator is a single piece. */
  lemma {:induction false} SplitWithout(s: string, sep: char)
    requires sep !in s
    ensures Split(s, sep) == [s]
    decreases |s|
  {
    if s != [] {
      assert s[0] != sep;
      SplitWithout(s[1..], sep);
      assert [s[0]] + s[1..] == s;
    }
  }

  /** A separator after a separator-free prefix ends the first piece. */
  lemma {:induction false} SplitAfter(p: string, q: string, sep: char)
    requires sep !in p
    ensures Split(p + [sep] + q, sep) == [p] + Split(q, sep)
    decreases |p|
  {
    if p == [] {
      assert p + [sep] + q == [sep] + q;
      assert ([sep] + q)[1..] == q;
    } else {
      SplitAfter(p[1..], q, sep);
      assert (p + [sep] + q)[1..] == p[1..] + [sep] + q;
      assert [p[0]] + p[1..] == p;
    }
  }

  /** Joining separator-free pieces and splitting again gives the pieces back. */
  lemma {:induction false} SplitJoin(parts: seq<string>, sep: char)
    requires |parts| >= 1
    requires forall i :: 0 <= i < |parts| ==> sep !in parts[i]
    ensures Split(Join(parts, sep), sep) == parts
    decreases |parts|
  {
    if |parts| == 1 {
      SplitWithout(parts[0], sep);
    } else {
      SplitJoin(parts[1..], sep);
      SplitAfter(parts[0], Join(parts[1..], sep), sep);
      assert [parts[0]] + parts[1..] == parts;
    }
  }
}

=== FILE: course_model.dfy ===
/** The course schema's validators and the `averageCost` aggregate that
    every course save and remove recomputes for the course's bootcamp. */
module CourseModel {
  import opened Common
  import opened Records
  import opened Averages

  /** The `minimumSkill` enum. */
  predicate IsSkill(s: string)
  {
    s == "beginner" || s == "intermediate" || s == "advanced"
  }

  /** A required string path: present and not empty. */
  predicate Filled(fields: map<string, string>, key: string)
  {
    key in fields && fields[key] != ""
  }

  /** What `Course.create` validates. `tuition` and `bootcamp` are declared
      with the misspelt option `require`, which Mongoose ignores, so neither
      is checked; `user` is always stamped by the handler. */
  predicate CourseValid(c: Course)
  {
    && Filled(c.fields, "title")
    && Filled(c.fields, "description")
    && Filled(c.fields, "weeks")
    && Filled(c.fields, "minimumSkill") && IsSkill(c.fields["minimumSkill"])
  }

  /** Whether some course belongs to bootcamp `bid`: the `$match` stage
      yields a group exactly then. */
  predicate HasCourse(courses: seq<Course>, bid: Id)
  {
    exists i :: 0 <= i < |courses| && courses[i].bootcamp == bid
  }

  /** The tuitions `$avg` averages: those of the courses of `bid` that have
      one, in collection order (`$avg` skips a missing value). */
  function Tuitions(courses: seq<Course>, bid: Id): (t: seq<int>)
    ensures |t| <= |courses|
    decreases |courses|
  {
    if |courses| == 0 then []
    else
      var c := courses[0];
      (if c.bootcamp == bid && c.tuition.Some? then [c.tuition.value] else []) + Tuitions(courses[1..], bid)
  }

  lemma {:induction false} TuitionsAppend(a: seq<Course>, b: seq<Course>, bid: Id)
    ensures Tuitions(a + b, bid) == Tuitions(a, bid) + Tuitions(b, bid)
    decreases |a|
  {
    if |a| == 0 {
      assert a + b == b;
    } else {
      assert (a + b)[1..] == a[1..] + b;
      TuitionsAppend(a[1..], b, bid);
    }
  }

  lemma {:induction false} TuitionsOfOthers(s: seq<Course>, bid: Id)
    requires forall i :: 0 <= i < |s| ==> s[i].bootcamp != bid
    ensures Tuitions(s, bid) == []
    decreases |s|
  {
    if |s| > 0 {
      TuitionsOfOthers(s[1..], bid);
    }
  }

  /** `getAverageCost(bid)`: `None` when no course belongs to `bid` (the read
      of `avgArray[0]` throws and the error is swallowed); `0` when courses
      exist but none has a tuition (`Math.ceil(null)`); otherwise the least
      integer not below the mean tuition. */
  function AverageCost(courses: seq<Course>, bid: Id): (r: Option<int>)
    ensures r.None? <==> !HasCourse(courses, bid)
    ensures r.Some? && |Tuitions(courses, bid)| == 0 ==> r.value == 0
    ensures r.Some? && |Tuitions(courses, bid)| > 0 ==>
              var t := Tuitions(courses, bid);
              (r.value - 1) * |t| < Sum(t) <= r.value * |t|
  {
    if !HasCourse(courses, bid) then None
    else
      var t := Tuitions(courses, bid);
      if |t| == 0 then Some(0) else Some(CeilMean(t))
  }

  /** Courses of other bootcamps never move a bootcamp's average. */
  lemma OtherCoursesIgnored(courses: seq<Course>, others: seq<Course>, bid: Id)
    requires HasCourse(courses, bid)
    requires forall i :: 0 <= i < |others| ==> others[i].bootcamp != bid
    ensures AverageCost(courses + others, bid) == AverageCost(courses, bid)
  {
    TuitionsAppend(courses, others, bid);
    TuitionsOfOthers(others, bid);
    assert Tuitions(courses, bid) + [] == Tuitions(courses, bid);
    var i :| 0 <= i < |courses| && courses[i].bootcamp == bid;
    assert (courses + others)[i] == courses[i];
  }

  /** The stored average is at least the mean and below the mean plus one,
      and it stays within any bounds all tuitions of the bootcamp keep. */
  lemma AverageCostBounds(courses: seq<Course>, bid: Id, lo: int, hi: int)
    requires AverageCost(courses, bid).Some? && |Tuitions(courses, bid)| > 0
    requires forall i :: 0 <= i < |Tuitions(courses, bid)| ==> lo <= Tuitions(courses, bid)[i] <= hi
    ensures lo <= AverageCost(courses, bid).value <= hi
  {
    CeilMeanBounds(Tuitions(courses, bid), lo, hi);
  }

  /** The `findByIdAndUpdate` the aggregate ends with: only bootcamp `bid`'s
      `averageCost` can change, and nothing changes when `bid` has no
      courses or no longer exists. */
  function RecomputeAverageCost(store: Store, bid: Id): (s: Store)
    ensures s.users == store.users && s.courses == store.courses && s.reviews == store.reviews
    ensures s.bootcamps.Keys == store.bootcamps.Keys
    ensures forall k :: k in store.bootcamps && k != bid ==> s.bootcamps[k] == store.bootcamps[k]
    ensures bid in s.bootcamps ==>
              s.bootcamps[bid].(averageCost := store.bootcamps[bid].averageCost) == store.bootcamps[bid]
    ensures bid in s.bootcamps && HasCourse(store.courses, bid) ==>
              s.bootcamps[bid].averageCost == AverageCost(store.courses, bid)
    ensures !HasCourse(store.courses, bid) ==> s == store
  {
    match AverageCost(store.courses, bid)
    case None => store
    case Some(v) =>
      if bid in store.bootcamps
      then store.(bootcamps := store.bootcamps[bid := store.bootcamps[bid].(averageCost := Some(v))])
      else store
  }

  /** `Course.create` followed by its post-save hook. `None` stands for the
      validation error or the duplicate `_id` that makes `create` reject. */
  function SaveCourse(store: Store, c: Course): (r: Option<Store>)
    ensures r.Some? <==> CourseValid(c) && FindCourse(store.courses, c.id).None?
    ensures r.Some? ==> r.value.courses == store.courses + [c]
    ensures r.Some? ==> r.value.bootcamps.Keys == store.bootcamps.Keys
    ensures r.Some? && c.bootcamp in store.bootcamps ==>
              r.value.bootcamps[c.bootcamp].averageCost == AverageCost(store.courses + [c], c.bootcamp)
    ensures r.Some? && c.bootcamp in store.bootcamps ==>
              r.value.bootcamps[c.bootcamp].(averageCost := store.bootcamps[c.bootcamp].averageCost) == store.bootcamps[c.bootcamp]
    ensures r.Some? ==> forall k :: k in store.bootcamps && k != c.bootcamp ==> r.value.bootcamps[k] == store.bootcamps[k]
    ensures r.Some? ==> r.value.users == store.users && r.value.reviews == store.reviews
  {
    if !CourseValid(c) || FindCourse(store.courses, c.id).Some? then None
    else
      var s := store.(courses := store.courses + [c]);
      assert s.courses[|store.courses|] == c;
      Some(RecomputeAverageCost(s, c.bootcamp))
  }

  /** No two courses share an `_id`, as the collection's primary key
      guarantees. */
  predicate DistinctIds(courses: seq<Course>)
  {
    forall a, b :: 0 <= a < b < |courses| ==> courses[a].id != courses[b].id
  }

  /** `Course.create` keeps the ids distinct: it refuses an id already taken. */
  lemma SaveKeepsDistinctIds(store: Store, c: Course)
    requires DistinctIds(store.courses) && SaveCourse(store, c).Some?
    ensures DistinctIds(SaveCourse(store, c).value.courses)
  {
    var cs := SaveCourse(store, c).value.courses;
    forall a, b | 0 <= a < b < |cs| ensures cs[a].id != cs[b].id {
      if b == |store.courses| {
        assert cs[a] == store.courses[a];
        assert cs[a] in store.courses;
      } else {
        assert cs[a] == store.courses[a] && cs[b] == store.courses[b];
      }
    }
  }

  /** `course.remove()` followed by its post-remove hook, for the course at
      index `i`. */
  function RemoveCourse(store: Store, i: nat): (s: Store)
    requires i < |store.courses|
    ensures s.courses == store.courses[..i] + store.courses[i + 1..]
    ensures s.users == store.users && s.reviews == store.reviews
    ensures s.bootcamps.Keys == store.bootcamps.Keys
    ensures forall k :: k in store.bootcamps && k != store.courses[i].bootcamp ==> s.bootcamps[k] == store.bootcamps[k]
    ensures var bid := store.courses[i].bootcamp; bid in store.bootcamps ==>
              s.bootcamps[bid].(averageCost := store.bootcamps[bid].averageCost) == store.bootcamps[bid]
    ensures var bid := store.courses[i].bootcamp; bid in store.bootcamps ==>
              s.bootcamps[bid].averageCost ==
                if HasCourse(s.courses, bid) then AverageCost(s.courses, bid) else store.bootcamps[bid].averageCost
  {
    var bid := store.courses[i].bootcamp;
    RecomputeAverageCost(store.(courses := store.courses[..i] + store.courses[i + 1..]), bid)
  }

  /** Removing a bootcamp's last course leaves its `averageCost` as it was:
      the aggregate finds no group and the error is swallowed. */
  lemma LastCourseLeavesCost(store: Store, i: nat)
    requires i < |store.courses|
    requires forall j :: 0 <= j < |store.courses| && j != i ==> store.courses[j].bootcamp != store.courses[i].bootcamp
    ensures var bid := store.courses[i].bootcamp;
      bid in store.bootcamps ==> RemoveCourse(store, i).bootcamps[bid] == store.bootcamps[bid]
  {
    var bid := store.courses[i].bootcamp;
    var rest := store.courses[..i] + store.courses[i + 1..];
    forall j | 0 <= j < |rest| ensures rest[j].bootcamp != bid {
      if j < i {
        assert rest[j] == store.courses[j];
      } else {
        assert rest[j] == store.courses[j + 1];
      }
    }
  }
}

=== FILE: courses.dfy ===
/** The course handlers. The course router merges the parent's parameters,
    so `bootcampId` is present exactly when the request came in under
    `/api/v1/bootcamps/:bootcampId/courses`. */
module CoursesController {
  import opened Common
  import opened Records
  import opened CourseModel

  /** The courses of bootcamp `bid`, in collection order. */
  function CoursesOf(courses: seq<Course>, bid: Id): (r: seq<Course>)
    ensures |r| <= |courses|
    ensures forall i :: 0 <= i < |r| ==> r[i] in courses && r[i].bootcamp == bid
    ensures forall i :: 0 <= i < |courses| && courses[i].bootcamp == bid ==> courses[i] in r
    decreases |courses|
  {
    if |courses| == 0 then []
    else if courses[0].bootcamp == bid then [courses[0]] + CoursesOf(courses[1..], bid)
    else CoursesOf(courses[1..], bid)
  }

  /** The filter acts course by course: on a concatenation it is the
      concatenation of its results, so the selected courses keep their
      collection order and multiplicity. */
  lemma {:induction false} CoursesOfAppend(a: seq<Course>, b: seq<Course>, bid: Id)
    ensures CoursesOf(a + b, bid) == CoursesOf(a, bid) + CoursesOf(b, bid)
    decreases |a|
  {
    if |a| > 0 {
      assert (a + b)[1..] == a[1..] + b;
      CoursesOfAppend(a[1..], b, bid);
    } else {
      assert a + b == b;
    }
  }

  /** A single course is selected iff it belongs to the bootcamp. */
  lemma CoursesOfOne(c: Course, bid: Id)
    ensures CoursesOf([c], bid) == if c.bootcamp == bid then [c] else []
  {
    assert [c][1..] == [];
  }

  /** `getCourses`: filtered by bootcamp when the route carried a non-empty
      `bootcampId`, every course otherwise. */
  function GetCourses(bootcampId: Option<Id>, store: Store): (r: Reply<seq<Course>>)
    ensures r.Ok? && r.status == 200
    ensures bootcampId.Some? && bootcampId.value != [] ==> r.value == CoursesOf(store.courses, bootcampId.value)
    ensures bootcampId.None? || bootcampId.value == [] ==> r.value == store.courses
  {
    if bootcampId.Some? && bootcampId.value != [] then Ok(200, CoursesOf(store.courses, bootcampId.value))
    else Ok(200, store.courses)
  }

  /** `getCourse`. The not-found branch calls `next` without returning, but
      the 404 is the response that reaches the client. */
  function GetCourse(id: Id, store: Store): (r: Reply<Course>)
    ensures r.Ok? <==> FindCourse(store.courses, id).Some?
    ensures r.Ok? ==> r.status == 200 && r.value.id == id && r.value in store.courses
    ensures !r.Ok? ==> r == Fail(404, "Course not found")
  {
    match FindCourse(store.courses, id)
    case None => Fail(404, "Course not found")
    case Some(c) => Ok(200, c)
  }

  /** The body of a course request: string paths and the numeric tuition. */
  datatype CourseBody = CourseBody(fields: map<string, string>, tuition: Option<int>)

  const Stamped: set<string> := {"bootcamp", "user"}

  /** `addCourse`. The parent bootcamp comes from the route and the owner
      from the caller, whatever the body says; a missing parent answers 404
      before ownership is looked at, and a caller who neither owns the parent
      nor is an admin gets 400. `newId` is the generated `_id`. */
  function AddCourse(caller: Option<User>, bootcampId: Option<Id>, body: CourseBody, newId: Id, store: Store): (h: Handled<Course>)
    ensures caller.Some? && (bootcampId.None? || bootcampId.value !in store.bootcamps) ==>
              h == Handled(Fail(404, "Bootcamp not found"), store)
    ensures caller.Some? && bootcampId.Some? && bootcampId.value in store.bootcamps &&
            !OwnerOrAdmin(store.bootcamps[bootcampId.value].owner, caller.value) ==>
              h == Handled(Fail(400, "Sorry, you do not own this bootcamp"), store)
    ensures h.reply.Ok? <==>
              && caller.Some? && bootcampId.Some? && bootcampId.value in store.bootcamps
              && OwnerOrAdmin(store.bootcamps[bootcampId.value].owner, caller.value)
              && SaveCourse(store, Course(newId, bootcampId.value, caller.value.id, body.tuition, body.fields - Stamped)).Some?
    ensures !h.reply.Ok? ==> h.store == store
    ensures h.reply.Ok? ==>
              && h.reply.status == 200
              && h.reply.value == Course(newId, bootcampId.value, caller.value.id, body.tuition, body.fields - Stamped)
              && h.store == SaveCourse(store, h.reply.value).value
  {
    if caller.None? then Handled(Thrown("Cannot read properties of null (reading 'id')"), store)
    else if bootcampId.None? || bootcampId.value !in store.bootcamps then Handled(Fail(404, "Bootcamp not found"), store)
    else if !OwnerOrAdmin(store.bootcamps[bootcampId.value].owner, caller.value) then
      Handled(Fail(400, "Sorry, you do not own this bootcamp"), store)
    else
      var c := Course(newId, bootcampId.value, caller.value.id, body.tuition, body.fields - Stamped);
      match SaveCourse(store, c)
      case None => Handled(Thrown("ValidationError"), store)
      case Some(s) => Handled(Ok(200, c), s)
  }

  /** A successful add refreshes the parent's `averageCost` so that it
      counts the new course. */
  lemma AddCourseRefreshesCost(caller: Option<User>, bootcampId: Option<Id>, body: CourseBody, newId: Id, store: Store)
    requires AddCourse(caller, bootcampId, body, newId, store).reply.Ok?
    ensures var h := AddCourse(caller, bootcampId, body, newId, store);
      && h.store.courses == store.courses + [h.reply.value]
      && bootcampId.value in h.store.bootcamps
      && h.store.bootcamps[bootcampId.value].averageCost == AverageCost(h.store.courses, bootcampId.value)
      && h.store.bootcamps[bootcampId.value].averageCost.Some?
  {
    var h := AddCourse(caller, bootcampId, body, newId, store);
    assert h.store.courses[|store.courses|].bootcamp == bootcampId.value;
  }

  /** Appending a course to the collection appends it to every listing that
      selects it and leaves every other listing as it was. */
  lemma ListingAfterAppend(bootcampId: Option<Id>, s: Store, t: Store, c: Course)
    requires t.courses == s.courses + [c]
    ensures GetCourses(bootcampId, t).value ==
              if bootcampId.Some? && bootcampId.value != [] && c.bootcamp != bootcampId.value
              then GetCourses(bootcampId, s).value
              else GetCourses(bootcampId, s).value + [c]
  {
    if bootcampId.Some? && bootcampId.value != [] {
      CoursesOfAppend(s.courses, [c], bootcampId.value);
      CoursesOfOne(c, bootcampId.value);
    }
  }

  /** Add then list: the bootcamp's course list gains exactly the new course
      at its end, and every other bootcamp's list is unchanged (an empty
      id is falsy and lists every course). */
  lemma AddCourseThenListed(caller: Option<User>, bootcampId: Option<Id>, body: CourseBody, newId: Id, store: Store, other: Id)
    requires AddCourse(caller, bootcampId, body, newId, store).reply.Ok?
    ensures var h := AddCourse(caller, bootcampId, body, newId, store);
      GetCourses(bootcampId, h.store).value == GetCourses(bootcampId, store).value + [h.reply.value]
    ensures var h := AddCourse(caller, bootcampId, body, newId, store);
      other != [] && other != bootcampId.value ==> GetCourses(Some(other), h.store) == GetCourses(Some(other), store)
  {
    var h := AddCourse(caller, bootcampId, body, newId, store);
    var c := h.reply.value;
    assert c.bootcamp == bootcampId.value;
    assert h.store.courses == store.courses + [c];
    ListingAfterAppend(bootcampId, store, h.store, c);
    ListingAfterAppend(Some(other), store, h.store, c);
  }

  /** Whether an update body passes the update validators, which check only
      the paths the body sets. */
  predicate UpdateValid(fields: map<string, string>)
  {
    && (forall k :: k in fields && k in {"title", "description", "weeks", "minimumSkill", "user"} ==> fields[k] != "")
    && ("minimumSkill" in fields ==> IsSkill(fields["minimumSkill"]))
  }

  /** The course an update body produces: every path it names is written,
      `bootcamp` and `user` included. */
  function Updated(c: Course, body: CourseBody): (u: Course)
    ensures u.id == c.id
    ensures u.fields == c.fields + (body.fields - Stamped)
    ensures u.bootcamp == (if "bootcamp" in body.fields then body.fields["bootcamp"] else c.bootcamp)
    ensures u.owner == (if "user" in body.fields then body.fields["user"] else c.owner)
    ensures u.tuition == (if body.tuition.Some? then body.tuition else c.tuition)
  {
    c.(bootcamp := if "bootcamp" in body.fields then body.fields["bootcamp"] else c.bootcamp,
       owner := if "user" in body.fields then body.fields["user"] else c.owner,
       tuition := if body.tuition.Some? then body.tuition else c.tuition,
       fields := c.fields + (body.fields - Stamped))
  }

  /** `updateCourse`. A missing course answers 404 and changes nothing (the
      fall-through past the unreturned `next` only throws); the caller must
      own the course itself, not its bootcamp, or be an admin, else 400.
      `findByIdAndUpdate` fires no save hook, so no average is recomputed. */
  function UpdateCourse(caller: Option<User>, id: Id, body: CourseBody, store: Store): (h: Handled<Course>)
    ensures FindCourse(store.courses, id).None? ==> h == Handled(Fail(404, "Course not found"), store)
    ensures caller.Some? && FindCourse(store.courses, id).Some? &&
            !OwnerOrAdmin(FindCourse(store.courses, id).value.owner, caller.value) ==>
              h == Handled(Fail(400, "Sorry, you do not own this Course"), store)
    ensures h.reply.Ok? <==>
              && FindCourse(store.courses, id).Some? && caller.Some?
              && OwnerOrAdmin(FindCourse(store.courses, id).value.owner, caller.value)
              && UpdateValid(body.fields)
    ensures !h.reply.Ok? ==> h.store == store
    ensures h.reply.Ok? ==>
              && h.reply.status == 200
              && h.reply.value == Updated(FindCourse(store.courses, id).value, body)
              && h.store.bootcamps == store.bootcamps
              && h.store.users == store.users && h.store.reviews == store.reviews
              && |h.store.courses| == |store.courses|
              && (forall i :: 0 <= i < |store.courses| ==>
                    h.store.courses[i] == if store.courses[i].id == id then h.reply.value else store.courses[i])
  {
    match FindCourse(store.courses, id)
    case None => Handled(Fail(404, "Course not found"), store)
    case Some(c) =>
      if caller.None? then Handled(Thrown("Cannot read properties of null (reading 'id')"), store)
      else if !OwnerOrAdmin(c.owner, caller.value) then Handled(Fail(400, "Sorry, you do not own this Course"), store)
      else if !UpdateValid(body.fields) then Handled(Thrown("ValidationError"), store)
      else
        var u := Updated(c, body);
        var cs := seq(|store.courses|, i requires 0 <= i < |store.courses| =>
                        if store.courses[i].id == id then u else store.courses[i]);
        Handled(Ok(200, u), store.(courses := cs))
  }

  /** An update that changes a tuition leaves every bootcamp's stored
      `averageCost` as it was, even though the average it summarises moved. */
  lemma UpdateLeavesCostStale(caller: Option<User>, id: Id, body: CourseBody, store: Store)
    requires UpdateCourse(caller, id, body, store).reply.Ok?
    ensures forall k :: k in store.bootcamps ==>
              UpdateCourse(caller, id, body, store).store.bootcamps[k].averageCost == store.bootcamps[k].averageCost
  {
  }

  /** `deleteCourse`: the same checks as the update, then `course.remove()`,
      whose post-remove hook recomputes the bootcamp's `averageCost`. */
  function DeleteCourse(caller: Option<User>, id: Id, store: Store): (h: Handled<()>)
    ensures FindCourse(store.courses, id).None? ==> h == Handled(Fail(404, "Course not found"), store)
    ensures caller.Some? && FindCourse(store.courses, id).Some? &&
            !OwnerOrAdmin(FindCourse(store.courses, id).value.owner, caller.value) ==>
              h == Handled(Fail(400, "Sorry, you do not own this Course"), store)
    ensures h.reply.Ok? <==>
              FindCourse(store.courses, id).Some? && caller.Some? &&
              OwnerOrAdmin(FindCourse(store.courses, id).value.owner, caller.value)
    ensures !h.reply.Ok? ==> h.store == store
    ensures h.reply.Ok? ==>
              && h.reply.status == 200
              && |h.store.courses| == |store.courses| - 1
              && (forall i :: 0 <= i < |h.store.courses| ==> h.store.courses[i] in store.courses)
              && multiset(h.store.courses) == multiset(store.courses) - multiset{FindCourse(store.courses, id).value}
              && (forall c :: c in store.courses && c.id != id ==> c in h.store.courses)
              && (DistinctIds(store.courses) ==> forall c :: c in h.store.courses ==> c.id != id)
              && h.store.bootcamps.Keys == store.bootcamps.Keys
              && (forall k :: k in store.bootcamps && k != FindCourse(store.courses, id).value.bootcamp ==>
                    h.store.bootcamps[k] == store.bootcamps[k])
              && (var bid := FindCourse(store.courses, id).value.bootcamp;
                  bid in h.store.bootcamps && HasCourse(h.store.courses, bid) ==>
                    h.store.bootcamps[bid].averageCost == AverageCost(h.store.courses, bid))
    ensures h.reply.Ok? ==> h.store.users == store.users && h.store.reviews == store.reviews
    ensures h.reply.Ok? ==>
              var bid := FindCourse(store.courses, id).value.bootcamp;
              bid in store.bootcamps ==>
                && h.store.bootcamps[bid].(averageCost := store.bootcamps[bid].averageCost) == store.bootcamps[bid]
                && (!HasCourse(h.store.courses, bid) ==> h.store.bootcamps[bid].averageCost == store.bootcamps[bid].averageCost)
  {
    match FirstWhere(store.courses, (c: Course) => c.id == id)
    case None => Handled(Fail(404, "Course not found"), store)
    case Some(i) =>
      var c := store.courses[i];
      if caller.None? then Handled(Thrown("Cannot read properties of null (reading 'id')"), store)
      else if !OwnerOrAdmin(c.owner, caller.value) then Handled(Fail(400, "Sorry, you do not own this Course"), store)
      else
        var s := RemoveCourse(store, i);
        RemovedAt(store.courses, i);
        Handled(Ok(200, ()), s)
  }

  /** What removing the course at index `i` leaves: every other course, one
      copy fewer of the removed one, and no course with its id when the ids
      are distinct. */
  lemma RemovedAt(courses: seq<Course>, i: nat)
    requires i < |courses|
    ensures var r := courses[..i] + courses[i + 1..];
      && |r| == |courses| - 1
      && (forall j :: 0 <= j < |r| ==> r[j] in courses)
      && multiset(r) == multiset(courses) - multiset{courses[i]}
      && (forall d :: d in courses && d != courses[i] ==> d in r)
      && (DistinctIds(courses) ==> forall d :: d in r ==> d.id != courses[i].id)
  {
    var r := courses[..i] + courses[i + 1..];
    RemovedCount(courses, i);
    RemovedMembers(courses, i);
    if DistinctIds(courses) {
      forall d | d in r ensures d.id != courses[i].id {
        var a :| 0 <= a < |r| && r[a] == d;
        assert r[a] == courses[if a < i then a else a + 1];
      }
    }
  }

  lemma RemovedCount(courses: seq<Course>, i: nat)
    requires i < |courses|
    ensures multiset(courses[..i] + courses[i + 1..]) == multiset(courses) - multiset{courses[i]}
  {
    assert courses == courses[..i] + [courses[i]] + courses[i + 1..];
  }

  lemma RemovedMembers(courses: seq<Course>, i: nat)
    requires i < |courses|
    ensures forall d :: d in courses && d != courses[i] ==> d in courses[..i] + courses[i + 1..]
  {
    var r := courses[..i] + courses[i + 1..];
    forall d | d in courses && d != courses[i] ensures d in r {
      var a :| 0 <= a < |courses| && courses[a] == d;
      assert r[if a < i then a else a - 1] == d;
    }
  }

  /** Delete then read: once a course is deleted its id answers 404, and
      every other course is still found, provided the ids are distinct. */
  lemma DeleteThenGone(caller: Option<User>, id: Id, other: Id, store: Store)
    requires DistinctIds(store.courses)
    requires caller.Some? && FindCourse(store.courses, id).Some?
    requires OwnerOrAdmin(FindCourse(store.courses, id).value.owner, caller.value)
    requires other != id && FindCourse(store.courses, other).Some?
    ensures var s := DeleteCourse(caller, id, store).store;
      GetCourse(id, s) == Fail(404, "Course not found") && GetCourse(other, s) == GetCourse(other, store)
  {
    var s := DeleteCourse(caller, id, store).store;
    var c := FindCourse(store.courses, other).value;
    forall d | d in store.courses && d.id == other ensures d == c {
      var a :| 0 <= a < |store.courses| && store.courses[a] == d;
      var b :| 0 <= b < |store.courses| && store.courses[b] == c;
      assert a == b;
    }
    FindOnly(store.courses, c);
    FindOnly(s.courses, c);
  }

  /** A course whose id no other course carries is what `findById` finds. */
  lemma FindOnly(courses: seq<Course>, c: Course)
    requires c in courses
    requires forall d :: d in courses && d.id == c.id ==> d == c
    ensures FindCourse(courses, c.id) == Some(c)
  {
  }

  /** A missing course is never updated or deleted, whoever asks. */
  lemma MissingCourseUntouched(caller: Option<User>, id: Id, body: CourseBody, store: Store)
    requires forall i :: 0 <= i < |store.courses| ==> store.courses[i].id != id
    ensures UpdateCourse(caller, id, body, store) == Handled(Fail(404, "Course not found"), store)
    ensures DeleteCourse(caller, id, store) == Handled(Fail(404, "Course not found"), store)
  {
  }
}

=== FILE: query_builder.dfy ===
/** The list-query builder `advancedResults(model, populate)`: it turns the
    parsed query string into the filter handed to `find`, the `select` and
    `sort` field lists, the skip/limit window, and the `{success, count,
    pagination, data}` envelope left on `res.advancedResults`.

    The filter is built the way the middleware builds it: the reserved keys
    are deleted, the remaining object is serialised with `JSON.stringify`, and
    the regular expression `\b(gt|gte|lt|lte|in)\b` puts a `$` in front of
    every whole-word operator in that text. */
module QueryBuilder {
  import opened Common

  /** A value the query-string parser produces for one key: `k=v`, a
      repeated `k=a&k=b`, or a bracketed `k[op]=v`. */
  datatype Value = Text(text: string) | List(items: seq<string>) | Fields(entries: seq<(string, string)>)

  /** `req.query`: its keys in insertion order. */
  type Query = seq<(string, Value)>

  // ---------------------------------------------------------------------
  // Reserved keys
  // ---------------------------------------------------------------------

  predicate IsReserved(key: string)
  {
    key == "select" || key == "sort" || key == "page" || key == "limit"
  }

  /** `req.query[key]` */
  function Get(q: Query, key: string): (r: Option<Value>)
    ensures r.Some? ==> (key, r.value) in q
    ensures r.None? <==> forall i :: 0 <= i < |q| ==> q[i].0 != key
  {
    match FirstWhere(q, (e: (string, Value)) => e.0 == key)
    case None => None
    case Some(i) => Some(q[i].1)
  }

  /** The copy `reqQuery` after `delete reqQuery[param]` for each reserved
      key: exactly the non-reserved entries survive, in their order. */
  function RemoveReserved(q: Query): (r: Query)
    ensures forall i :: 0 <= i < |r| ==> !IsReserved(r[i].0)
    ensures forall e :: e in r <==> e in q && !IsReserved(e.0)
    ensures (forall i :: 0 <= i < |q| ==> !IsReserved(q[i].0)) ==> r == q
    decreases |q|
  {
    if |q| == 0 then []
    else if IsReserved(q[0].0) then RemoveReserved(q[1..])
    else [q[0]] + RemoveReserved(q[1..])
  }

  /** The deletion acts entry by entry: on a concatenation it is the
      concatenation of its results, so the surviving entries keep their
      relative order. */
  lemma {:induction false} RemoveReservedAppend(a: Query, b: Query)
    ensures RemoveReserved(a + b) == RemoveReserved(a) + RemoveReserved(b)
    decreases |a|
  {
    if |a| > 0 {
      assert (a + b)[1..] == a[1..] + b;
      RemoveReservedAppend(a[1..], b);
    } else {
      assert a + b == b;
    }
  }

  /** A single entry survives exactly when its key is not reserved. */
  lemma RemoveReservedOne(e: (string, Value))
    ensures RemoveReserved([e]) == if IsReserved(e.0) then [] else [e]
  {
    assert [e][1..] == [];
  }

  // ---------------------------------------------------------------------
  // JSON.stringify of the remaining query
  // ---------------------------------------------------------------------

  function HexDigit(n: nat): char
    requires n < 16
  {
    if n < 10 then ('0' as int + n) as char else ('a' as int + n - 10) as char
  }

  /** How `JSON.stringify` writes one character inside a string literal. */
  function EscapeChar(c: char): string
  {
    if c == '"' then "\\\""
    else if c == '\\' then "\\\\"
    else if c as int == 0x08 then "\\b"
    else if c as int == 0x0C then "\\f"
    else if c == '\n' then "\\n"
    else if c == '\r' then "\\r"
    else if c == '\t' then "\\t"
    else if c as int < 0x20 then "\\u00" + [HexDigit(c as int / 16), HexDigit(c as int % 16)]
    else [c]
  }

  function Escape(s: string): string
    decreases |s|
  {
    if s == [] then [] else EscapeChar(s[0]) + Escape(s[1..])
  }

  /** A string literal in the serialised text. */
  function Quote(s: string): string
  {
    "\"" + Escape(s) + "\""
  }

  function SerializeValue(v: Value): string
  {
    match v
    case Text(t) => Quote(t)
    case List(items) =>
      "[" + Join(seq(|items|, i requires 0 <= i < |items| => Quote(items[i])), ',') + "]"
    case Fields(es) =>
      "{" + Join(seq(|es|, i requires 0 <= i < |es| => Quote(es[i].0) + ":" + Quote(es[i].1)), ',') + "}"
  }

  /** `JSON.stringify(reqQuery)` */
  function Serialize(q: Query): string
  {
    "{" + Join(seq(|q|, i requires 0 <= i < |q| => Quote(q[i].0) + ":" + SerializeValue(q[i].1)), ',') + "}"
  }

  // ---------------------------------------------------------------------
  // The operator rewrite `replace(/\b(gt|gte|lt|lte|in)\b/g, m => `$${m}`)`
  // ---------------------------------------------------------------------

  /** A character of the regular-expression class `\w`. */
  predicate IsWordChar(c: char)
  {
    'a' <= c <= 'z' || 'A' <= c <= 'Z' || '0' <= c <= '9' || c == '_'
  }

  predicate IsOperator(w: string)
  {
    w == "gt" || w == "gte" || w == "lt" || w == "lte" || w == "in"
  }

  /** The longest prefix of `s` made of word characters. */
  function LeadingWord(s: string): (w: string)
    ensures |w| <= |s| && w == s[..|w|]
    ensures forall i :: 0 <= i < |w| ==> IsWordChar(w[i])
    ensures |w| < |s| ==> !IsWordChar(s[|w|])
    decreases |s|
  {
    if s != [] && IsWordChar(s[0]) then [s[0]] + LeadingWord(s[1..]) else []
  }

  /** The rewrite, scanning from a word boundary: a non-word character is
      copied, a whole word is copied with a `$` in front when it is one of the
      five operators. The alternation tries `gt` before `gte`, but `gt` is only
      accepted when a word boundary follows, so `gte` is matched whole. */
  function Rewrite(s: string): string
    decreases |s|
  {
    if s == [] then []
    else if !IsWordChar(s[0]) then [s[0]] + Rewrite(s[1..])
    else
      var w := LeadingWord(s);
      Chunk(w) + Rewrite(s[|w|..])
  }

  /** What the rewrite writes for a whole word. */
  function Chunk(w: string): string
  {
    if IsOperator(w) then "$" + w else w
  }

  /** The inverse of `Rewrite`: drops the `$` in front of each operator word. */
  function Unrewrite(t: string): string
    decreases |t|
  {
    if t == [] then []
    else if t[0] == '$' && IsOperator(LeadingWord(t[1..])) then
      var w := LeadingWord(t[1..]);
      w + Unrewrite(t[1 + |w|..])
    else if IsWordChar(t[0]) then
      var w := LeadingWord(t);
      w + Unrewrite(t[|w|..])
    else [t[0]] + Unrewrite(t[1..])
  }

  predicate BoundaryBefore(s: string, i: int)
    requires 0 <= i <= |s|
  {
    i == 0 || !IsWordChar(s[i - 1])
  }

  /** A whole-word operator starting at `i` without a `$` in front of it. */
  predicate BareOperatorAt(s: string, i: int)
    requires 0 <= i < |s|
  {
    BoundaryBefore(s, i) && IsOperator(LeadingWord(s[i..])) && (i == 0 || s[i - 1] != '$')
  }

  lemma {:induction false} LeadingWordOfWord(a: string, b: string)
    requires forall i :: 0 <= i < |a| ==> IsWordChar(a[i])
    requires b == [] || !IsWordChar(b[0])
    ensures LeadingWord(a + b) == a
    decreases |a|
  {
    if a != [] {
      assert (a + b)[1..] == a[1..] + b;
      LeadingWordOfWord(a[1..], b);
      assert [a[0]] + a[1..] == a;
    } else {
      assert a + b == b;
    }
  }

  lemma {:induction false} LeadingWordOfPrefix(a: string, b: string)
    requires |LeadingWord(a)| < |a|
    ensures LeadingWord(a + b) == LeadingWord(a)
    decreases |a|
  {
    if IsWordChar(a[0]) {
      assert (a + b)[1..] == a[1..] + b;
      LeadingWordOfPrefix(a[1..], b);
    }
  }

  /** The rewrite of a text that starts with a non-word character starts
      with that character. */
  lemma RewriteKeepsHead(s: string)
    requires s != [] && !IsWordChar(s[0])
    ensures Rewrite(s) != [] && Rewrite(s)[0] == s[0]
  {
  }

  lemma {:induction false} LeadingWordOfRewrite(s: string)
    ensures LeadingWord(Rewrite(s)) == if IsOperator(LeadingWord(s)) then [] else LeadingWord(s)
    decreases |s|
  {
    if s != [] && IsWordChar(s[0]) {
      var w := LeadingWord(s);
      var rest := s[|w|..];
      if rest != [] { RewriteKeepsHead(rest); }
      if !IsOperator(w) {
        LeadingWordOfWord(w, Rewrite(rest));
      }
    }
  }

  lemma UnrewriteOperatorStep(t: string)
    requires t != [] && t[0] == '$' && IsOperator(LeadingWord(t[1..]))
    ensures Unrewrite(t) == LeadingWord(t[1..]) + Unrewrite(t[1 + |LeadingWord(t[1..])|..])
  {
  }

  lemma UnrewriteWordStep(t: string)
    requires t != [] && IsWordChar(t[0])
    ensures Unrewrite(t) == LeadingWord(t) + Unrewrite(t[|LeadingWord(t)|..])
  {
  }

  lemma UnrewriteOtherStep(t: string)
    requires t != [] && !IsWordChar(t[0]) && !IsOperator(LeadingWord(t[1..]))
    ensures Unrewrite(t) == [t[0]] + Unrewrite(t[1..])
  {
  }

  lemma RoundTripNonWord(s: string)
    requires s != [] && !IsWordChar(s[0])
    requires Unrewrite(Rewrite(s[1..])) == s[1..]
    ensures Unrewrite(Rewrite(s)) == s
  {
    var t := Rewrite(s);
    RewriteNonWordStep(s);
    assert t[0] == s[0] && t[1..] == Rewrite(s[1..]);
    LeadingWordOfRewrite(s[1..]);
    UnrewriteOtherStep(t);
    assert [s[0]] + s[1..] == s;
  }

  lemma RoundTripWord(s: string)
    requires s != [] && IsWordChar(s[0])
    requires Unrewrite(Rewrite(s[|LeadingWord(s)|..])) == s[|LeadingWord(s)|..]
    ensures Unrewrite(Rewrite(s)) == s
  {
    WordSplit(s);
    RoundTripChunk(LeadingWord(s), Rewrite(s[|LeadingWord(s)|..]));
  }

  /** A text that opens with a word is that word followed by the rest, and
      the rewrite of the rest cannot extend the word. */
  lemma WordSplit(s: string)
    requires s != [] && IsWordChar(s[0])
    ensures var w := LeadingWord(s);
      && w != [] && IsWordChar(w[0])
      && s == w + s[|w|..]
      && LeadingWord(w + Rewrite(s[|w|..])) == w
      && Rewrite(s) == Chunk(w) + Rewrite(s[|w|..])
  {
    WordParts(s);
    WordNotExtended(s);
    RewriteWordStep(s);
  }

  lemma WordParts(s: string)
    requires s != [] && IsWordChar(s[0])
    ensures var w := LeadingWord(s);
      w != [] && IsWordChar(w[0]) && s == w + s[|w|..]
  {
    var w := LeadingWord(s);
    assert w == s[..|w|];
    assert s == s[..|w|] + s[|w|..];
  }

  lemma WordNotExtended(s: string)
    ensures var w := LeadingWord(s);
      LeadingWord(w + Rewrite(s[|w|..])) == w
  {
    var w := LeadingWord(s);
    var rest := s[|w|..];
    if rest != [] {
      assert rest[0] == s[|w|];
      RewriteKeepsHead(rest);
    }
    LeadingWordOfWord(w, Rewrite(rest));
  }

  /** Undoing the rewrite of a whole word followed by the rewrite of the rest. */
  lemma RoundTripChunk(w: string, r: string)
    requires w != [] && IsWordChar(w[0]) && LeadingWord(w + r) == w
    ensures Unrewrite(Chunk(w) + r) == w + Unrewrite(r)
  {
    if IsOperator(w) {
      RoundTripOperator(w, r);
    } else {
      var t := w + r;
      assert t[0] == w[0];
      assert t[|w|..] == r;
      UnrewriteWordStep(t);
    }
  }

  lemma RoundTripOperator(w: string, r: string)
    requires IsOperator(w) && LeadingWord(w + r) == w
    ensures Unrewrite("$" + w + r) == w + Unrewrite(r)
  {
    var t := "$" + w + r;
    assert t[1..] == w + r;
    assert t[1 + |w|..] == r;
    UnrewriteOperatorStep(t);
  }

  /** Round trip: the rewrite only inserts `$` signs, and removing the one in
      front of each operator word gives the serialised text back, so no other
      character of any key or value is touched. */
  lemma {:induction false} RewriteRoundTrip(s: string)
    ensures Unrewrite(Rewrite(s)) == s
    decreases |s|
  {
    if s == [] {
    } else if !IsWordChar(s[0]) {
      RewriteRoundTrip(s[1..]);
      RoundTripNonWord(s);
    } else {
      RewriteRoundTrip(s[|LeadingWord(s)|..]);
      RoundTripWord(s);
    }
  }

  lemma NoBareNonWord(s: string)
    requires s != [] && !IsWordChar(s[0])
    requires forall i :: 0 <= i < |Rewrite(s[1..])| ==> !BareOperatorAt(Rewrite(s[1..]), i)
    ensures forall i :: 0 <= i < |Rewrite(s)| ==> !BareOperatorAt(Rewrite(s), i)
  {
    RewriteNonWordStep(s);
    var r' := Rewrite(s[1..]);
    forall i | 0 <= i < |[s[0]] + r'|
      ensures !BareOperatorAt([s[0]] + r', i)
    {
      NoBareAfterChar(s[0], r', i);
    }
  }

  /** A non-word character in front of a text without bare operators adds
      none. */
  lemma NoBareAfterChar(c: char, r': string, i: nat)
    requires !IsWordChar(c) && i < |[c] + r'|
    requires forall k :: 0 <= k < |r'| ==> !BareOperatorAt(r', k)
    ensures !BareOperatorAt([c] + r', i)
  {
    var r := [c] + r';
    if i == 0 {
      assert r[0..] == r;
    } else if i == 1 {
      assert r[1..] == r';
      if c != '$' {
        assert !BareOperatorAt(r', 0);
      }
    } else {
      assert r[i..] == r'[i - 1..];
      assert r[i - 1] == r'[i - 2];
      assert !BareOperatorAt(r', i - 1);
    }
  }

  /** Inside the copied word (with its `$` when it is an operator) no bare
      operator starts. */
  lemma NoBareInWord(w: string, r': string, i: nat)
    requires w != [] && forall k :: 0 <= k < |w| ==> IsWordChar(w[k])
    requires r' == [] || !IsWordChar(r'[0])
    requires i < |Chunk(w)|
    ensures !BareOperatorAt(Chunk(w) + r', i)
  {
    var p := Chunk(w);
    var r := p + r';
    if IsOperator(w) {
      assert p == "$" + w;
      if i <= 1 {
        assert r[0] == '$';
        assert r[0..] == r;
      } else {
        assert r[i - 1] == w[i - 2];
      }
    } else {
      assert p == w;
      if i == 0 {
        LeadingWordOfWord(w, r');
        assert r[0..] == r;
      } else {
        assert r[i - 1] == w[i - 1];
      }
    }
  }

  lemma NoBareWord(s: string)
    requires s != [] && IsWordChar(s[0])
    requires forall i :: 0 <= i < |Rewrite(s[|LeadingWord(s)|..])| ==>
               !BareOperatorAt(Rewrite(s[|LeadingWord(s)|..]), i)
    ensures forall i :: 0 <= i < |Rewrite(s)| ==> !BareOperatorAt(Rewrite(s), i)
  {
    var w := LeadingWord(s);
    var rest := s[|w|..];
    var r' := Rewrite(rest);
    RewriteWordStep(s);
    if rest != [] { RewriteKeepsHead(rest); }
    var p := Chunk(w);
    var r := p + r';
    assert Rewrite(s) == r;
    forall i | 0 <= i < |r|
      ensures !BareOperatorAt(r, i)
    {
      if i < |p| {
        NoBareInWord(w, r', i);
      } else if i == |p| {
        assert r[i - 1] == p[|p| - 1] == w[|w| - 1];
      } else {
        assert r[i..] == r'[i - |p|..];
        assert r[i - 1] == r'[i - |p| - 1];
        assert !BareOperatorAt(r', i - |p|);
      }
    }
  }

  /** After the rewrite no whole-word `gt`, `gte`, `lt`, `lte` or `in` is left
      without a `$` in front of it. */
  lemma {:induction false} RewriteLeavesNoBareOperator(s: string)
    ensures forall i :: 0 <= i < |Rewrite(s)| ==> !BareOperatorAt(Rewrite(s), i)
    decreases |s|
  {
    if s == [] {
    } else if !IsWordChar(s[0]) {
      RewriteLeavesNoBareOperator(s[1..]);
      NoBareNonWord(s);
    } else {
      RewriteLeavesNoBareOperator(s[|LeadingWord(s)|..]);
      NoBareWord(s);
    }
  }

  /** A non-word character is copied and the scan restarts after it. */
  lemma RewriteNonWordStep(s: string)
    requires s != [] && !IsWordChar(s[0])
    ensures Rewrite(s) == [s[0]] + Rewrite(s[1..])
  {
  }

  /** A whole word is copied, with a `$` in front when it is an operator. */
  lemma RewriteWordStep(s: string)
    requires s != [] && IsWordChar(s[0])
    ensures Rewrite(s) == Chunk(LeadingWord(s)) + Rewrite(s[|LeadingWord(s)|..])
  {
  }

  lemma RewriteConcatNonWord(a: string, b: string)
    requires a != [] && !IsWordChar(a[0])
    requires Rewrite(a[1..] + b) == Rewrite(a[1..]) + Rewrite(b)
    ensures Rewrite(a + b) == Rewrite(a) + Rewrite(b)
  {
    var ab := a + b;
    assert ab[0] == a[0];
    assert ab[1..] == a[1..] + b;
    RewriteNonWordStep(ab);
    RewriteNonWordStep(a);
  }

  lemma InnerWordThen(a: string, b: string)
    requires a != [] && IsWordChar(a[0]) && |LeadingWord(a)| < |a|
    ensures Rewrite(a + b) == Chunk(LeadingWord(a)) + Rewrite(a[|LeadingWord(a)|..] + b)
  {
    var ab := a + b;
    var w := LeadingWord(a);
    assert ab[0] == a[0];
    LeadingWordOfPrefix(a, b);
    assert ab[|w|..] == a[|w|..] + b;
    RewriteWordStep(ab);
  }

  lemma RewriteConcatInnerWord(a: string, b: string)
    requires a != [] && IsWordChar(a[0]) && |LeadingWord(a)| < |a|
    requires Rewrite(a[|LeadingWord(a)|..] + b) == Rewrite(a[|LeadingWord(a)|..]) + Rewrite(b)
    ensures Rewrite(a + b) == Rewrite(a) + Rewrite(b)
  {
    InnerWordThen(a, b);
    RewriteWordStep(a);
    ConcatAssoc(Chunk(LeadingWord(a)), Rewrite(a[|LeadingWord(a)|..]), Rewrite(b));
  }

  lemma ConcatAssoc(x: string, y: string, z: string)
    ensures x + (y + z) == (x + y) + z
  {
  }

  lemma WholeWordAlone(a: string)
    requires a != [] && LeadingWord(a) == a
    ensures Rewrite(a) == Chunk(a)
  {
    RewriteWordStep(a);
    assert a[|a|..] == [];
  }

  lemma WholeWordThen(a: string, b: string)
    requires a != [] && LeadingWord(a) == a
    requires b == [] || !IsWordChar(b[0])
    ensures Rewrite(a + b) == Chunk(a) + Rewrite(b)
  {
    var ab := a + b;
    assert ab[0] == a[0];
    LeadingWordOfWord(a, b);
    assert ab[|a|..] == b;
    RewriteWordStep(ab);
  }

  lemma RewriteConcatWholeWord(a: string, b: string)
    requires a != [] && LeadingWord(a) == a
    requires b == [] || !IsWordChar(b[0])
    ensures Rewrite(a + b) == Rewrite(a) + Rewrite(b)
  {
    WholeWordAlone(a);
    WholeWordThen(a, b);
  }

  /** The rewrite of a concatenation is the concatenation of the rewrites as
      long as no word straddles the seam. */
  lemma {:induction false} RewriteConcat(a: string, b: string)
    requires a == [] || b == [] || !IsWordChar(a[|a| - 1]) || !IsWordChar(b[0])
    ensures Rewrite(a + b) == Rewrite(a) + Rewrite(b)
    decreases |a|
  {
    if a == [] {
      assert a + b == b;
    } else if !IsWordChar(a[0]) {
      RewriteConcat(a[1..], b);
      RewriteConcatNonWord(a, b);
    } else if |LeadingWord(a)| < |a| {
      RewriteConcat(a[|LeadingWord(a)|..], b);
      RewriteConcatInnerWord(a, b);
    } else {
      assert LeadingWord(a) == a;
      RewriteConcatWholeWord(a, b);
    }
  }

  /** The first part and the separator are rewritten on their own. */
  lemma RewriteJoinHead(parts: seq<string>, sep: char)
    requires |parts| > 1 && !IsWordChar(sep)
    ensures Rewrite(Join(parts, sep)) == Rewrite(parts[0]) + [sep] + Rewrite(Join(parts[1..], sep))
  {
    var tail := Join(parts[1..], sep);
    var b := [sep] + tail;
    JoinStep(parts, sep);
    assert Join(parts, sep) == parts[0] + b;
    RewriteSepThen(sep, tail);
    RewriteConcat(parts[0], b);
  }

  lemma RewriteSepThen(sep: char, tail: string)
    requires !IsWordChar(sep)
    ensures Rewrite([sep] + tail) == [sep] + Rewrite(tail)
  {
    assert ([sep] + tail)[1..] == tail;
    RewriteNonWordStep([sep] + tail);
  }

  /** Joining with a non-word separator commutes with the rewrite. */
  lemma {:induction false} RewriteJoin(parts: seq<string>, sep: char)
    requires !IsWordChar(sep)
    ensures Rewrite(Join(parts, sep)) == Join(RewriteAll(parts), sep)
    decreases |parts|
  {
    if |parts| > 1 {
      var mapped := RewriteAll(parts);
      RewriteJoin(parts[1..], sep);
      assert mapped[1..] == RewriteAll(parts[1..]);
      RewriteJoinHead(parts, sep);
      JoinStep(mapped, sep);
    }
  }

  lemma JoinStep(parts: seq<string>, sep: char)
    requires |parts| > 1
    ensures Join(parts, sep) == parts[0] + [sep] + Join(parts[1..], sep)
  {
  }

  function RewriteAll(parts: seq<string>): (r: seq<string>)
    ensures |r| == |parts| && forall i :: 0 <= i < |parts| ==> r[i] == Rewrite(parts[i])
  {
    seq(|parts|, i requires 0 <= i < |parts| => Rewrite(parts[i]))
  }

  /** A string literal is rewritten inside its quotes, never across them. */
  lemma RewriteQuote(s: string)
    ensures Rewrite(Quote(s)) == "\"" + Rewrite(Escape(s)) + "\""
  {
    RewriteConcat("\"" + Escape(s), "\"");
    RewriteConcat("\"", Escape(s));
    assert Rewrite("\"") == "\"";
  }

  /** The serialised query with every string literal, key or value alike,
      rewritten on its own. */
  function RewrittenQuote(s: string): string
  {
    "\"" + Rewrite(Escape(s)) + "\""
  }

  function RewrittenValue(v: Value): string
  {
    match v
    case Text(t) => RewrittenQuote(t)
    case List(items) =>
      "[" + Join(seq(|items|, i requires 0 <= i < |items| => RewrittenQuote(items[i])), ',') + "]"
    case Fields(es) =>
      "{" + Join(seq(|es|, i requires 0 <= i < |es| => RewrittenQuote(es[i].0) + ":" + RewrittenQuote(es[i].1)), ',') + "}"
  }

  function RewrittenQuery(q: Query): string
  {
    "{" + Join(seq(|q|, i requires 0 <= i < |q| => RewrittenQuote(q[i].0) + ":" + RewrittenValue(q[i].1)), ',') + "}"
  }

  /** Rewrite of `"k":v`-shaped member text. */
  lemma RewriteMember(k: string, v: string, rv: string)
    requires v != [] && !IsWordChar(v[0]) && Rewrite(v) == rv
    ensures Rewrite(Quote(k) + ":" + v) == RewrittenQuote(k) + ":" + rv
  {
    RewriteQuote(k);
    RewriteConcat(Quote(k) + ":", v);
    RewriteConcat(Quote(k), ":");
    assert Rewrite(":") == ":";
  }

  /** Rewrite of `{`/`[` + joined members + `}`/`]`. */
  lemma RewriteBracketed(open: char, parts: seq<string>, mapped: seq<string>, close: char)
    requires !IsWordChar(open) && !IsWordChar(close)
    requires |mapped| == |parts| && forall i :: 0 <= i < |parts| ==> Rewrite(parts[i]) == mapped[i]
    ensures Rewrite([open] + Join(parts, ',') + [close]) == [open] + Join(mapped, ',') + [close]
  {
    RewriteJoin(parts, ',');
    assert RewriteAll(parts) == mapped;
    RewriteConcat([open] + Join(parts, ','), [close]);
    RewriteConcat([open], Join(parts, ','));
    assert Rewrite([open]) == [open];
    assert Rewrite([close]) == [close];
  }

  lemma RewriteValue(v: Value)
    ensures Rewrite(SerializeValue(v)) == RewrittenValue(v)
  {
    match v
    case Text(t) =>
      RewriteQuote(t);
    case List(items) =>
      var parts := seq(|items|, i requires 0 <= i < |items| => Quote(items[i]));
      var mapped := seq(|items|, i requires 0 <= i < |items| => RewrittenQuote(items[i]));
      forall i | 0 <= i < |parts| ensures Rewrite(parts[i]) == mapped[i] {
        RewriteQuote(items[i]);
      }
      RewriteBracketed('[', parts, mapped, ']');
      assert SerializeValue(v) == "[" + Join(parts, ',') + "]";
    case Fields(es) =>
      var parts := seq(|es|, i requires 0 <= i < |es| => Quote(es[i].0) + ":" + Quote(es[i].1));
      var mapped := seq(|es|, i requires 0 <= i < |es| => RewrittenQuote(es[i].0) + ":" + RewrittenQuote(es[i].1));
      forall i | 0 <= i < |parts| ensures Rewrite(parts[i]) == mapped[i] {
        RewriteQuote(es[i].1);
        RewriteMember(es[i].0, Quote(es[i].1), RewrittenQuote(es[i].1));
      }
      RewriteBracketed('{', parts, mapped, '}');
      assert SerializeValue(v) == "{" + Join(parts, ',') + "}";
  }

  /** The rewrite runs over the whole serialised text, yet it acts on each
      string literal separately, and on keys and values alike: a value such
      as `in` is rewritten just as a key `in` is. */
  lemma RewriteActsPerLiteral(q: Query)
    ensures Rewrite(Serialize(q)) == RewrittenQuery(q)
  {
    var parts := seq(|q|, i requires 0 <= i < |q| => Quote(q[i].0) + ":" + SerializeValue(q[i].1));
    var mapped := seq(|q|, i requires 0 <= i < |q| => RewrittenQuote(q[i].0) + ":" + RewrittenValue(q[i].1));
    forall i | 0 <= i < |parts| ensures Rewrite(parts[i]) == mapped[i] {
      RewriteValue(q[i].1);
      RewriteMember(q[i].0, SerializeValue(q[i].1), RewrittenValue(q[i].1));
    }
    RewriteBracketed('{', parts, mapped, '}');
    assert Serialize(q) == "{" + Join(parts, ',') + "}";
  }

  // ---------------------------------------------------------------------
  // select / sort
  // ---------------------------------------------------------------------

  /** `if (req.query.select) { fields = req.query.select.split(',').join(' ') }`:
      `None` when the value is not a string (an array or object has no
      `split`, so the call throws); `Some(None)` when the key is absent or the
      empty string; otherwise the comma list turned into a space list. */
  function FieldList(v: Option<Value>): (r: Option<Option<string>>)
    ensures r.None? <==> v.Some? && !v.value.Text?
    ensures r == Some(None) <==> v.None? || v == Some(Text(""))
    ensures r.Some? && r.value.Some? ==> r.value.value == ReplaceChar(v.value.text, ',', ' ')
  {
    match v
    case None => Some(None)
    case Some(Text(t)) =>
      if t == [] then Some(None)
      else
        SplitJoinReplaces(t, ',', ' ');
        Some(Some(Join(Split(t, ','), ' ')))
    case Some(_) => None
  }

  /** The fields of a comma list come out of the space list in their original
      order, as long as none of them contains a space. */
  lemma FieldListKeepsOrder(t: string)
    requires t != [] && ' ' !in t
    ensures FieldList(Some(Text(t))).value.value == Join(Split(t, ','), ' ')
    ensures Split(FieldList(Some(Text(t))).value.value, ' ') == Split(t, ',')
  {
    var parts := Split(t, ',');
    forall i | 0 <= i < |parts| ensures ' ' !in parts[i] {
      PiecesOfSplitComeFrom(t, ',', i);
    }
    SplitJoin(parts, ' ');
  }

  /** Every character of a piece of `Split(s, sep)` occurs in `s`. */
  lemma {:induction false} PiecesOfSplitComeFrom(s: string, sep: char, i: nat)
    requires i < |Split(s, sep)|
    ensures forall c :: c in Split(s, sep)[i] ==> c in s
    decreases |s|
  {
    if s != [] {
      var rest := Split(s[1..], sep);
      if s[0] == sep {
        if i > 0 { PiecesOfSplitComeFrom(s[1..], sep, i - 1); }
      } else {
        if i == 0 {
          PiecesOfSplitComeFrom(s[1..], sep, 0);
        } else {
          PiecesOfSplitComeFrom(s[1..], sep, i);
        }
      }
    }
  }

  // ---------------------------------------------------------------------
  // parseInt(x, 10) || default
  // ---------------------------------------------------------------------

  /** The white space and line terminators `parseInt` skips. */
  predicate IsJsSpace(c: char)
  {
    c == '\t' || c == '\n' || c as int == 0x0B || c as int == 0x0C || c == '\r' || c == ' '
    || c as int == 0xA0 || c as int == 0x1680 || (0x2000 <= c as int <= 0x200A)
    || c as int == 0x2028 || c as int == 0x2029 || c as int == 0x202F || c as int == 0x205F
    || c as int == 0x3000 || c as int == 0xFEFF
  }

  predicate IsDigit(c: char)
  {
    '0' <= c <= '9'
  }

  function TrimStart(s: string): (t: string)
    ensures t == [] || !IsJsSpace(t[0])
    decreases |s|
  {
    if s != [] && IsJsSpace(s[0]) then TrimStart(s[1..]) else s
  }

  function DigitPrefix(s: string): (d: string)
    ensures |d| <= |s| && d == s[..|d|]
    ensures forall i :: 0 <= i < |d| ==> IsDigit(d[i])
    decreases |s|
  {
    if s != [] && IsDigit(s[0]) then [s[0]] + DigitPrefix(s[1..]) else []
  }

  function DigitValue(c: char): nat
    requires IsDigit(c)
  {
    c as int - '0' as int
  }

  function DigitsValue(d: string): nat
    requires forall i :: 0 <= i < |d| ==> IsDigit(d[i])
    decreases |d|
  {
    if d == [] then 0 else DigitsValue(d[..|d| - 1]) * 10 + DigitValue(d[|d| - 1])
  }

  /** `parseInt(s, 10)`, with `None` for `NaN`: leading white space skipped,
      an optional sign, then the longest run of decimal digits. */
  function ParseInt(s: string): Option<int>
  {
    var t := TrimStart(s);
    var negative := t != [] && t[0] == '-';
    var u := if t != [] && (t[0] == '-' || t[0] == '+') then t[1..] else t;
    var d := DigitPrefix(u);
    if d == [] then None
    else
      var n: int := DigitsValue(d);
      Some(if negative then -n else n)
  }

  function DigitChar(n: nat): char
    requires n < 10
  {
    ('0' as int + n) as char
  }

  function Digits(n: nat): (d: string)
    ensures d != [] && forall i :: 0 <= i < |d| ==> IsDigit(d[i])
    decreases n
  {
    if n < 10 then [DigitChar(n)] else Digits(n / 10) + [DigitChar(n % 10)]
  }

  /** `String(n)` for an integer. */
  function Decimal(n: int): string
  {
    if n < 0 then "-" + Digits(-n) else Digits(n)
  }

  lemma {:induction false} DigitsValueOfDigits(n: nat)
    ensures DigitsValue(Digits(n)) == n
    decreases n
  {
    if n >= 10 {
      DigitsValueOfDigits(n / 10);
      var d := Digits(n);
      assert d[..|d| - 1] == Digits(n / 10);
    }
  }

  lemma {:induction false} DigitPrefixOfDigits(d: string)
    requires forall i :: 0 <= i < |d| ==> IsDigit(d[i])
    ensures DigitPrefix(d) == d
    decreases |d|
  {
    if d != [] {
      DigitPrefixOfDigits(d[1..]);
      assert [d[0]] + d[1..] == d;
    }
  }

  lemma ParseDigits(m: nat)
    ensures ParseInt(Digits(m)) == Some(m)
  {
    var d := Digits(m);
    assert IsDigit(d[0]);
    assert TrimStart(d) == d;
    DigitPrefixOfDigits(d);
    DigitsValueOfDigits(m);
  }

  lemma ParseNegative(m: nat)
    requires m > 0
    ensures ParseInt("-" + Digits(m)) == Some(-(m as int))
  {
    var d := Digits(m);
    var s := "-" + d;
    assert TrimStart(s) == s;
    assert s[1..] == d;
    DigitPrefixOfDigits(d);
    DigitsValueOfDigits(m);
  }

  /** `parseInt` reads back what `String` wrote. */
  lemma ParseDecimal(n: int)
    ensures ParseInt(Decimal(n)) == Some(n)
  {
    if n < 0 {
      ParseNegative(-n);
    } else {
      ParseDigits(n);
    }
  }

  /** `parseInt(req.query.x, 10)`: an absent key is `undefined`, an array is
      converted with `String` (its items joined by commas) and an object
      reads as `"[object Object]"`. */
  function NumberParam(v: Option<Value>): Option<int>
  {
    match v
    case None => None
    case Some(Text(t)) => ParseInt(t)
    case Some(List(items)) => ParseInt(Join(items, ','))
    case Some(Fields(_)) => ParseInt("[object Object]")
  }

  /** `parsed || d`: `NaN` and zero (including `-0`) fall back to `d`. */
  function OrDefault(parsed: Option<int>, d: int): (r: int)
    requires d != 0
    ensures r != 0
    ensures parsed.None? ==> r == d
    ensures parsed.Some? ==> r == if parsed.value == 0 then d else parsed.value
  {
    match parsed
    case None => d
    case Some(n) => if n == 0 then d else n
  }

  const DefaultPage := 1
  const DefaultLimit := 25

  /** A page number written in decimal is used as written, negatives
      included; zero and a missing key give page 1. */
  lemma PageParameter(n: int)
    ensures OrDefault(NumberParam(Some(Text(Decimal(n)))), DefaultPage) == if n == 0 then 1 else n
    ensures OrDefault(NumberParam(None), DefaultPage) == 1
  {
    ParseDecimal(n);
  }

  // ---------------------------------------------------------------------
  // Pagination and the envelope
  // ---------------------------------------------------------------------

  datatype PageRef = PageRef(page: int, limit: int)
  datatype Pagination = Pagination(next: Option<PageRef>, prev: Option<PageRef>)

  /** Everything the middleware computes for one request: the filter text
      handed to `find` (and the object it was serialised from), the field
      lists, the page window, and the envelope `{count, pagination, data}`. */
  datatype Listing<T> = Listing(
    criteria: Query,
    filter: string,
    select: Option<string>,
    sort: Option<string>,
    page: int,
    limit: int,
    skip: int,
    count: nat,
    pagination: Pagination,
    data: seq<T>)

  function Abs(n: int): nat
  {
    if n < 0 then -n else n
  }

  /** The documents the store's evaluation of the filter accepts, in natural
      order (sorting is left to the store and not modelled). */
  function Matching<T>(all: seq<T>, keep: T -> bool): (m: seq<T>)
    ensures |m| <= |all|
    ensures forall i :: 0 <= i < |m| ==> m[i] in all && keep(m[i])
    ensures forall i :: 0 <= i < |all| && keep(all[i]) ==> all[i] in m
    decreases |all|
  {
    if |all| == 0 then []
    else if keep(all[0]) then [all[0]] + Matching(all[1..], keep)
    else Matching(all[1..], keep)
  }

  /** `.skip(skip).limit(n)` on a cursor that yields `s`. */
  function Window<T>(s: seq<T>, skip: nat, n: nat): (w: seq<T>)
    ensures |w| <= n
    ensures |w| == if skip >= |s| then 0 else if |s| - skip < n then |s| - skip else n
    ensures forall i :: 0 <= i < |w| ==> skip + i < |s| && w[i] == s[skip + i]
  {
    if skip >= |s| then []
    else if |s| - skip < n then s[skip..]
    else s[skip..skip + n]
  }

  /** `page`, `limit` and `startIndex` as the middleware computes them. */
  datatype Paging = Paging(page: int, limit: int, skip: int)

  function PagingOf(q: Query): (p: Paging)
    ensures p.page != 0 && p.limit != 0
    ensures p.skip == (p.page - 1) * p.limit
  {
    var page := OrDefault(NumberParam(Get(q, "page")), DefaultPage);
    var limit := OrDefault(NumberParam(Get(q, "limit")), DefaultLimit);
    Paging(page, limit, (page - 1) * limit)
  }

  /** The page of results and the `next`/`prev` links for a non-negative
      skip. `endIndex` is `page * limit`, which is `skip + limit`. */
  function Paginate<T>(p: Paging, all: seq<T>, keep: T -> bool): (r: (seq<T>, Pagination))
    requires p.skip >= 0 && p.limit != 0 && p.skip == (p.page - 1) * p.limit
    ensures |r.0| <= Abs(p.limit)
    ensures var m := |Matching(all, keep)|;
      |r.0| == if p.skip >= m then 0 else if m - p.skip < Abs(p.limit) then m - p.skip else Abs(p.limit)
    ensures forall i :: 0 <= i < |r.0| ==> p.skip + i < |Matching(all, keep)| && r.0[i] == Matching(all, keep)[p.skip + i]
    ensures forall i :: 0 <= i < |r.0| ==> r.0[i] in all && keep(r.0[i])
    ensures r.1.next.Some? <==> p.page * p.limit < |all|
    ensures r.1.next.Some? ==> r.1.next.value == PageRef(p.page + 1, p.limit)
    ensures r.1.prev.Some? <==> p.skip > 0
    ensures r.1.prev.Some? ==> r.1.prev.value == PageRef(p.page - 1, p.limit)
  {
    var endIndex := p.page * p.limit;
    var results := Window(Matching(all, keep), p.skip, Abs(p.limit));
    var next := if endIndex < |all| then Some(PageRef(p.page + 1, p.limit)) else None;
    var prev := if p.skip > 0 then Some(PageRef(p.page - 1, p.limit)) else None;
    (results, Pagination(next, prev))
  }

  /** `advancedResults(model, populate)` for a request with query `q`, over a
      collection `all` whose documents the store's reading of the filter
      accepts through `keep`; `total` is `countDocuments()` with no filter, so
      it is `|all|`. MongoDB refuses a negative skip and reads a negative
      limit as its absolute value. The middleware is a bare `async`
      function, not wrapped in `asyncHandler`, so each of its failures is an
      unhandled rejection that stops the server. */
  function AdvancedResults<T>(q: Query, all: seq<T>, keep: T -> bool): (r: Reply<Listing<T>>)
    ensures !r.Fail?
    ensures !r.Thrown?
    ensures r.Unhandled? <==>
              FieldList(Get(q, "select")).None? || FieldList(Get(q, "sort")).None? || PagingOf(q).skip < 0
    ensures r.Ok? ==> r.status == 200
    ensures r.Ok? ==> forall i :: 0 <= i < |r.value.criteria| ==> !IsReserved(r.value.criteria[i].0)
    ensures r.Ok? ==> forall e :: e in r.value.criteria <==> e in q && !IsReserved(e.0)
    ensures r.Ok? ==> r.value.criteria == RemoveReserved(q)
    ensures r.Ok? ==> r.value.select == FieldList(Get(q, "select")).value
    ensures r.Ok? ==> r.value.sort == FieldList(Get(q, "sort")).value
    ensures r.Ok? ==> r.value.filter == Rewrite(Serialize(r.value.criteria))
    ensures r.Ok? ==> r.value.skip >= 0 && PagingOf(q) == Paging(r.value.page, r.value.limit, r.value.skip)
    ensures r.Ok? ==> (r.value.data, r.value.pagination) == Paginate(PagingOf(q), all, keep)
    ensures r.Ok? ==> r.value.count == |r.value.data|
  {
    var criteria := RemoveReserved(q);
    var select := FieldList(Get(q, "select"));
    var sort := FieldList(Get(q, "sort"));
    if select.None? then Unhandled("req.query.select.split is not a function")
    else if sort.None? then Unhandled("req.query.sort.split is not a function")
    else
      var p := PagingOf(q);
      if p.skip < 0 then Unhandled("skip value must be non-negative")
      else
        var (results, pagination) := Paginate(p, all, keep);
        Ok(200, Listing(criteria, Rewrite(Serialize(criteria)), select.value, sort.value,
                        p.page, p.limit, p.skip, |results|, pagination, results))
  }

  /** The discrepancy: any client, signed in or not, who sends
      `select[a]=1` makes `select` an object, and the failed `split` stops the
      server instead of answering an error. */
  lemma ObjectSelectStopsServer<T>(q: Query, entries: seq<(string, string)>, all: seq<T>, keep: T -> bool)
    requires Get(q, "select") == Some(Fields(entries))
    ensures AdvancedResults(q, all, keep) == Unhandled("req.query.select.split is not a function")
  {
  }

  /** `advancedResults` wrapped in `asyncHandler`, as the handlers are: every
      failure reaches the central error handler, no request can stop the
      server, and every request that succeeded before gets the same
      listing. */
  function HandledAdvancedResults<T>(q: Query, all: seq<T>, keep: T -> bool): (r: Reply<Listing<T>>)
    ensures !r.Unhandled? && !r.Fail?
    ensures r.Thrown? <==>
              FieldList(Get(q, "select")).None? || FieldList(Get(q, "sort")).None? || PagingOf(q).skip < 0
    ensures !r.Thrown? ==> r == AdvancedResults(q, all, keep)
  {
    match AdvancedResults(q, all, keep)
    case Unhandled(m) => Thrown(m)
    case other => other
  }

  /** With no filter and a positive limit, `next` appears exactly when the
      following page holds at least one document, and `prev` exactly when
      this is not page 1. */
  lemma UnfilteredPagination<T>(p: Paging, all: seq<T>)
    requires p.skip >= 0 && p.limit > 0 && p.skip == (p.page - 1) * p.limit
    ensures var links := Paginate(p, all, (x: T) => true).1;
      && (links.next.Some? <==> |Window(all, p.skip + p.limit, p.limit)| > 0)
      && (links.prev.Some? <==> p.page >= 2)
  {
    assert p.page * p.limit == p.skip + p.limit;
    if p.page >= 2 {
      assert p.page - 1 >= 1;
      assert p.skip >= p.limit;
    } else {
      assert p.page - 1 <= 0;
      assert p.skip <= 0;
    }
  }

  /** A negative `limit` on page 1 always advertises a `next` page while the
      collection is non-empty, and following that link gives a negative
      skip, which the store refuses: the request stops the server. */
  lemma NegativeLimitNext<T>(q: Query, q2: Query, all: seq<T>, keep: T -> bool)
    requires PagingOf(q).page == 1 && PagingOf(q).limit < 0 && |all| > 0
    requires FieldList(Get(q, "select")).Some? && FieldList(Get(q, "sort")).Some?
    requires PagingOf(q2) == Paging(2, PagingOf(q).limit, PagingOf(q).limit)
    ensures AdvancedResults(q, all, keep).Ok?
    ensures AdvancedResults(q, all, keep).value.pagination.next == Some(PageRef(2, PagingOf(q).limit))
    ensures AdvancedResults(q2, all, keep).Unhandled?
  {
  }
}

=== FILE: records.dfy ===
/** The documents the handlers read and write, and the store that holds them.
    Mongoose and MongoDB are abstracted: a collection is a sequence in natural
    (insertion) order, so `findOne` is "the first match", and bootcamps, which
    are only ever fetched by id, form a map from id to record. */
module Records {
  import opened Common

  /** The role strings the code compares against. The user schema admits only
      the first two (see `UserModel.RoleFromBody`); an `admin` can exist only
      in a record written to the database by other means. */
  datatype Role = UserRole | PublisherRole | AdminRole
  {
    function Name(): string
    {
      match this
      case UserRole => "user"
      case PublisherRole => "publisher"
      case AdminRole => "admin"
    }
  }

  /** A user document. `password` stands for the stored credential (the bcrypt
      hash is treated as an uninterpreted one-way function, so the model keeps
      the credential it was computed from); `resetToken` is the stored SHA-256
      digest of the raw reset token and `resetExpire` its expiry in ms. */
  datatype User = User(
    id: Id,
    name: string,
    email: string,
    password: string,
    role: Role,
    resetToken: Option<string>,
    resetExpire: Option<int>)

  /** A bootcamp document: the owning user and the two denormalised
      aggregates; every other schema field is an opaque string field. */
  datatype Bootcamp = Bootcamp(
    owner: Id,
    fields: map<string, string>,
    averageCost: Option<int>,
    averageRating: Option<int>)

  /** A course document. `tuition` is optional because the schema spells its
      constraint `require` instead of `required`. */
  datatype Course = Course(
    id: Id,
    bootcamp: Id,
    owner: Id,
    tuition: Option<int>,
    fields: map<string, string>)

  datatype Review = Review(
    id: Id,
    bootcamp: Id,
    owner: Id,
    title: string,
    text: string,
    rating: int)

  datatype Store = Store(
    users: seq<User>,
    bootcamps: map<Id, Bootcamp>,
    courses: seq<Course>,
    reviews: seq<Review>)

  /** A handler's reply together with the store it leaves behind. */
  datatype Handled<+T> = Handled(reply: Reply<T>, store: Store)

  /** `User.findById(id)` */
  function FindUser(users: seq<User>, id: Id): (r: Option<User>)
    ensures r.Some? ==> r.value in users && r.value.id == id
    ensures r.None? <==> forall u :: u in users ==> u.id != id
  {
    match FirstWhere(users, (u: User) => u.id == id)
    case None => None
    case Some(i) => Some(users[i])
  }

  /** The position of `User.findById(id)`'s result, for the handlers that
      write the record back. */
  function UserIndex(users: seq<User>, id: Id): (r: Option<nat>)
    ensures r.Some? ==> r.value < |users| && users[r.value].id == id && FindUser(users, id) == Some(users[r.value])
    ensures r.None? <==> FindUser(users, id).None?
  {
    FirstWhere(users, (u: User) => u.id == id)
  }

  /** `Course.findById(id)` */
  function FindCourse(courses: seq<Course>, id: Id): (r: Option<Course>)
    ensures r.Some? ==> r.value in courses && r.value.id == id
    ensures r.None? <==> forall c :: c in courses ==> c.id != id
  {
    match FirstWhere(courses, (c: Course) => c.id == id)
    case None => None
    case Some(i) => Some(courses[i])
  }

  /** The owner-or-admin rule written inline in the mutating handlers:
      `bootcamp.user.toString() !== req.user.id && req.user.role !== 'admin'`
      is its negation. */
  predicate OwnerOrAdmin(owner: Id, caller: User)
  {
    owner == caller.id || caller.role == AdminRole
  }
}

=== FILE: review_model.dfy ===
/** The review schema's validators, its unique (bootcamp, user) index and the
    `averageRating` aggregate that every review save and remove recomputes. */
module ReviewModel {
  import opened Common
  import opened Records
  import opened Averages

  const MaxTitle: int := 100
  const MinRating: int := 1
  const MaxRating: int := 10

  /** What the schema validates: a title of 1 to 100 characters, some text
      and a rating in `[1, 10]`. */
  predicate ReviewValid(r: Review)
  {
    && 0 < |r.title| <= MaxTitle
    && r.text != ""
    && MinRating <= r.rating <= MaxRating
  }

  /** The unique index on `{ bootcamp: 1, user: 1 }`. */
  predicate UniquePairs(reviews: seq<Review>)
  {
    forall i, j :: 0 <= i < j < |reviews| ==>
      reviews[i].bootcamp != reviews[j].bootcamp || reviews[i].owner != reviews[j].owner
  }

  /** Whether `reviews` already holds a review by `owner` of `bid`. */
  predicate Reviewed(reviews: seq<Review>, bid: Id, owner: Id)
  {
    exists i :: 0 <= i < |reviews| && reviews[i].bootcamp == bid && reviews[i].owner == owner
  }

  /** The ratings of bootcamp `bid`, in collection order. */
  function Ratings(reviews: seq<Review>, bid: Id): (t: seq<int>)
    ensures |t| <= |reviews|
    ensures |t| == 0 <==> forall i :: 0 <= i < |reviews| ==> reviews[i].bootcamp != bid
    decreases |reviews|
  {
    if |reviews| == 0 then []
    else
      var rest := Ratings(reviews[1..], bid);
      assert forall i :: 1 <= i < |reviews| ==> reviews[i] == reviews[1..][i - 1];
      if reviews[0].bootcamp == bid then [reviews[0].rating] + rest else rest
  }

  /** Ratings of valid reviews lie in `[1, 10]`. */
  lemma {:induction false} RatingsInRange(reviews: seq<Review>, bid: Id)
    requires forall i :: 0 <= i < |reviews| ==> ReviewValid(reviews[i])
    ensures forall i :: 0 <= i < |Ratings(reviews, bid)| ==> MinRating <= Ratings(reviews, bid)[i] <= MaxRating
    decreases |reviews|
  {
    if |reviews| > 0 {
      RatingsInRange(reviews[1..], bid);
    }
  }

  /** `getAverageRating(bid)`: `None` when no review belongs to `bid` (the
      error is swallowed), otherwise the least integer not below the mean
      rating. */
  function AverageRating(reviews: seq<Review>, bid: Id): (r: Option<int>)
    ensures r.None? <==> forall i :: 0 <= i < |reviews| ==> reviews[i].bootcamp != bid
    ensures r.Some? ==>
              var t := Ratings(reviews, bid);
              |t| > 0 && (r.value - 1) * |t| < Sum(t) <= r.value * |t|
  {
    var t := Ratings(reviews, bid);
    if |t| == 0 then None else Some(CeilMean(t))
  }

  /** Valid ratings give a stored average inside the rating bounds. */
  lemma AverageRatingInRange(reviews: seq<Review>, bid: Id)
    requires forall i :: 0 <= i < |reviews| ==> ReviewValid(reviews[i])
    requires AverageRating(reviews, bid).Some?
    ensures MinRating <= AverageRating(reviews, bid).value <= MaxRating
  {
    RatingsInRange(reviews, bid);
    CeilMeanBounds(Ratings(reviews, bid), MinRating, MaxRating);
  }

  /** The `findByIdAndUpdate` the aggregate ends with. */
  function RecomputeAverageRating(store: Store, bid: Id): (s: Store)
    ensures s.users == store.users && s.courses == store.courses && s.reviews == store.reviews
    ensures s.bootcamps.Keys == store.bootcamps.Keys
    ensures forall k :: k in store.bootcamps && k != bid ==> s.bootcamps[k] == store.bootcamps[k]
    ensures bid in s.bootcamps ==>
              s.bootcamps[bid].(averageRating := store.bootcamps[bid].averageRating) == store.bootcamps[bid]
    ensures bid in s.bootcamps && AverageRating(store.reviews, bid).Some? ==>
              s.bootcamps[bid].averageRating == AverageRating(store.reviews, bid)
    ensures AverageRating(store.reviews, bid).None? ==> s == store
  {
    match AverageRating(store.reviews, bid)
    case None => store
    case Some(v) =>
      if bid in store.bootcamps
      then store.(bootcamps := store.bootcamps[bid := store.bootcamps[bid].(averageRating := Some(v))])
      else store
  }

  /** `Review.create` followed by its post-save hook. `None` stands for the
      validation error, the duplicate `_id` or the unique-index violation
      that makes `create` reject. */
  function SaveReview(store: Store, r: Review): (res: Option<Store>)
    ensures res.Some? <==>
              ReviewValid(r) && !Reviewed(store.reviews, r.bootcamp, r.owner) &&
              forall i :: 0 <= i < |store.reviews| ==> store.reviews[i].id != r.id
    ensures res.Some? ==> res.value.reviews == store.reviews + [r]
    ensures res.Some? ==> res.value.users == store.users && res.value.courses == store.courses
    ensures res.Some? ==> res.value.bootcamps.Keys == store.bootcamps.Keys
    ensures res.Some? && r.bootcamp in store.bootcamps ==>
              res.value.bootcamps[r.bootcamp].averageRating == AverageRating(store.reviews + [r], r.bootcamp)
    ensures res.Some? && r.bootcamp in store.bootcamps ==>
              res.value.bootcamps[r.bootcamp].(averageRating := store.bootcamps[r.bootcamp].averageRating) == store.bootcamps[r.bootcamp]
    ensures res.Some? ==> forall k :: k in store.bootcamps && k != r.bootcamp ==> res.value.bootcamps[k] == store.bootcamps[k]
  {
    if !ReviewValid(r) || Reviewed(store.reviews, r.bootcamp, r.owner) ||
       exists i :: 0 <= i < |store.reviews| && store.reviews[i].id == r.id
    then None
    else
      var s := store.(reviews := store.reviews + [r]);
      assert s.reviews[|store.reviews|] == r;
      Some(RecomputeAverageRating(s, r.bootcamp))
  }

  /** `review.remove()` followed by its post-remove hook, for the review at
      index `i`. */
  function RemoveReview(store: Store, i: nat): (s: Store)
    requires i < |store.reviews|
    ensures s.reviews == store.reviews[..i] + store.reviews[i + 1..]
    ensures s.users == store.users && s.courses == store.courses
    ensures s.bootcamps.Keys == store.bootcamps.Keys
    ensures forall k :: k in store.bootcamps && k != store.reviews[i].bootcamp ==> s.bootcamps[k] == store.bootcamps[k]
    ensures var bid := store.reviews[i].bootcamp; bid in store.bootcamps ==>
              s.bootcamps[bid].(averageRating := store.bootcamps[bid].averageRating) == store.bootcamps[bid]
    ensures var bid := store.reviews[i].bootcamp; bid in store.bootcamps ==>
              s.bootcamps[bid].averageRating ==
                if AverageRating(s.reviews, bid).Some? then AverageRating(s.reviews, bid) else store.bootcamps[bid].averageRating
  {
    RecomputeAverageRating(store.(reviews := store.reviews[..i] + store.reviews[i + 1..]), store.reviews[i].bootcamp)
  }

  /** The unique index holds after every accepted save. */
  lemma SaveKeepsUnique(store: Store, r: Review)
    requires UniquePairs(store.reviews)
    requires SaveReview(store, r).Some?
    ensures UniquePairs(SaveReview(store, r).value.reviews)
  {
    var rs := store.reviews + [r];
    forall i, j | 0 <= i < j < |rs|
      ensures rs[i].bootcamp != rs[j].bootcamp || rs[i].owner != rs[j].owner
    {
      if j == |store.reviews| {
        assert rs[i] == store.reviews[i];
      } else {
        assert rs[i] == store.reviews[i] && rs[j] == store.reviews[j];
      }
    }
  }

  /** A second review of the same bootcamp by the same user is refused. */
  lemma SecondReviewRefused(store: Store, r: Review, r2: Review)
    requires SaveReview(store, r).Some?
    requires r2.bootcamp == r.bootcamp && r2.owner == r.owner
    ensures SaveReview(SaveReview(store, r).value, r2).None?
  {
    var s := SaveReview(store, r).value;
    assert s.reviews[|store.reviews|] == r;
  }

  /** Removal keeps the unique index. */
  lemma RemoveKeepsUnique(store: Store, i: nat)
    requires i < |store.reviews| && UniquePairs(store.reviews)
    ensures UniquePairs(RemoveReview(store, i).reviews)
  {
    var rs := store.reviews[..i] + store.reviews[i + 1..];
    forall a, b | 0 <= a < b < |rs|
      ensures rs[a].bootcamp != rs[b].bootcamp || rs[a].owner != rs[b].owner
    {
      var a' := if a < i then a else a + 1;
      var b' := if b < i then b else b + 1;
      assert rs[a] == store.reviews[a'] && rs[b] == store.reviews[b'];
    }
  }

  /** A store whose reviews are all valid keeps a stored `averageRating` in
      `[1, 10]` for the reviewed bootcamp after a save. */
  lemma SavedRatingInRange(store: Store, r: Review)
    requires forall i :: 0 <= i < |store.reviews| ==> ReviewValid(store.reviews[i])
    requires SaveReview(store, r).Some? && r.bootcamp in store.bootcamps
    ensures var b := SaveReview(store, r).value.bootcamps[r.bootcamp];
      b.averageRating.Some? && MinRating <= b.averageRating.value <= MaxRating
  {
    var rs := store.reviews + [r];
    assert rs[|store.reviews|] == r;
    assert forall i :: 0 <= i < |rs| ==> ReviewValid(rs[i]) by {
      forall i | 0 <= i < |rs| ensures ReviewValid(rs[i]) {
        if i < |store.reviews| {
          assert rs[i] == store.reviews[i];
        }
      }
    }
    AverageRatingInRange(rs, r.bootcamp);
  }
}

=== FILE: routes.dfy ===
/** The route tables of the four routers in scope, the mount points of the
    application, the resolution of a request line to a middleware chain and
    a handler, and the run of that chain's guards. */
module Routes {
  import opened Common
  import opened Records
  import opened AuthMiddleware
  import AuthController

  datatype Method = Get | Post | Put | Delete

  /** The collections `advancedResults` is mounted on. */
  datatype Collection = BootcampCollection | UserCollection

  /** A middleware in a chain. */
  datatype Step =
    | ProtectStep
    | AuthorizeStep(roles: seq<Role>)
    | ResultsStep(collection: Collection, populate: Option<string>)

  datatype Handler =
    | GetBootcamps | GetBootcamp | CreateBootcamp | UpdateBootcamp | DeleteBootcamp
    | BootcampsInRadius | BootcampPhotoUpload
    | GetCourses | GetCourse | AddCourse | UpdateCourse | DeleteCourse
    | GetUsers | CreateUser | GetUser | UpdateUser | DeleteUser
    | Register | Login | Logout | UserProfile | UpdateDetails | UpdatePassword
    | ForgotPassword | ResetPassword

  /** A path segment of a route: a literal or a `:name` parameter. */
  datatype Seg = Lit(text: string) | Param(name: string)

  datatype Entry = Entry(verb: Method, pattern: seq<Seg>, chain: seq<Step>, handler: Handler)

  const PublisherOrAdmin: seq<Role> := [PublisherRole, AdminRole]

  /** `protect, authorize('publisher', 'admin')` */
  const Guard: seq<Step> := [ProtectStep, AuthorizeStep(PublisherOrAdmin)]

  /** The routes of the bootcamp router, in registration order; the two
      nested mounts in front of them are handled by `ResolveBootcamps`. */
  const BootcampRoutes: seq<Entry> := [
    Entry(Get, [Lit("radius"), Param("zipcode"), Param("distance")], [], BootcampsInRadius),
    Entry(Get, [], [ResultsStep(BootcampCollection, Some("courses"))], GetBootcamps),
    Entry(Post, [], Guard, CreateBootcamp),
    Entry(Get, [Param("id")], [], GetBootcamp),
    Entry(Put, [Param("id")], Guard, UpdateBootcamp),
    Entry(Delete, [Param("id")], Guard, DeleteBootcamp),
    Entry(Put, [Param("id"), Lit("photo")], Guard, BootcampPhotoUpload)
  ]

  const CourseRoutes: seq<Entry> := [
    Entry(Get, [], [], GetCourses),
    Entry(Post, [], Guard, AddCourse),
    Entry(Get, [Param("id")], [], GetCourse),
    Entry(Delete, [Param("id")], Guard, DeleteCourse),
    Entry(Put, [Param("id")], Guard, UpdateCourse)
  ]

  /** `router.use(protect); router.use(authorize('admin'))`: run for every
      request that enters the users router, matched or not. */
  const UserRouterGuard: seq<Step> := [ProtectStep, AuthorizeStep([AdminRole])]

  const UserRoutes: seq<Entry> := [
    Entry(Get, [], [ResultsStep(UserCollection, None)], GetUsers),
    Entry(Post, [], [], CreateUser),
    Entry(Get, [Param("id")], [], GetUser),
    Entry(Put, [Param("id")], [], UpdateUser),
    Entry(Delete, [Param("id")], [], DeleteUser)
  ]

  const AuthRoutes: seq<Entry> := [
    Entry(Post, [Lit("register")], [], Register),
    Entry(Post, [Lit("login")], [], Login),
    Entry(Get, [Lit("logout")], [], Logout),
    Entry(Get, [Lit("me")], [ProtectStep], UserProfile),
    Entry(Put, [Lit("updatedetails")], [ProtectStep], UpdateDetails),
    Entry(Put, [Lit("updatepassword")], [ProtectStep], UpdatePassword),
    Entry(Post, [Lit("forgotpassword")], [], ForgotPassword),
    Entry(Put, [Lit("resetpassword"), Param("resettoken")], [], ResetPassword)
  ]

  /** Where a request ends up: a handler behind a chain, with the route
      parameters; the reviews router (routes/reviews.js is not part of this
      model); or no route, after the router-level middleware that ran. */
  datatype Resolution =
    | Served(chain: seq<Step>, handler: Handler, params: map<string, string>)
    | ReviewsRouter
    | NoRoute(ran: seq<Step>)

  /** The segments of a request path: the pieces between `/`, without the
      leading one and without the empty piece a trailing slash leaves. */
  function Segments(path: string): (segs: seq<string>)
    requires StartsWith(path, "/")
  {
    var body := Split(path, '/')[1..];
    if |body| > 0 && body[|body| - 1] == [] then body[..|body| - 1] else body
  }

  /** Path-to-regexp matching of one route pattern: literals compare equal,
      a parameter takes one non-empty segment. */
  function MatchPattern(pattern: seq<Seg>, segs: seq<string>): (r: Option<map<string, string>>)
    ensures r.Some? ==> |pattern| == |segs|
    decreases |pattern|
  {
    if |pattern| != |segs| then None
    else if |pattern| == 0 then Some(map[])
    else
      match MatchPattern(pattern[1..], segs[1..])
      case None => None
      case Some(rest) =>
        match pattern[0]
        case Lit(t) => if segs[0] == t then Some(rest) else None
        case Param(n) => if segs[0] != [] then Some(rest[n := segs[0]]) else None
  }

  /** Whether `segs` fits `pattern` segment by segment. */
  predicate Fits(pattern: seq<Seg>, segs: seq<string>)
  {
    && |pattern| == |segs|
    && (forall i :: 0 <= i < |pattern| && pattern[i].Lit? ==> segs[i] == pattern[i].text)
    && (forall i :: 0 <= i < |pattern| && pattern[i].Param? ==> segs[i] != [])
  }

  /** A pattern matches exactly the segment lists that fit it. */
  lemma {:induction false} MatchPatternFits(pattern: seq<Seg>, segs: seq<string>)
    ensures MatchPattern(pattern, segs).Some? <==> Fits(pattern, segs)
    decreases |pattern|
  {
    if |pattern| == |segs| && |pattern| > 0 {
      MatchPatternFits(pattern[1..], segs[1..]);
      assert forall i :: 1 <= i < |pattern| ==> pattern[i] == pattern[1..][i - 1] && segs[i] == segs[1..][i - 1];
      if Fits(pattern, segs) {
        assert Fits(pattern[1..], segs[1..]);
      }
    }
  }

  /** Whether `h` is declared in `table` with `chain` after `prefix`. */
  predicate InTable(table: seq<Entry>, prefix: seq<Step>, h: Handler, chain: seq<Step>)
  {
    exists i :: 0 <= i < |table| && table[i].handler == h && chain == prefix + table[i].chain
  }

  /** The first route of `table`, from index `start` on, that takes the request. */
  function ResolveIn(table: seq<Entry>, start: nat, m: Method, segs: seq<string>,
                     inherited: map<string, string>, prefix: seq<Step>): (r: Resolution)
    ensures r.Served? || r == NoRoute(prefix)
    decreases |table| - start
  {
    if start >= |table| then NoRoute(prefix)
    else
      var e := table[start];
      match (if e.verb == m then MatchPattern(e.pattern, segs) else None)
      case Some(ps) => Served(prefix + e.chain, e.handler, inherited + ps)
      case None => ResolveIn(table, start + 1, m, segs, inherited, prefix)
  }

  /** The bootcamp router: `/:bootcampId/courses` hands over to the course
      router, which merges `bootcampId` into its own parameters;
      `/:bootcampId/reviews` hands over to the reviews router; then the
      bootcamp routes in order. */
  function ResolveBootcamps(m: Method, segs: seq<string>): (r: Resolution)
  {
    if |segs| >= 2 && segs[0] != [] && segs[1] == "courses" then
      match ResolveIn(CourseRoutes, 0, m, segs[2..], map["bootcampId" := segs[0]], [])
      case NoRoute(_) => ResolveIn(BootcampRoutes, 0, m, segs, map[], [])
      case other => other
    else if |segs| >= 2 && segs[0] != [] && segs[1] == "reviews" then ReviewsRouter
    else ResolveIn(BootcampRoutes, 0, m, segs, map[], [])
  }

  /** The application's mount points under `/api/v1`, over the segments of
      the request path. */
  function ResolveSegments(m: Method, segs: seq<string>): (r: Resolution)
  {
    if |segs| < 3 || segs[0] != "api" || segs[1] != "v1" then NoRoute([])
    else
      var rest := segs[3..];
      if segs[2] == "bootcamps" then ResolveBootcamps(m, rest)
      else if segs[2] == "courses" then ResolveIn(CourseRoutes, 0, m, rest, map[], [])
      else if segs[2] == "users" then ResolveIn(UserRoutes, 0, m, rest, map[], UserRouterGuard)
      else if segs[2] == "auth" then ResolveIn(AuthRoutes, 0, m, rest, map[], [])
      else if segs[2] == "reviews" then ReviewsRouter
      else NoRoute([])
  }

  /** Where the request `m path` goes. */
  function Resolve(m: Method, path: string): (r: Resolution)
  {
    if StartsWith(path, "/") then ResolveSegments(m, Segments(path)) else NoRoute([])
  }

  /** The route a table walk lands on is one of its entries, for the
      request's method, behind the router-level prefix. */
  lemma {:induction false} ResolveInDeclared(table: seq<Entry>, start: nat, m: Method, segs: seq<string>,
                                             inherited: map<string, string>, prefix: seq<Step>)
    ensures var r := ResolveIn(table, start, m, segs, inherited, prefix);
      r.Served? ==> exists i :: start <= i < |table| && table[i].handler == r.handler &&
                                table[i].verb == m && r.chain == prefix + table[i].chain
    decreases |table| - start
  {
    if start < |table| {
      ResolveInDeclared(table, start + 1, m, segs, inherited, prefix);
    }
  }

  lemma DeclaredIn(table: seq<Entry>, prefix: seq<Step>, m: Method, segs: seq<string>, inherited: map<string, string>)
    ensures var r := ResolveIn(table, 0, m, segs, inherited, prefix);
      r.Served? ==> InTable(table, prefix, r.handler, r.chain)
  {
    ResolveInDeclared(table, 0, m, segs, inherited, prefix);
  }

  lemma BootcampsDeclared(m: Method, segs: seq<string>)
    ensures var r := ResolveBootcamps(m, segs);
      (r.Served? ==> InTable(BootcampRoutes, [], r.handler, r.chain) || InTable(CourseRoutes, [], r.handler, r.chain))
      && (r.NoRoute? ==> r.ran == [])
  {
    DeclaredIn(BootcampRoutes, [], m, segs, map[]);
    if |segs| >= 2 && segs[0] != [] && segs[1] == "courses" {
      DeclaredIn(CourseRoutes, [], m, segs[2..], map["bootcampId" := segs[0]]);
    }
  }

  /** Whether `h` behind `chain` is declared in one of the four tables. */
  predicate Declared(h: Handler, chain: seq<Step>)
  {
    || InTable(BootcampRoutes, [], h, chain)
    || InTable(CourseRoutes, [], h, chain)
    || InTable(UserRoutes, UserRouterGuard, h, chain)
    || InTable(AuthRoutes, [], h, chain)
  }

  lemma SegmentsDeclared(m: Method, segs: seq<string>)
    ensures var r := ResolveSegments(m, segs);
      (r.Served? ==> Declared(r.handler, r.chain)) && (r.NoRoute? ==> r.ran == [] || r.ran == UserRouterGuard)
  {
    if |segs| >= 3 && segs[0] == "api" && segs[1] == "v1" {
      var rest := segs[3..];
      if segs[2] == "bootcamps" {
        BootcampsDeclared(m, rest);
      } else if segs[2] == "courses" {
        DeclaredIn(CourseRoutes, [], m, rest, map[]);
      } else if segs[2] == "users" {
        DeclaredIn(UserRoutes, UserRouterGuard, m, rest, map[]);
      } else if segs[2] == "auth" {
        DeclaredIn(AuthRoutes, [], m, rest, map[]);
      }
    }
  }

  /** Every handler a request reaches is declared in one of the tables, with
      exactly the chain declared there (behind the router-wide guard for the
      users router); a request that reaches no handler has run no
      middleware, or only the users router's guard. */
  lemma ResolveDeclared(m: Method, path: string)
    ensures var r := Resolve(m, path);
      (r.Served? ==> Declared(r.handler, r.chain)) && (r.NoRoute? ==> r.ran == [] || r.ran == UserRouterGuard)
  {
    if StartsWith(path, "/") {
      SegmentsDeclared(m, Segments(path));
    }
  }

  /** The guards of a chain, run in order from an unauthenticated request:
      `Admit(u)` means the handler runs with `req.user == u`. The
      `advancedResults` step does not guard; its own failures are stated by
      `QueryBuilder.AdvancedResults`. */
  function RunChain(chain: seq<Step>, user: Option<User>, header: Option<string>,
                    verify: string -> Option<Id>, users: seq<User>): (v: Verdict)
    ensures ProtectStep !in chain && (forall i :: 0 <= i < |chain| ==> !chain[i].AuthorizeStep?) ==> v == Admit(user)
    decreases |chain|
  {
    if |chain| == 0 then Admit(user)
    else
      match chain[0]
      case ProtectStep =>
        (match Protect(header, verify, users)
         case Admit(u) => RunChain(chain[1..], u, header, verify, users)
         case other => other)
      case AuthorizeStep(roles) =>
        (match Authorize(user, roles)
         case Admit(u) => RunChain(chain[1..], u, header, verify, users)
         case other => other)
      case ResultsStep(_, _) =>
        assert forall i :: 1 <= i < |chain| ==> chain[i] == chain[1..][i - 1];
        RunChain(chain[1..], user, header, verify, users)
  }

  /** A chain that opens with `protect` answers 401 to a request without an
      Authorization header, before any user lookup. */
  lemma NoHeaderRefused(chain: seq<Step>, verify: string -> Option<Id>, users: seq<User>)
    requires |chain| > 0 && chain[0] == ProtectStep
    ensures RunChain(chain, None, None, verify, users) == Reject(401, AccessDenied)
  {
  }

  /** `protect` then `authorize(roles)` admits only an existing user whose
      role is listed. */
  lemma GuardAdmitsListedRoles(roles: seq<Role>, header: Option<string>, verify: string -> Option<Id>, users: seq<User>)
    ensures var v := RunChain([ProtectStep, AuthorizeStep(roles)], None, header, verify, users);
      v.Admit? ==> v.user.Some? && v.user.value in users && v.user.value.role in roles
  {
    var v := RunChain([ProtectStep, AuthorizeStep(roles)], None, header, verify, users);
    var p := Protect(header, verify, users);
    if p.Admit? {
      assert [ProtectStep, AuthorizeStep(roles)][1..] == [AuthorizeStep(roles)];
      assert [AuthorizeStep(roles)][1..] == [];
    }
  }

  predicate IsMutation(h: Handler)
  {
    h in {CreateBootcamp, UpdateBootcamp, DeleteBootcamp, BootcampPhotoUpload, AddCourse, UpdateCourse, DeleteCourse}
  }

  /** Every bootcamp and course mutation is declared behind `Guard` and
      nowhere else. */
  lemma MutationsGuarded(h: Handler, chain: seq<Step>)
    requires IsMutation(h) && Declared(h, chain)
    ensures chain == Guard
  {
    BootcampMutationsGuarded();
    CourseMutationsGuarded();
    OtherTablesDoNotMutate();
  }

  lemma BootcampMutationsGuarded()
    ensures forall i :: 0 <= i < |BootcampRoutes| && IsMutation(BootcampRoutes[i].handler) ==> BootcampRoutes[i].chain == Guard
  {
  }

  lemma CourseMutationsGuarded()
    ensures forall i :: 0 <= i < |CourseRoutes| && IsMutation(CourseRoutes[i].handler) ==> CourseRoutes[i].chain == Guard
  {
  }

  lemma OtherTablesDoNotMutate()
    ensures forall i :: 0 <= i < |UserRoutes| ==> !IsMutation(UserRoutes[i].handler)
    ensures forall i :: 0 <= i < |AuthRoutes| ==> !IsMutation(AuthRoutes[i].handler)
  {
  }

  /** End to end: whatever the request line and the token, a bootcamp or
      course mutation runs only for an existing publisher or admin, so a
      `user`-role identity never reaches one. */
  lemma MutationsNeedPublisherOrAdmin(m: Method, path: string, header: Option<string>,
                                        verify: string -> Option<Id>, users: seq<User>)
    ensures var r := Resolve(m, path);
      r.Served? && IsMutation(r.handler) && RunChain(r.chain, None, header, verify, users).Admit? ==>
        var u := RunChain(r.chain, None, header, verify, users).user;
        u.Some? && u.value in users && u.value.role != UserRole
  {
    var r := Resolve(m, path);
    if r.Served? && IsMutation(r.handler) {
      ResolveDeclared(m, path);
      MutationsGuarded(r.handler, r.chain);
      GuardAdmitsListedRoles(PublisherOrAdmin, header, verify, users);
    }
  }

  /** Whatever the path, a request that enters the users router meets
      `protect` then `authorize('admin')` first. */
  lemma UsersRouterGuarded(m: Method, path: string)
    requires StartsWith(path, "/")
    requires var segs := Segments(path); |segs| >= 3 && segs[0] == "api" && segs[1] == "v1" && segs[2] == "users"
    ensures var r := Resolve(m, path);
      (r.Served? && r.chain[..2] == UserRouterGuard) || r == NoRoute(UserRouterGuard)
  {
    var r := Resolve(m, path);
    ResolveInDeclared(UserRoutes, 0, m, Segments(path)[3..], map[], UserRouterGuard);
    if r.Served? {
      var i :| 0 <= i < |UserRoutes| && UserRoutes[i].handler == r.handler && r.chain == UserRouterGuard + UserRoutes[i].chain;
      assert r.chain[..2] == UserRouterGuard;
    }
  }

  /** No account the user schema accepts ever gets through the users router:
      `authorize('admin')` lets only an `admin` pass, and `RoleFromBody`
      never yields one. */
  lemma UsersRouterAdminsOnly(chain: seq<Step>, header: Option<string>, verify: string -> Option<Id>, users: seq<User>)
    requires |chain| >= 2 && chain[..2] == UserRouterGuard
    ensures var v := RunChain(chain, None, header, verify, users);
      v.Admit? ==> v.user.Some? && v.user.value in users && v.user.value.role == AdminRole
    ensures var v := RunChain(chain, None, header, verify, users);
      v.Admit? ==> v.user == Protect(header, verify, users).user
  {
    var p := Protect(header, verify, users);
    assert chain[0] == ProtectStep && chain[1] == AuthorizeStep([AdminRole]);
    if p.Admit? && p.user.Some? && p.user.value.role == AdminRole {
      assert chain[1..][0] == AuthorizeStep([AdminRole]);
      assert chain[1..][1..] == chain[2..];
      AdmittedUserKept(chain[2..], p.user, header, verify, users);
    }
  }

  /** Once `protect` has admitted a user, the steps after it keep that user:
      a later `protect` finds the same one and `authorize` passes the
      request on unchanged. */
  lemma {:induction false} AdmittedUserKept(chain: seq<Step>, user: Option<User>, header: Option<string>,
                                            verify: string -> Option<Id>, users: seq<User>)
    requires Protect(header, verify, users) == Admit(user)
    ensures RunChain(chain, user, header, verify, users).Admit? ==> RunChain(chain, user, header, verify, users).user == user
    decreases |chain|
  {
    if |chain| > 0 {
      AdmittedUserKept(chain[1..], user, header, verify, users);
    }
  }

  /** The auth router never gates on a role, and `protect` guards exactly
      the profile, details and password routes. */
  lemma AuthRoutesGuards()
    ensures forall i :: 0 <= i < |AuthRoutes| ==> forall j :: 0 <= j < |AuthRoutes[i].chain| ==> !AuthRoutes[i].chain[j].AuthorizeStep?
    ensures forall i :: 0 <= i < |AuthRoutes| ==>
              (AuthRoutes[i].chain == [ProtectStep] <==> AuthRoutes[i].handler in {UserProfile, UpdateDetails, UpdatePassword})
    ensures forall i :: 0 <= i < |AuthRoutes| ==>
              AuthRoutes[i].chain == [] || AuthRoutes[i].chain == [ProtectStep]
  {
  }

  /** The path `/p0/p1/...` built from its pieces. */
  function Path(pieces: seq<string>): (p: string)
    ensures |pieces| > 0 ==> StartsWith(p, "/")
    decreases |pieces|
  {
    if |pieces| == 0 then [] else "/" + pieces[0] + Path(pieces[1..])
  }

  /** Splitting the first piece followed by the path of the rest gives the
      pieces back. */
  lemma {:induction false} SplitPieces(pieces: seq<string>)
    requires |pieces| >= 1
    requires forall i :: 0 <= i < |pieces| ==> '/' !in pieces[i]
    ensures Split(pieces[0] + Path(pieces[1..]), '/') == pieces
    decreases |pieces|
  {
    if |pieces| == 1 {
      assert pieces[0] + Path(pieces[1..]) == pieces[0];
      SplitWithout(pieces[0], '/');
    } else {
      var tail := pieces[1..];
      assert pieces[0] + Path(tail) == pieces[0] + ['/'] + (tail[0] + Path(tail[1..]));
      SplitAfter(pieces[0], tail[0] + Path(tail[1..]), '/');
      SplitPieces(tail);
    }
  }

  /** The segments of a path built from separator-free, non-empty pieces
      are those pieces. */
  lemma SegmentsOf(pieces: seq<string>)
    requires |pieces| >= 1
    requires forall i :: 0 <= i < |pieces| ==> pieces[i] != [] && '/' !in pieces[i]
    ensures Segments(Path(pieces)) == pieces
  {
    assert Path(pieces) == [] + ['/'] + (pieces[0] + Path(pieces[1..]));
    SplitAfter([], pieces[0] + Path(pieces[1..]), '/');
    SplitPieces(pieces);
  }

  lemma {:induction false} PathSnoc(pieces: seq<string>, x: string)
    ensures Path(pieces + [x]) == Path(pieces) + "/" + x
    decreases |pieces|
  {
    if |pieces| == 0 {
      assert pieces + [x] == [x];
      assert [x][1..] == [];
    } else {
      assert (pieces + [x])[1..] == pieces[1..] + [x];
      PathSnoc(pieces[1..], x);
    }
  }

  lemma ApiPath()
    ensures Path(["api", "v1"]) == "/api/v1"
  {
  }

  /** Routes that differ in method or in segment count are passed over. */
  lemma {:induction false} SkipRoutes(table: seq<Entry>, start: nat, stop: nat, m: Method, segs: seq<string>,
                                      inherited: map<string, string>, prefix: seq<Step>)
    requires start <= stop <= |table|
    requires forall j :: start <= j < stop ==> table[j].verb != m || |table[j].pattern| != |segs|
    ensures ResolveIn(table, start, m, segs, inherited, prefix) == ResolveIn(table, stop, m, segs, inherited, prefix)
    decreases stop - start
  {
    if start < stop {
      SkipRoutes(table, start + 1, stop, m, segs, inherited, prefix);
    }
  }

  /** A route whose method and pattern fit takes the request. */
  lemma TakeRoute(table: seq<Entry>, k: nat, m: Method, segs: seq<string>,
                  inherited: map<string, string>, prefix: seq<Step>, ps: map<string, string>)
    requires k < |table| && table[k].verb == m && MatchPattern(table[k].pattern, segs) == Some(ps)
    ensures ResolveIn(table, k, m, segs, inherited, prefix) == Served(prefix + table[k].chain, table[k].handler, inherited + ps)
  {
  }

  lemma MatchParam(n: string, v: string)
    requires v != []
    ensures MatchPattern([Param(n)], [v]) == Some(map[n := v])
  {
    assert [Param(n)][1..] == [] && [v][1..] == [];
  }

  lemma MatchLitParam(l: string, n: string, v: string)
    requires v != []
    ensures MatchPattern([Lit(l), Param(n)], [l, v]) == Some(map[n := v])
  {
    MatchParam(n, v);
    assert [Lit(l), Param(n)][1..] == [Param(n)] && [l, v][1..] == [v];
  }

  lemma MatchLitTwoParams(l: string, n1: string, n2: string, v1: string, v2: string)
    requires v1 != [] && v2 != []
    ensures MatchPattern([Lit(l), Param(n1), Param(n2)], [l, v1, v2]) == Some(map[n2 := v2, n1 := v1])
  {
    MatchParam(n2, v2);
    assert [Param(n1), Param(n2)][1..] == [Param(n2)] && [v1, v2][1..] == [v2];
    assert MatchPattern([Param(n1), Param(n2)], [v1, v2]) == Some(map[n2 := v2, n1 := v1]);
    assert [Lit(l), Param(n1), Param(n2)][1..] == [Param(n1), Param(n2)] && [l, v1, v2][1..] == [v1, v2];
  }

  // The concrete routes below are each proved from three small facts: the
  // path spelled as its pieces, the segments of that path, and the walk
  // through the tables.

  lemma BootcampsMount()
    ensures Path(["api", "v1", "bootcamps"]) == "/api/v1/bootcamps"
  {
    ApiPath();
    PathSnoc(["api", "v1"], "bootcamps");
    assert ["api", "v1"] + ["bootcamps"] == ["api", "v1", "bootcamps"];
  }

  lemma BootcampListPath()
    ensures "/api/v1/bootcamps" == Path(["api", "v1", "bootcamps"])
  {
    BootcampsMount();
  }

  lemma BootcampListWalk()
    ensures ResolveSegments(Get, ["api", "v1", "bootcamps"]) ==
              Served([ResultsStep(BootcampCollection, Some("courses"))], GetBootcamps, map[])
  {
    var ps := ["api", "v1", "bootcamps"];
    assert ps[3..] == [];
    assert ResolveSegments(Get, ps) == ResolveBootcamps(Get, []);
    assert MatchPattern(BootcampRoutes[0].pattern, []) == None;
    assert ResolveIn(BootcampRoutes, 0, Get, [], map[], []) == ResolveIn(BootcampRoutes, 1, Get, [], map[], []);
    assert MatchPattern(BootcampRoutes[1].pattern, []) == Some(map[]);
  }

  /** The list of bootcamps runs the list query, populating `courses`. */
  lemma BootcampListQueried()
    ensures Resolve(Get, "/api/v1/bootcamps") == Served([ResultsStep(BootcampCollection, Some("courses"))], GetBootcamps, map[])
  {
    BootcampListPath();
    SegmentsOf(["api", "v1", "bootcamps"]);
    BootcampListWalk();
  }

  lemma BootcampPath(id: string)
    ensures "/api/v1/bootcamps/" + id == Path(["api", "v1", "bootcamps", id])
  {
    var base := ["api", "v1", "bootcamps"];
    BootcampsMount();
    PathSnoc(base, id);
    assert base + [id] == ["api", "v1", "bootcamps", id];
    assert "/api/v1/bootcamps/" == "/api/v1/bootcamps" + "/";
  }

  lemma BootcampWalk(id: string)
    requires id != []
    ensures ResolveSegments(Get, ["api", "v1", "bootcamps", id]) == Served([], GetBootcamp, map["id" := id])
  {
    var ps := ["api", "v1", "bootcamps", id];
    assert ps[3..] == [id];
    assert ResolveSegments(Get, ps) == ResolveIn(BootcampRoutes, 0, Get, [id], map[], []);
    SkipRoutes(BootcampRoutes, 0, 3, Get, [id], map[], []);
    MatchParam("id", id);
    TakeRoute(BootcampRoutes, 3, Get, [id], map[], [], map["id" := id]);
  }

  /** A single bootcamp is public. */
  lemma BootcampPublic(id: string)
    requires id != [] && '/' !in id
    ensures Resolve(Get, "/api/v1/bootcamps/" + id) == Served([], GetBootcamp, map["id" := id])
  {
    BootcampPath(id);
    SegmentsOf(["api", "v1", "bootcamps", id]);
    BootcampWalk(id);
  }


  lemma RadiusPath(zipcode: string, distance: string)
    ensures "/api/v1/bootcamps/radius/" + zipcode + "/" + distance ==
              Path(["api", "v1", "bootcamps", "radius", zipcode, distance])
  {
    var base := ["api", "v1", "bootcamps"];
    BootcampsMount();
    PathSnoc(base, "radius");
    PathSnoc(base + ["radius"], zipcode);
    PathSnoc(base + ["radius"] + [zipcode], distance);
    assert base + ["radius"] + [zipcode] + [distance] == ["api", "v1", "bootcamps", "radius", zipcode, distance];
    assert "/api/v1/bootcamps/radius/" == "/api/v1/bootcamps" + "/" + "radius" + "/";
  }

  lemma RadiusWalk(zipcode: string, distance: string)
    requires zipcode != [] && distance != []
    requires zipcode != "courses" && zipcode != "reviews"
    ensures ResolveSegments(Get, ["api", "v1", "bootcamps", "radius", zipcode, distance]) ==
              ResolveIn(BootcampRoutes, 0, Get, ["radius", zipcode, distance], map[], [])
  {
    var ps := ["api", "v1", "bootcamps", "radius", zipcode, distance];
    var t := ["radius", zipcode, distance];
    assert ps[3..] == t;
    assert ResolveSegments(Get, ps) == ResolveBootcamps(Get, t);
  }

  lemma RadiusRoute(zipcode: string, distance: string)
    requires zipcode != [] && distance != []
    ensures ResolveIn(BootcampRoutes, 0, Get, ["radius", zipcode, distance], map[], []) ==
              Served([], BootcampsInRadius, map["zipcode" := zipcode, "distance" := distance])
  {
    MatchLitTwoParams("radius", "zipcode", "distance", zipcode, distance);
    TakeRoute(BootcampRoutes, 0, Get, ["radius", zipcode, distance], map[], [],
              map["distance" := distance, "zipcode" := zipcode]);
  }

  /** The radius search is public and binds both parameters, unless the
      zipcode reads `courses` or `reviews`, which the nested mounts in front
      of it take. */
  lemma RadiusPublic(zipcode: string, distance: string)
    requires zipcode != [] && distance != [] && '/' !in zipcode && '/' !in distance
    requires zipcode != "courses" && zipcode != "reviews"
    ensures Resolve(Get, "/api/v1/bootcamps/radius/" + zipcode + "/" + distance) ==
              Served([], BootcampsInRadius, map["zipcode" := zipcode, "distance" := distance])
  {
    RadiusPath(zipcode, distance);
    SegmentsOf(["api", "v1", "bootcamps", "radius", zipcode, distance]);
    RadiusWalk(zipcode, distance);
    RadiusRoute(zipcode, distance);
  }

  lemma NestedCoursesPath(bid: string)
    ensures "/api/v1/bootcamps/" + bid + "/courses" == Path(["api", "v1", "bootcamps", bid, "courses"])
  {
    var base := ["api", "v1", "bootcamps"];
    BootcampsMount();
    PathSnoc(base, bid);
    PathSnoc(base + [bid], "courses");
    assert base + [bid] + ["courses"] == ["api", "v1", "bootcamps", bid, "courses"];
    assert "/api/v1/bootcamps/" == "/api/v1/bootcamps" + "/";
  }

  lemma NestedCoursesWalk(bid: string)
    requires bid != []
    ensures ResolveSegments(Get, ["api", "v1", "bootcamps", bid, "courses"]) == Served([], GetCourses, map["bootcampId" := bid])
    ensures ResolveSegments(Post, ["api", "v1", "bootcamps", bid, "courses"]) == Served(Guard, AddCourse, map["bootcampId" := bid])
  {
    var ps := ["api", "v1", "bootcamps", bid, "courses"];
    var t := [bid, "courses"];
    assert ps[3..] == t && t[2..] == [];
    assert ResolveSegments(Get, ps) == ResolveBootcamps(Get, t);
    assert ResolveSegments(Post, ps) == ResolveBootcamps(Post, t);
    var inherited := map["bootcampId" := bid];
    assert ResolveBootcamps(Get, t) == ResolveIn(CourseRoutes, 0, Get, [], inherited, []);
    assert MatchPattern(CourseRoutes[0].pattern, []) == Some(map[]);
    assert inherited + map[] == inherited;
    assert ResolveBootcamps(Post, t) == ResolveIn(CourseRoutes, 0, Post, [], inherited, []);
    assert ResolveIn(CourseRoutes, 0, Post, [], inherited, []) == ResolveIn(CourseRoutes, 1, Post, [], inherited, []);
    assert MatchPattern(CourseRoutes[1].pattern, []) == Some(map[]);
  }

  /** The nested course list sees the parent's `bootcampId`, and adding a
      course under a bootcamp is guarded. */
  lemma NestedCourses(bid: string)
    requires bid != [] && '/' !in bid
    ensures Resolve(Get, "/api/v1/bootcamps/" + bid + "/courses") == Served([], GetCourses, map["bootcampId" := bid])
    ensures Resolve(Post, "/api/v1/bootcamps/" + bid + "/courses") == Served(Guard, AddCourse, map["bootcampId" := bid])
  {
    NestedCoursesPath(bid);
    SegmentsOf(["api", "v1", "bootcamps", bid, "courses"]);
    NestedCoursesWalk(bid);
  }

  lemma LinkPath(raw: string)
    ensures AuthController.LinkPathAsWritten(raw) == Path(["api", "v1", "forgotpassword", raw])
  {
    var base := ["api", "v1", "forgotpassword"];
    ApiPath();
    PathSnoc(["api", "v1"], "forgotpassword");
    assert ["api", "v1"] + ["forgotpassword"] == base;
    PathSnoc(base, raw);
    assert base + [raw] == ["api", "v1", "forgotpassword", raw];
    assert "/api/v1/forgotpassword/" == "/api/v1" + "/" + "forgotpassword" + "/";
  }

  lemma LinkUnmounted(raw: string)
    ensures ResolveSegments(Put, ["api", "v1", "forgotpassword", raw]) == NoRoute([])
  {
  }

  /** The emailed reset link as written reaches no route. */
  lemma ResetLinkMissesRoute(raw: string)
    requires raw != [] && '/' !in raw
    ensures Resolve(Put, AuthController.LinkPathAsWritten(raw)) == NoRoute([])
  {
    LinkPath(raw);
    SegmentsOf(["api", "v1", "forgotpassword", raw]);
    LinkUnmounted(raw);
  }

  lemma ResetMount()
    ensures Path(["api", "v1", "auth", "resetpassword"]) == "/api/v1/auth/resetpassword"
  {
    ApiPath();
    PathSnoc(["api", "v1"], "auth");
    assert ["api", "v1"] + ["auth"] == ["api", "v1", "auth"];
    PathSnoc(["api", "v1", "auth"], "resetpassword");
    assert ["api", "v1", "auth"] + ["resetpassword"] == ["api", "v1", "auth", "resetpassword"];
    assert "/api/v1/auth/resetpassword" == "/api/v1" + "/" + "auth" + "/" + "resetpassword";
  }

  lemma ResetPath(raw: string)
    ensures AuthController.ResetPath(raw) == Path(["api", "v1", "auth", "resetpassword", raw])
  {
    var base := ["api", "v1", "auth", "resetpassword"];
    ResetMount();
    PathSnoc(base, raw);
    assert base + [raw] == ["api", "v1", "auth", "resetpassword", raw];
    assert "/api/v1/auth/resetpassword/" == "/api/v1/auth/resetpassword" + "/";
  }

  lemma ResetRouteSkips(raw: string)
    ensures ResolveIn(AuthRoutes, 0, Put, ["resetpassword", raw], map[], []) ==
              ResolveIn(AuthRoutes, 7, Put, ["resetpassword", raw], map[], [])
  {
    SkipRoutes(AuthRoutes, 0, 7, Put, ["resetpassword", raw], map[], []);
  }

  lemma ResetRouteTaken(raw: string)
    requires raw != []
    ensures ResolveIn(AuthRoutes, 7, Put, ["resetpassword", raw], map[], []) == Served([], ResetPassword, map["resettoken" := raw])
  {
    MatchLitParam("resetpassword", "resettoken", raw);
    TakeRoute(AuthRoutes, 7, Put, ["resetpassword", raw], map[], [], map["resettoken" := raw]);
  }

  lemma ResetRouteMount(raw: string)
    ensures ResolveSegments(Put, ["api", "v1", "auth", "resetpassword", raw]) ==
              ResolveIn(AuthRoutes, 0, Put, ["resetpassword", raw], map[], [])
  {
    var ps := ["api", "v1", "auth", "resetpassword", raw];
    assert ps[3..] == ["resetpassword", raw];
  }

  /** The corrected reset link reaches `resetPassword` with the raw token as
      its `resettoken` parameter. */
  lemma ResetLinkReachesRoute(raw: string)
    requires raw != [] && '/' !in raw
    ensures Resolve(Put, AuthController.ResetPath(raw)) == Served([], ResetPassword, map["resettoken" := raw])
  {
    ResetPath(raw);
    SegmentsOf(["api", "v1", "auth", "resetpassword", raw]);
    ResetRouteMount(raw);
    ResetRouteSkips(raw);
    ResetRouteTaken(raw);
  }
}

=== FILE: user_model.dfy ===
/** The user schema's validators and the reset-token issuer. Strings are
    sequences of Unicode scalar values; JavaScript counts UTF-16 code units,
    so lengths of text outside the Basic Multilingual Plane differ. */
module UserModel {
  import opened Common
  import opened Records

  /** The `role` field: the enum admits `user` and `publisher`, an absent
      value takes the default `user`, and every other string (`admin`
      included) fails validation, reported as `None`. */
  function RoleFromBody(role: Option<string>): (r: Option<Role>)
    ensures r.Some? ==> r.value != AdminRole
    ensures role.None? ==> r == Some(UserRole)
    ensures role.Some? ==> (r.Some? <==> role.value == "user" || role.value == "publisher")
    ensures r.Some? && role.Some? ==> r.value.Name() == role.value
  {
    if role.None? then Some(UserRole)
    else if role.value == "user" then Some(UserRole)
    else if role.value == "publisher" then Some(PublisherRole)
    else None
  }

  /** The characters `.` in a JavaScript regular expression refuses. */
  predicate IsLineTerminator(c: char)
  {
    c == '\n' || c == '\r' || c == '\U{2028}' || c == '\U{2029}'
  }

  predicate IsAsciiDigit(c: char) { '0' <= c <= '9' }
  predicate IsUpper(c: char) { 'A' <= c <= 'Z' }
  predicate IsLower(c: char) { 'a' <= c <= 'z' }

  /** `\w`; `\W` is its complement. */
  predicate IsRegexWord(c: char)
  {
    IsAsciiDigit(c) || IsUpper(c) || IsLower(c) || c == '_'
  }

  /** What the password pattern
      `(?=^.{8,}$)((?=.*\d)|(?=.*\W+))(?![.\n])(?=.*[A-Z])(?=.*[a-z]).*$`
      accepts. Without the `m` flag `^` holds only at position 0, so the
      lookaheads all look at the whole string: at least eight characters, no
      line terminator, a digit or a non-word character somewhere, a first
      character other than `.`, an upper-case and a lower-case ASCII
      letter. */
  predicate StrongPassword(s: string)
  {
    && |s| >= 8
    && (forall i :: 0 <= i < |s| ==> !IsLineTerminator(s[i]))
    && (exists i :: 0 <= i < |s| && (IsAsciiDigit(s[i]) || !IsRegexWord(s[i])))
    && s[0] != '.'
    && (exists i :: 0 <= i < |s| && IsUpper(s[i]))
    && (exists i :: 0 <= i < |s| && IsLower(s[i]))
  }

  /** One left-to-right pass that decides the pattern. */
  method CheckPassword(s: string) returns (ok: bool)
    ensures ok <==> StrongPassword(s)
  {
    if |s| < 8 || s[0] == '.' {
      return false;
    }
    var digitOrSymbol, upper, lower := false, false, false;
    var i := 0;
    while i < |s|
      invariant 0 <= i <= |s|
      invariant forall j :: 0 <= j < i ==> !IsLineTerminator(s[j])
      invariant digitOrSymbol <==> exists j :: 0 <= j < i && (IsAsciiDigit(s[j]) || !IsRegexWord(s[j]))
      invariant upper <==> exists j :: 0 <= j < i && IsUpper(s[j])
      invariant lower <==> exists j :: 0 <= j < i && IsLower(s[j])
    {
      var c := s[i];
      if IsLineTerminator(c) {
        return false;
      }
      digitOrSymbol := digitOrSymbol || IsAsciiDigit(c) || !IsRegexWord(c);
      upper := upper || IsUpper(c);
      lower := lower || IsLower(c);
      i := i + 1;
    }
    ok := digitOrSymbol && upper && lower;
  }

  /** Ten minutes in milliseconds: `10 * 60 * 1000`. */
  /** Whether `user.save()` accepts a record whose password was just set to
      `p`. Without `validateBeforeSave: false` the save validates every path
      it loaded, not only the modified ones: the new password must be present
      and match the pattern, and the role must be in the enum, which an
      `admin` record never is. */
  predicate SaveAccepts(u: User, p: Option<string>)
  {
    p.Some? && StrongPassword(p.value) && RoleFromBody(Some(u.role.Name())).Some?
  }

  /** An admin's record never passes a validated save. */
  lemma AdminSaveRefused(u: User, p: Option<string>)
    ensures SaveAccepts(u, p) <==> p.Some? && StrongPassword(p.value) && u.role != AdminRole
  {
  }

  const ResetWindow: int := 600000

  /** `getForgotPasswordResetToken`: `raw` is the random hex token (an input
      here), `hash` stands for SHA-256 to hex and `now` for `Date.now()`.
      Returns the updated user and the raw token handed back to the caller. */
  function IssueResetToken(u: User, raw: string, now: int, hash: string -> string): (r: (User, string))
    ensures r.1 == raw
    ensures r.0.resetToken == Some(hash(raw))
    ensures r.0.resetExpire == Some(now + ResetWindow) && r.0.resetExpire.value > now
    ensures r.0.(resetToken := u.resetToken, resetExpire := u.resetExpire) == u
  {
    (u.(resetToken := Some(hash(raw)), resetExpire := Some(now + 10 * 60 * 1000)), raw)
  }

  /** Examples of the pattern's decisions. */
  lemma PasswordExamples()
    ensures StrongPassword("Passw0rd")
    ensures !StrongPassword("password1")
    ensures !StrongPassword(".Passw0rd")
    ensures !StrongPassword("Pass0rd")
    ensures StrongPassword("Password!")
  {
    var a := "Passw0rd";
    assert IsUpper(a[0]) && IsLower(a[1]) && IsAsciiDigit(a[5]);
    var b := "Password!";
    assert IsUpper(b[0]) && IsLower(b[1]) && !IsRegexWord(b[8]);
    var c := "password1";
    assert forall i :: 0 <= i < |c| ==> !IsUpper(c[i]);
  }
}
